=== FILE: README.md ===
# Algorithm visualizer core in Dafny

This project models the logic behind an algorithm-visualizer web
application. The application has three groups of pages, and each page keeps
its algorithm's state in React state:

- **Sorting.** Quick sort and merge sort record a snapshot of the array
  after every step, then play the snapshots back one at a time.
- **Graph search.** BFS, DFS and Dijkstra run over small fixed six-node
  graphs labelled `A` to `F`.
- **Data structures.** A binary search tree, a singly linked list, a doubly
  linked list, a stack and a queue, each with insert, remove and search
  operations.

Each module below is one visualizer's algorithm, written as pure functions
over immutable data:

- `QuickSort` and `MergeSort` model the sorts and the snapshots they record.
- `InputParse` models the comma-separated input box.
- `SortPlayer` models the shared playback controls: start, reset,
  play/pause, next step and the autoplay tick.
- `SearchGraph` holds the BFS/DFS graph. `Bfs`, `Dfs` and `Dijkstra` model
  the three traversals.
- `Bst`, `LinkedList`, `DoublyLinkedList`, `Stack` and `Queue` model the
  structures.
- `Common` holds shared sequence helpers: sortedness, duplicate-freedom,
  `IndexOf`, `RemoveFirst` and `Reverse`.

A visualizer's async walks (`await` on a timer between steps) become plain
loops or recursions. The `toast` messages become report values: `NotFound`,
`EmptyError`, `Missing` and so on.

Two behaviours of the code as written differ from what it evidently
intends. Both are modelled as written and corrected under "## Findings":

- The merge step's advance rule can drop values.
- BFS reads `visited` flags that never change.

## Model

| member | source | states |
|---|---|---|
| InputParse.Split | src/components/sorting/QuickSortVisualizer.tsx:28 | `split(',')` yields at least one piece, no piece holds a comma, and joining the pieces with commas gives back the input |
| InputParse.TrimStart | src/components/sorting/QuickSortVisualizer.tsx:28 | `trim` at the front drops exactly the leading whitespace and nothing else; whitespace is every code point JavaScript's `trim` removes: tab, line tabulation, form feed, space, no-break space, the byte order mark, the space separators and the four line terminators |
| InputParse.TrimEnd | src/components/sorting/QuickSortVisualizer.tsx:28 | `trim` at the end drops exactly the trailing whitespace, in the same sense, and nothing else |
| InputParse.Trim | src/components/sorting/QuickSortVisualizer.tsx:28 | `trim` never lengthens a token, leaves no whitespace at either end, and leaves a token with no whitespace at its ends unchanged |
| InputParse.TokenValues | src/components/sorting/QuickSortVisualizer.tsx:28 | one token contributes at most one value, and exactly one when `parseInt` of the trimmed token is a number (the NaN filter) |
| InputParse.KeepParsed | src/components/sorting/QuickSortVisualizer.tsx:28 | the map-and-filter over the pieces yields at most one value per piece |
| InputParse.ParseValues | src/components/sorting/QuickSortVisualizer.tsx:28 | the input yields at most one value per comma-separated piece, and at most one value when it holds no comma |
| InputParse.TokenValuesOfIntToString | src/components/sorting/QuickSortVisualizer.tsx:28 | the decimal text of any integer is a token contributing exactly that integer |
| InputParse.NumberToken | src/components/sorting/QuickSortVisualizer.tsx:28 | an input holding just the decimal text of an integer yields that integer alone |
| InputParse.NotSeparator | src/components/sorting/QuickSortVisualizer.tsx:28 | the decimal text of an integer never holds a comma, so it is never split |
| InputParse.NoBreakNumberToken | src/components/sorting/QuickSortVisualizer.tsx:28 | a no-break space before a number is trimmed away and the number is read |
| InputParse.NoBreakSpaceTrimmed | src/components/sorting/QuickSortVisualizer.tsx:28 | `a,<no-break space>b` reads as the two values `a` and `b`, as `trim` removes the no-break space |
| InputParse.ParseInt | src/components/sorting/QuickSortVisualizer.tsx:28 | `parseInt` yields a number exactly when, after an optional sign, the token starts with a digit; otherwise it is NaN |
| InputParse.ParseIntOfIntToString | src/components/sorting/QuickSortVisualizer.tsx:28 | every integer written in decimal reads back as itself |
| InputParse.LeadingDigitsOf | src/components/sorting/QuickSortVisualizer.tsx:28 | the digit run read from a token is exactly the digits before its first non-digit |
| InputParse.ParseIntOfDigits | src/components/sorting/QuickSortVisualizer.tsx:28 | a digit run followed by text that does not start with a digit reads as the run's decimal value |
| InputParse.ParseIntOfNegDigits | src/components/sorting/QuickSortVisualizer.tsx:28 | the same run after a minus sign reads as the negated value |
| InputParse.ParseIntLeading | src/components/sorting/QuickSortVisualizer.tsx:28 | a decimal integer followed by anything not starting with a digit reads as that integer: the trailing text is ignored |
| InputParse.ParseIntLeadingZeros | src/components/sorting/QuickSortVisualizer.tsx:28 | leading zeros are skipped: `007` reads as 7 |
| InputParse.ParseIntExamples | src/components/sorting/QuickSortVisualizer.tsx:28 | `12abc` reads as 12, `3.7` as 3, `-5px` as -5, and `abc` as NaN |
| InputParse.SplitJoin | src/components/sorting/QuickSortVisualizer.tsx:28 | splitting comma-joined comma-free tokens gives back exactly those tokens |
| InputParse.KeepParsedAppend | src/components/sorting/QuickSortVisualizer.tsx:28 | the NaN filter works token by token: filtering a concatenation concatenates the filtered parts |
| InputParse.ParseFormatRoundTrip | src/components/sorting/QuickSortVisualizer.tsx:28 | writing a list of integers as comma-separated text and reading it back gives the same list |
| InputParse.ParseValuesConcat | src/components/sorting/QuickSortVisualizer.tsx:28 | the values of `a,b` are the values of `a` followed by those of `b` |
| InputParse.ParseValuesToken | src/components/sorting/QuickSortVisualizer.tsx:28 | a single token contributes its parsed number, or nothing when it parses to NaN |
| SortPlayer.LoadInput | src/components/sorting/QuickSortVisualizer.tsx:26-54 | input with no numbers leaves the page unchanged (the error path); otherwise the parsed values are loaded, the steps are cleared and the index returns to 0; the playing flag is unchanged |
| SortPlayer.Start | src/components/sorting/QuickSortVisualizer.tsx:130-144 | with no values nothing happens; otherwise the recorded steps are installed, the index returns to 0 and playback starts |
| SortPlayer.Reset | src/components/sorting/QuickSortVisualizer.tsx:146-151 | reset keeps the values, drops the steps and stops playback, leaving a valid index |
| SortPlayer.TogglePlay | src/components/sorting/QuickSortVisualizer.tsx:153-155 | play/pause flips the playing flag and changes nothing else |
| SortPlayer.NextStep | src/components/sorting/QuickSortVisualizer.tsx:157-161 | next step advances the index by one unless it is already on the last snapshot; it never leaves the recorded range |
| SortPlayer.Tick | src/components/sorting/QuickSortVisualizer.tsx:167-187 | an autoplay tick advances while playing, and on the last snapshot stops playing without advancing |
| SortPlayer.Display | src/components/sorting/QuickSortVisualizer.tsx:189 | the bars shown are the loaded values before sorting and otherwise the snapshot at the current index |
| SortPlayer.PlaybackShows | src/components/sorting/QuickSortVisualizer.tsx:167-189 | after starting playback and `k` ticks, the index is in range and the bars show snapshot `k`, for every `k` before the last |
| SortPlayer.PlaybackEndsOnLast | src/components/sorting/QuickSortVisualizer.tsx:167-189 | after starting playback and one tick per snapshot, playback has stopped and the bars show the last snapshot |
| SortPlayer.AutoplayStopsAtLast | src/components/sorting/QuickSortVisualizer.tsx:167-187 | autoplay walks the snapshots one per tick and stops on the last one |
| SortPlayer.TickNInRange | src/components/sorting/QuickSortVisualizer.tsx:167-187 | any number of ticks keeps the index inside the recorded snapshots |
| QuickSort.Swap | src/components/sorting/QuickSortVisualizer.tsx:93 | the swap exchanges two positions, keeps the rest and is a permutation |
| QuickSort.Partition | src/components/sorting/QuickSortVisualizer.tsx:75-110 | Lomuto partition: the last element of the range ends at the returned index, with smaller values before it and values at least as large after it. The range is permuted and the rest untouched. Every recorded snapshot is a permutation of the input, and the last one is the result |
| QuickSort.ScanStep | src/components/sorting/QuickSortVisualizer.tsx:82-98 | one scan step keeps the partition invariant; `i` grows exactly when the scanned value is below the pivot |
| QuickSort.PivotSwap | src/components/sorting/QuickSortVisualizer.tsx:100-107 | the final swap puts the pivot between the smaller and the not-smaller values |
| QuickSort.SortRange | src/components/sorting/QuickSortVisualizer.tsx:112-119 | the recursive sort leaves its range sorted and permuted, touches nothing outside it, and records only permutations of the input |
| QuickSort.PartitionedThenSorted | src/components/sorting/QuickSortVisualizer.tsx:112-119 | partitioning and then sorting both sides sorts the whole range |
| QuickSort.QuickSortSteps | src/components/sorting/QuickSortVisualizer.tsx:71-128 | the recorded steps end with a sorted permutation of the input; every step is a permutation; a 0- or 1-element input records only itself |
| QuickSort.StartSorting | src/components/sorting/QuickSortVisualizer.tsx:130-144 | starting quick sort on loaded values plays steps whose last one is the input sorted, and autoplay stops showing a sorted permutation of the loaded values |
| MergeSort.Placed | src/components/sorting/MergeSortVisualizer.tsx:88-94 | while both sides have values, the merge writes the right value exactly when it is strictly smaller and the left value otherwise, so ties take the left value; afterwards it writes whichever side is left |
| MergeSort.MergeFrom | src/components/sorting/MergeSortVisualizer.tsx:88-114 | the merge loops place exactly as many values as the two runs have left |
| MergeSort.MergeLoop | src/components/sorting/MergeSortVisualizer.tsx:86-114 | the merge loops write back into an array of the same length |
| MergeSort.MergeWrite | src/components/sorting/MergeSortVisualizer.tsx:76-121 | a merge keeps the array's length |
| MergeSort.MergeWriteSplice | src/components/sorting/MergeSortVisualizer.tsx:76-121 | a merge writes the merged values over `[left, right]` and leaves everything else as it was |
| MergeSort.SortRange | src/components/sorting/MergeSortVisualizer.tsx:123-137 | the recursive sort keeps the array's length and leaves a range of at most one element unchanged |
| MergeSort.Final | src/components/sorting/MergeSortVisualizer.tsx:139-143 | the final snapshot has the input's length and is the array after the recursive sort of the whole range |
| MergeSort.AdvancesLeft | src/components/sorting/MergeSortVisualizer.tsx:96 | under the corrected rule the left cursor advances exactly when the left value was written |
| MergeSort.MergeSnapshots | src/components/sorting/MergeSortVisualizer.tsx:76-121 | a merge records its start, one snapshot per placed value and the unmarked end, ending on the merged array |
| MergeSort.SortSnapshots | src/components/sorting/MergeSortVisualizer.tsx:123-137 | a range of two or more records snapshots starting from the array as it was; smaller ranges record nothing |
| MergeSort.MergeSortSteps | src/components/sorting/MergeSortVisualizer.tsx:72-146 | the steps keep the array's length, start from the input and end on the array the recursive sort produces for the whole input |
| MergeSort.StartSorting | src/components/sorting/MergeSortVisualizer.tsx:148-162 | starting merge sort installs the as-written merge sort's steps and starts playback |
| MergeSort.PlaybackEndsOnFinal | src/components/sorting/MergeSortVisualizer.tsx:139-162 | autoplay of the merge sort page stops on the final snapshot, which is sorted |
| MergeSort.SortRangeFrame | src/components/sorting/MergeSortVisualizer.tsx:123-137 | sorting a range leaves everything outside it unchanged |
| MergeSort.MergeFromSorted | src/components/sorting/MergeSortVisualizer.tsx:88-114 | merging two sorted runs yields a sorted run under either advance rule |
| MergeSort.MergeSortsRange | src/components/sorting/MergeSortVisualizer.tsx:76-121 | a merge of two sorted halves leaves the whole range sorted |
| MergeSort.SortRangeSorted | src/components/sorting/MergeSortVisualizer.tsx:123-137 | the recursive sort leaves its range sorted under either advance rule |
| MergeSort.FinalSorted | src/components/sorting/MergeSortVisualizer.tsx:139-143 | the final array is sorted, even as written |
| MergeSort.MergeFromValues | src/components/sorting/MergeSortVisualizer.tsx:88-114 | every merged value comes from the two runs |
| MergeSort.FinalValuesFromInput | src/components/sorting/MergeSortVisualizer.tsx:72-146 | every value in the final array occurs in the input |
| MergeSort.AsWrittenLosesValue | src/components/sorting/MergeSortVisualizer.tsx:96 | as written, sorting `[1, 2]` shows `[1, 1]`: the result is not a permutation of the input |
| MergeSort.MergeFromPerm | src/components/sorting/MergeSortVisualizer.tsx:88-114 | with the corrected rule the merged run is exactly the two runs' values, as a multiset |
| MergeSort.SortRangePerm | src/components/sorting/MergeSortVisualizer.tsx:123-137 | with the corrected rule sorting a range permutes the array |
| MergeSort.BySourceSortsInput | src/components/sorting/MergeSortVisualizer.tsx:72-146 | with the corrected rule the final array is the input sorted: sorted and a permutation |
| SearchGraph.NeighborsWellFormed | src/components/search/BFSVisualizer.tsx:21-28 | each node's neighbour list is non-empty, duplicate-free, names only nodes and never the node itself |
| SearchGraph.Unvisited | src/components/search/DFSVisualizer.tsx:95-97 | the filter keeps exactly the unvisited neighbours, as a subsequence of the list, so in list order and without repeats when the list has none |
| SearchGraph.Connected | src/components/search/BFSVisualizer.tsx:21-28 | the graph is connected: a neighbour-closed set holding one node holds all six |
| Bfs.Init | src/components/search/BFSVisualizer.tsx:55-56 | the queue starts as the start id alone with nothing visited, which satisfies the corrected loop's invariant |
| Bfs.EnqueueNew | src/components/search/BFSVisualizer.tsx:93-103 | the neighbour loop never shortens the queue |
| Bfs.EnqueueBound | src/components/search/BFSVisualizer.tsx:93-103 | the neighbour loop appends at most one id per neighbour |
| Bfs.Step | src/components/search/BFSVisualizer.tsx:68-107 | an iteration records at most its front id, and only when that id names a node |
| Bfs.EnqueueFacts | src/components/search/BFSVisualizer.tsx:93-103 | the neighbour loop appends behind the queue, only unflagged neighbours, each of them once |
| Bfs.Run | src/components/search/BFSVisualizer.tsx:68-108 | each iteration records at most one visit |
| Bfs.StepKeepsQueue | src/components/search/BFSVisualizer.tsx:69 | an iteration takes the front and keeps the rest of the queue ahead of what it appends |
| Bfs.RunQueueOk | src/components/search/BFSVisualizer.tsx:68-108 | the queue stays duplicate-free, holds only nodes and never grows beyond six |
| Bfs.FifoOrder | src/components/search/BFSVisualizer.tsx:68-108 | first in, first out: `n` iterations visit the first `n` queued ids in queue order |
| Bfs.EnqueueFresh | src/components/search/BFSVisualizer.tsx:93-103 | onto a queue holding none of them, the unflagged neighbours are appended in list order |
| Bfs.FirstLayer | src/components/search/BFSVisualizer.tsx:55-103 | the start node is visited first, then its unflagged neighbours in list order |
| Bfs.NeverEmpties | src/components/search/BFSVisualizer.tsx:93-96 | with the captured flags all clear, the queue never empties and every iteration visits a node |
| Bfs.StaleFlagsRevisit | src/components/search/BFSVisualizer.tsx:87-96 | as written on a fresh page, seven iterations leave the queue non-empty and visit some node twice |
| Bfs.QueuedByB | src/components/search/BFSVisualizer.tsx:93-103 | on a fresh page, visiting B behind C queues A, D and E |
| Bfs.FirstFourFromA | src/components/search/BFSVisualizer.tsx:68-107 | as written, on a fresh page from A, the first four visits are A, B, C and then A again |
| Bfs.AllFlagsSet | src/components/search/BFSVisualizer.tsx:93-96 | with every captured flag set, only the start node is visited |
| Bfs.InvalidStart | src/components/search/BFSVisualizer.tsx:87-88 | an id that names no node is dequeued and nothing is visited |
| Bfs.RunLive | src/components/search/BFSVisualizer.tsx:68-108 | the corrected loop, checking the flags it sets, terminates with an empty queue and keeps its bookkeeping |
| Bfs.TraverseLive | src/components/search/BFSVisualizer.tsx:49-115 | the corrected traversal visits each node at most once |
| Bfs.LiveVisitsEveryNode | src/components/search/BFSVisualizer.tsx:49-115 | the corrected traversal visits all six nodes exactly once from any node, and none from an invalid id |
| Bfs.LiveOrderFromA | src/components/search/BFSVisualizer.tsx:49-115 | the corrected traversal from A visits A, B, C, D, E, F: breadth-first layers by distance from A |
| Bfs.LiveUnfold | src/components/search/BFSVisualizer.tsx:93-115 | one corrected iteration keeps the loop's invariant and leaves the rest of the run unchanged |
| Dfs.Init | src/components/search/DFSVisualizer.tsx:53-56 | the stack starts as the start id alone with nothing visited, which satisfies the loop's invariant |
| Dfs.PushAbsent | src/components/search/DFSVisualizer.tsx:99-108 | the push loop never shortens the stack |
| Dfs.PushBound | src/components/search/DFSVisualizer.tsx:99-108 | the push loop pushes at most one id per neighbour |
| Dfs.PushFacts | src/components/search/DFSVisualizer.tsx:99-108 | the push loop keeps the stack underneath, pushes each absent id once and leaves the last one on top |
| Dfs.Step | src/components/search/DFSVisualizer.tsx:67-113 | an iteration only adds to the visited set and records at most the popped id |
| Dfs.StepInv | src/components/search/DFSVisualizer.tsx:67-113 | an iteration keeps the invariant: the stack is duplicate-free and unvisited, and the order lists the visited nodes once each, closed under neighbours up to the stack |
| Dfs.Run | src/components/search/DFSVisualizer.tsx:67-113 | the loop ends with an empty stack, and the earlier visit order is a prefix of the final one |
| Dfs.StepProgress | src/components/search/DFSVisualizer.tsx:67-113 | each iteration visits a new node or shrinks the stack, so the loop terminates |
| Dfs.Traverse | src/components/search/DFSVisualizer.tsx:47-117 | the visit order is duplicate-free, holds only nodes and has at most six entries |
| Dfs.FirstNeighbourNext | src/components/search/DFSVisualizer.tsx:95-108 | after a node is visited, its first neighbour is popped next if it is unvisited and not on the stack yet |
| Dfs.VisitsEveryNode | src/components/search/DFSVisualizer.tsx:47-117 | from any node the traversal visits all six nodes exactly once |
| Dfs.PushedByA | src/components/search/DFSVisualizer.tsx:94-108 | visiting A pushes C and then B, so B is on top |
| Dfs.PushedByB | src/components/search/DFSVisualizer.tsx:94-108 | visiting B, with C below it, pushes E and then D |
| Dfs.OrderFromA | src/components/search/DFSVisualizer.tsx:47-117 | from A the visit order is A, B, D, E, F, C |
| Dfs.InvalidStart | src/components/search/DFSVisualizer.tsx:89-90 | an id that names no node gives an empty visit order |
| Dijkstra.FindWeight | src/components/search/DijkstraVisualizer.tsx:22-29 | the path-weight lookup: the weight of an edge to the target is found exactly when the node's neighbour list has one |
| Dijkstra.FindWeightAt | src/components/search/DijkstraVisualizer.tsx:22-29 | the path-weight lookup on a neighbour list with distinct targets returns that target's own weight |
| Dijkstra.EdgeFacts | src/components/search/DijkstraVisualizer.tsx:22-29 | every edge joins two different nodes and has positive weight |
| Dijkstra.Init | src/components/search/DijkstraVisualizer.tsx:58-69 | initially every node is unvisited with no predecessor, and only the start has a distance, which is 0 |
| Dijkstra.Scan | src/components/search/DijkstraVisualizer.tsx:73-82 | the scan from an id on keeps its current choice or picks a later unvisited id at a strictly smaller distance |
| Dijkstra.ScanChooses | src/components/search/DijkstraVisualizer.tsx:73-82 | the scan keeps "the choice is the first unvisited id of least finite distance so far" up to the last id |
| Dijkstra.Select | src/components/search/DijkstraVisualizer.tsx:73-84 | the scan picks an unvisited node of least finite distance, the lowest id on ties, and reports none when all unvisited distances are infinite |
| Dijkstra.Relax | src/components/search/DijkstraVisualizer.tsx:97-107 | the relaxation loop leaves the unvisited set as it was |
| Dijkstra.Visit | src/components/search/DijkstraVisualizer.tsx:94-112 | an iteration marks exactly its chosen node visited |
| Dijkstra.RelaxFacts | src/components/search/DijkstraVisualizer.tsx:97-107 | relaxation lowers an unvisited neighbour's distance to the new path, with the current node as predecessor, only when that is strictly shorter |
| Dijkstra.Run | src/components/search/DijkstraVisualizer.tsx:71-116 | the main loop ends when no unvisited node is reachable and only ever removes nodes from the unvisited set |
| Dijkstra.VisitInv | src/components/search/DijkstraVisualizer.tsx:94-112 | visiting the chosen node keeps the labels consistent. Predecessors are visited and joined by an edge. Visited distances are final and ordered. Every edge out of a visited node is relaxed |
| Dijkstra.RunInv | src/components/search/DijkstraVisualizer.tsx:71-116 | the whole loop keeps that invariant |
| Dijkstra.Walk | src/components/search/DijkstraVisualizer.tsx:119-130 | the predecessor walk yields a path exactly when the end id names a node |
| Dijkstra.WalkFacts | src/components/search/DijkstraVisualizer.tsx:119-130 | the walk is a path through real edges, ending at the end node and starting where predecessors run out, and its weight is the recorded distance |
| Dijkstra.ShortestPath | src/components/search/DijkstraVisualizer.tsx:48-154 | a reported route is a path from start to end whose weight is the reported distance |
| Dijkstra.NoShorterPath | src/components/search/DijkstraVisualizer.tsx:71-116 | after the loop, every node reachable from the start has a distance no larger than any path to it |
| Dijkstra.ShortestPathCorrect | src/components/search/DijkstraVisualizer.tsx:48-154 | the reported distance is minimal over all paths, and "no path" is reported exactly when no path from start reaches end |
| Dijkstra.PathWeightBound | src/components/search/DijkstraVisualizer.tsx:22-29 | every path weighs at least its number of edges, as weights are positive |
| Dijkstra.EdgesConnected | src/components/search/DijkstraVisualizer.tsx:22-29 | in the page's graph every node reaches every node |
| Dijkstra.AtoFBound | src/components/search/DijkstraVisualizer.tsx:22-29 | in the page's graph every route from A to F weighs at least 3, and only A-C-F weighs exactly 3 |
| Dijkstra.ReportsPathExactlyForNodes | src/components/search/DijkstraVisualizer.tsx:132-150 | on the page's graph a route is reported exactly when both ids name nodes |
| Dijkstra.DefaultQuery | src/components/search/DijkstraVisualizer.tsx:48-154 | from A to F the page reports the route A-C-F with distance 3 |
| Dijkstra.TraceStep3 | src/components/search/DijkstraVisualizer.tsx:73-112 | from A, the fourth iteration picks B at 4 and leaves E at 5 through F, since B's offer of 4 + 1 is not strictly smaller |
| Dijkstra.RunFromA | src/components/search/DijkstraVisualizer.tsx:71-116 | from A the loop visits A, C, F, B, E, D and ends with distances 0, 4, 2, 7, 5, 3 and predecessors -, A, A, B, F, C |
| Dijkstra.WalkToE | src/components/search/DijkstraVisualizer.tsx:119-130 | after that run the walk back from E is A, C, F, E |
| Dijkstra.AtoEQuery | src/components/search/DijkstraVisualizer.tsx:48-154 | from A to E the page reports A-C-F-E with distance 5, although A-B-E also weighs 5: the strict `<` keeps the first route found |
| Dijkstra.StartIsEnd | src/components/search/DijkstraVisualizer.tsx:119-139 | when the start is the end, the walk back stops at once and the page reports the one-node path at distance 0 |
| Bst.Descent | src/components/structures/BinaryTreeVisualizer.tsx:40-55 | the descent for a value ends at an empty slot or at the node holding it |
| Bst.Insert | src/components/structures/BinaryTreeVisualizer.tsx:25-62 | insertion adds exactly the value and keeps the search-tree order |
| Bst.Contains | src/components/structures/BinaryTreeVisualizer.tsx:76-95 | the search finds the value exactly when its descent ends on it |
| Bst.Search | src/components/structures/BinaryTreeVisualizer.tsx:64-109 | the empty-tree report is given exactly for the empty tree, and "found" only for a stored value |
| Bst.ContainsComplete | src/components/structures/BinaryTreeVisualizer.tsx:76-95 | on an ordered tree the search finds a value exactly when it is stored |
| Bst.SearchCorrect | src/components/structures/BinaryTreeVisualizer.tsx:64-109 | on an ordered tree: found iff stored, not-found iff the tree is non-empty and the value is absent |
| Bst.InsertAtDescent | src/components/structures/BinaryTreeVisualizer.tsx:40-55 | insertion changes the tree only at the end of the value's descent |
| Bst.InsertLinksLeaf | src/components/structures/BinaryTreeVisualizer.tsx:40-55 | a new value fills an empty slot below an existing node, as a leaf |
| Bst.InsertDuplicate | src/components/structures/BinaryTreeVisualizer.tsx:40-55 | inserting a value already stored leaves the tree unchanged |
| Bst.InsertAll | src/components/structures/BinaryTreeVisualizer.tsx:25-62 | repeated insertion stores exactly the inserted values and keeps the order |
| Bst.FiveInserts | src/components/structures/BinaryTreeVisualizer.tsx:25-109 | inserting 5, 3, 8, 1, 4 into an empty tree builds 3 and 8 under 5, 1 and 4 under 3; searching 4 finds it and searching 99 does not |
| Bst.EmptyTreeCases | src/components/structures/BinaryTreeVisualizer.tsx:31-38 | the first insert makes the root; searching an empty tree reports the empty tree |
| LinkedList.Add | src/components/structures/LinkedListVisualizer.tsx:26-46 | adding appends the value at the end |
| LinkedList.UnlinkAfter | src/components/structures/LinkedListVisualizer.tsx:60-66 | the walk from a node unlinks the first later node holding the value, and reports whether there was one |
| LinkedList.Remove | src/components/structures/LinkedListVisualizer.tsx:48-78 | removal drops the first occurrence; silent on an empty list, otherwise reports removed iff the value was present |
| LinkedList.SearchFrom | src/components/structures/LinkedListVisualizer.tsx:94-110 | the walk reports missing iff the value is absent, otherwise the position of its first occurrence |
| LinkedList.Search | src/components/structures/LinkedListVisualizer.tsx:80-119 | search reports the empty list iff it is empty, missing iff the value is absent, else its first position |
| LinkedList.RemoveAtSearchIndex | src/components/structures/LinkedListVisualizer.tsx:48-119 | removal deletes exactly the node that search reports |
| LinkedList.SearchAfterAdd | src/components/structures/LinkedListVisualizer.tsx:26-119 | a freshly added new value is found at the last position |
| LinkedList.RemoveAbsent | src/components/structures/LinkedListVisualizer.tsx:71-77 | removing an absent value changes nothing and reports not-found, or nothing on an empty list |
| DoublyLinkedList.ForwardFrom | src/components/structures/DoublyLinkedListVisualizer.tsx:99-115 | following `next` from a node of a well-linked chain visits the rest of the chain in order |
| DoublyLinkedList.BackwardFrom | src/components/structures/DoublyLinkedListVisualizer.tsx:36-40 | following `prev` visits the chain before it in reverse |
| DoublyLinkedList.Walks | src/components/structures/DoublyLinkedListVisualizer.tsx:26-83 | from `head` the `next` links give the list; from `tail` the `prev` links give it reversed |
| DoublyLinkedList.Add | src/components/structures/DoublyLinkedListVisualizer.tsx:26-47 | the new cell's `prev` is the old tail (none on an empty list), it becomes the tail, and other cells keep their values and `prev` links |
| DoublyLinkedList.AddLinks | src/components/structures/DoublyLinkedListVisualizer.tsx:26-47 | adding to a well-linked list gives a well-linked list with the value appended |
| DoublyLinkedList.Locate | src/components/structures/DoublyLinkedListVisualizer.tsx:52-56 | a node the walk stops at lies in the arena and holds the value |
| DoublyLinkedList.LocateFrom | src/components/structures/DoublyLinkedListVisualizer.tsx:52-56 | the scan from a node finds the first later cell holding the value, at its position in the chain |
| DoublyLinkedList.Search | src/components/structures/DoublyLinkedListVisualizer.tsx:85-93 | the empty-list report is given exactly when there is no head |
| DoublyLinkedList.SearchCorrect | src/components/structures/DoublyLinkedListVisualizer.tsx:85-124 | on a well-linked list: empty iff no cells, missing iff the value is absent, else the first position of the value |
| DoublyLinkedList.Unlink | src/components/structures/DoublyLinkedListVisualizer.tsx:67-77 | relinking leaves every cell's value in place |
| DoublyLinkedList.Drop | src/components/structures/DoublyLinkedListVisualizer.tsx:67-77 | the order after the splice is the old order without that one position: one shorter, the same before it and shifted by one after it |
| DoublyLinkedList.UnlinkLinks | src/components/structures/DoublyLinkedListVisualizer.tsx:67-77 | unlinking a cell of a well-linked list leaves the other cells well linked, in order |
| DoublyLinkedList.Remove | src/components/structures/DoublyLinkedListVisualizer.tsx:49-83 | removal is silent exactly on an empty list, and changes nothing unless it removes |
| DoublyLinkedList.RemoveCorrect | src/components/structures/DoublyLinkedListVisualizer.tsx:49-83 | on a well-linked list removal succeeds iff the value is present and drops its first occurrence, keeping the list well linked |
| DoublyLinkedList.RemoveEnds | src/components/structures/DoublyLinkedListVisualizer.tsx:67-77 | removing the head moves `head` to the next cell, whose `prev` is cleared. Removing the tail moves `tail` back, clearing its `next`. Removing the only cell empties both |
| DoublyLinkedList.RemoveAbsent | src/components/structures/DoublyLinkedListVisualizer.tsx:58-65 | removing an absent value leaves the list unchanged |
| Stack.Push | src/components/structures/StackVisualizer.tsx:21-36 | push puts the value on top of the unchanged stack, where peek then finds it |
| Stack.Pop | src/components/structures/StackVisualizer.tsx:38-58 | pop on an empty stack is an error that changes nothing; otherwise it returns the top and the stack below it |
| Stack.Peek | src/components/structures/StackVisualizer.tsx:74-89 | peek is an error on an empty stack and otherwise reports the top |
| Stack.PushThenPop | src/components/structures/StackVisualizer.tsx:21-58 | pop undoes push and returns the pushed value |
| Stack.PopThenPush | src/components/structures/StackVisualizer.tsx:21-58 | pushing back what pop returned restores the stack |
| Stack.PeekIsPopReport | src/components/structures/StackVisualizer.tsx:38-89 | peek reports what pop would return |
| Stack.LastInFirstOut | src/components/structures/StackVisualizer.tsx:21-58 | popping as many values as were pushed returns them in reverse order and restores the stack |
| Queue.Enqueue | src/components/structures/QueueVisualizer.tsx:22-41 | enqueue puts the value at the rear of the unchanged queue |
| Queue.Dequeue | src/components/structures/QueueVisualizer.tsx:43-67 | dequeue on an empty queue is an error that changes nothing; otherwise it returns the front and the rest |
| Queue.FrontOf | src/components/structures/QueueVisualizer.tsx:83-98 | front is an error on an empty queue and otherwise reports the first value |
| Queue.EnqueueKeepsFront | src/components/structures/QueueVisualizer.tsx:22-98 | enqueueing never changes a non-empty queue's front |
| Queue.FrontIsDequeueReport | src/components/structures/QueueVisualizer.tsx:43-98 | front reports what dequeue would return |
| Queue.FirstInFirstOut | src/components/structures/QueueVisualizer.tsx:43-67 | dequeuing the whole queue returns its values in order and empties it |

## Left out

- Rendering is not modelled: the bar and node colours, the `state` markers on snapshot entries, toasts, speed sliders and timers. Each `await` delay is only a pause between steps.
- The comparison-analysis component and the page shells are not part of this model.
- The `isRunning` / `isAnimating` guards that block a second click during an async walk are left out. Each operation is modelled as running alone.
- The random-array button (`generateRandomArray` in both sorting pages) is left out: it draws eight values from `Math.random`. A drawn array is loaded like any parsed input; SortPlayer.LoadInput covers loading.
- Node ids from `Math.random` are left out. The linked lists use positions, and the doubly linked list uses indices into an array of cells, since ids only tell nodes apart.
- The doubly linked list's in-place link mutation (`tail.next = …`, `current.prev.next = …`) and its `setHead`/`setTail` are applied together as one pure update. When the mutated objects are re-rendered is not modelled.
- InputParse.ParseInt: reads decimal digits with an optional sign, like `parseInt(s, 10)`; the value read is stated by InputParse.ParseIntLeading. Hexadecimal prefixes and number precision limits are left out.
- The ids typed into the BFS, DFS and Dijkstra start/end boxes go through the same `parseInt`. The traversals take the resulting integer; NaN behaves as an id that names no node.
- Bfs.Run: fuel-bounded, because the loop as written need not terminate. Each result is about a given number of iterations.
- Dfs.Traverse: the exact visit sequence is not characterised in general. The contracts state that it visits every node once and that the first unvisited neighbour is popped next (Dfs.FirstNeighbourNext); the sequence from A is pinned by Dfs.OrderFromA.
- DoublyLinkedList.Search: its own contract states only the empty-list case. The rest is in DoublyLinkedList.SearchCorrect, for lists whose `next`/`prev` links form one consistent chain. A malformed arena has no meaning in the source.
- DoublyLinkedList.Remove: its own contract states only the silent and no-change cases. The rest is in DoublyLinkedList.RemoveCorrect and DoublyLinkedList.RemoveEnds, for consistent chains.
- Dijkstra: the `current` and `visited` render flags and the step-by-step highlighted table are left out. Only the labels (distance, predecessor, unvisited set) and the reported route and distance are modelled.
- Bst: tree layout and the highlighted search path are left out. Duplicate values are ignored, as in the source.

## Findings

| source | as written | input that shows it | evidently intended | confidence | as-written member | corrected member |
|---|---|---|---|---|---|---|
| src/components/sorting/MergeSortVisualizer.tsx:96 | after each two-sided merge step the left cursor advances while it is not on the last left value, otherwise the right cursor advances, whichever value was written | merge sort of `1, 2` finishes showing `1, 1`: the left `1` is written twice and `2` is lost | advance the cursor of the side whose value was written (`i++` after the left value, `j++` after the right) | not executed | MergeSort.AsWrittenLosesValue | MergeSort.BySourceSortsInput |
| src/components/search/BFSVisualizer.tsx:93-96 | neighbours are checked against the `visited` flags of the `nodes` array captured when the click handler was created, which the loop's own `setNodes` calls never change | any start node on a freshly loaded page: the flags stay clear, visited nodes are queued again and the queue never empties | check neighbours against the nodes visited so far in this run | not executed | Bfs.StaleFlagsRevisit | Bfs.LiveVisitsEveryNode, Bfs.LiveOrderFromA |

=== FILE: bfs.dfy ===
/** The BFS visualizer's `runBFS`: a queue seeded with the start id. Each
    iteration takes the front id, marks it visited, and, when it names a
    node, records it in the visit order and appends each neighbour whose
    `visited` flag is clear and which is not queued already.

    The flags are read from the `nodes` array captured when `runBFS` was
    created, not from the flags the loop itself sets: as written, the check
    sees a fixed set `flags`. On a freshly loaded page every flag is clear,
    so the queue never empties; the loop is modelled with a fuel bound.
    `RunLive` is the evidently intended loop, which checks the flags it has
    set. */
module Bfs {
  import opened Common
  import opened SearchGraph

  /** The loop state: the queue (`newQueue`), the visit order, and the ids
      the loop has marked visited through `setNodes`. */
  datatype State = State(queue: seq<int>, order: seq<nat>, visited: set<int>)

  /** The state before the first iteration: the start alone is queued,
      which keeps the intended loop's invariant from the outset. */
  function Init(start: int): (r: State)
    ensures |r.queue| == 1 && r.queue[0] == start && |r.order| == 0
    ensures LiveInv(r)
  {
    State([start], [], {})
  }

  /** The neighbour loop: each neighbour whose flag is clear in `flags` and
      which is not queued already joins at the rear. */
  function EnqueueNew(queue: seq<int>, ns: seq<nat>, flags: set<int>): (r: seq<int>)
    ensures |queue| <= |r|
    decreases |ns|
  {
    if |ns| == 0 then queue
    else
      var next := if ns[0] !in flags && ns[0] !in queue then queue + [ns[0]] else queue;
      EnqueueNew(next, ns[1..], flags)
  }

  /** The neighbour loop appends at most one id per neighbour. */
  lemma {:induction false} EnqueueBound(queue: seq<int>, ns: seq<nat>, flags: set<int>)
    ensures |EnqueueNew(queue, ns, flags)| <= |queue| + |ns|
    decreases |ns|
  {
    if |ns| > 0 {
      var next := if ns[0] !in flags && ns[0] !in queue then queue + [ns[0]] else queue;
      EnqueueBound(next, ns[1..], flags);
    }
  }

  /** The neighbour loop keeps the queue ahead of what it appends, appends
      only unflagged neighbours, leaves every unflagged neighbour queued,
      and never queues an id twice. */
  lemma {:induction false} EnqueueFacts(queue: seq<int>, ns: seq<nat>, flags: set<int>)
    ensures |EnqueueNew(queue, ns, flags)| >= |queue| && EnqueueNew(queue, ns, flags)[..|queue|] == queue
    ensures forall x | x in EnqueueNew(queue, ns, flags) :: x in queue || (x in ns && x !in flags)
    ensures forall x | x in ns && x !in flags :: x in EnqueueNew(queue, ns, flags)
    ensures NoDup(queue) ==> NoDup(EnqueueNew(queue, ns, flags))
    decreases |ns|
  {
    if |ns| > 0 {
      var next := if ns[0] !in flags && ns[0] !in queue then queue + [ns[0]] else queue;
      EnqueueFacts(next, ns[1..], flags);
      var r := EnqueueNew(queue, ns, flags);
      assert r == EnqueueNew(next, ns[1..], flags);
      assert r[..|queue|] == next[..|queue|];
      assert forall x | x in ns :: x == ns[0] || x in ns[1..];
      if ns[0] !in flags {
        if ns[0] in queue {
          assert ns[0] in r[..|queue|];
        } else {
          assert r[|queue|] == next[|queue|];
        }
      }
    }
  }

  /** One iteration of the `while` loop, checking neighbours against
      `flags`: the front leaves the queue, and a node is recorded, marked
      visited, and its unflagged neighbours queued. */
  function Step(st: State, flags: set<int>): (r: State)
    requires |st.queue| > 0
    ensures r.order == st.order || (IsNode(st.queue[0]) && r.order == st.order + [st.queue[0]])
  {
    var cur := st.queue[0];
    var rest := st.queue[1..];
    if IsNode(cur) then State(EnqueueNew(rest, Neighbors[cur], flags), st.order + [cur], st.visited + {cur})
    else State(rest, st.order, st.visited)
  }

  /** At most `fuel` iterations of the loop as written, the flags fixed:
      each iteration records at most one visit. */
  function Run(st: State, flags: set<int>, fuel: nat): (r: State)
    ensures |st.order| <= |r.order| <= |st.order| + fuel
    decreases fuel
  {
    if fuel == 0 || |st.queue| == 0 then st
    else Run(Step(st, flags), flags, fuel - 1)
  }

  /** An iteration leaves the rest of the queue ahead of what it appends. */
  lemma StepKeepsQueue(st: State, flags: set<int>)
    requires |st.queue| > 0
    ensures |Step(st, flags).queue| >= |st.queue| - 1
    ensures Step(st, flags).queue[..|st.queue| - 1] == st.queue[1..]
  {
    if IsNode(st.queue[0]) {
      EnqueueFacts(st.queue[1..], Neighbors[st.queue[0]], flags);
    }
  }

  /** The queue holds nodes only, each once. */
  predicate QueueOk(q: seq<int>) {
    NoDup(q) && forall i | 0 <= i < |q| :: IsNode(q[i])
  }

  /** An iteration keeps the queue made of distinct nodes. */
  lemma StepQueueOk(st: State, flags: set<int>)
    requires |st.queue| > 0 && QueueOk(st.queue)
    ensures QueueOk(Step(st, flags).queue)
  {
    var cur := st.queue[0];
    assert cur in st.queue;
    NeighborsWellFormed(cur);
    EnqueueFacts(st.queue[1..], Neighbors[cur], flags);
    assert forall x | x in st.queue[1..] :: x in st.queue;
    var q := Step(st, flags).queue;
    assert forall i | 0 <= i < |q| :: q[i] in q;
  }

  /** An iteration over a queue of nodes leaves a queue of nodes. */
  lemma StepNodes(st: State, flags: set<int>)
    requires |st.queue| > 0 && forall x | x in st.queue :: IsNode(x)
    ensures forall x | x in Step(st, flags).queue :: IsNode(x)
  {
    var cur := st.queue[0];
    assert cur in st.queue;
    NeighborsWellFormed(cur);
    EnqueueFacts(st.queue[1..], Neighbors[cur], flags);
    assert forall x | x in st.queue[1..] :: x in st.queue;
  }

  /** The loop keeps the queue made of distinct nodes. */
  lemma {:induction false} RunKeepsQueueOk(st: State, flags: set<int>, fuel: nat)
    requires QueueOk(st.queue)
    ensures QueueOk(Run(st, flags, fuel).queue)
    decreases fuel
  {
    if fuel > 0 && |st.queue| > 0 {
      StepQueueOk(st, flags);
      RunKeepsQueueOk(Step(st, flags), flags, fuel - 1);
      QueueOkAfterStep(st, flags, fuel);
    } else {
      QueueOkAtEnd(st, flags, fuel);
    }
  }

  /** A run's final queue is that of the run after its first iteration. */
  lemma QueueOkAfterStep(st: State, flags: set<int>, fuel: nat)
    requires fuel > 0 && |st.queue| > 0
    requires QueueOk(Run(Step(st, flags), flags, fuel - 1).queue)
    ensures QueueOk(Run(st, flags, fuel).queue)
  {
    RunUnfold(st, flags, fuel);
  }

  /** A run that cannot iterate ends with the queue it started with. */
  lemma QueueOkAtEnd(st: State, flags: set<int>, fuel: nat)
    requires QueueOk(st.queue) && !(fuel > 0 && |st.queue| > 0)
    ensures QueueOk(Run(st, flags, fuel).queue)
  {
    RunDone(st, flags, fuel);
  }

  /** A queue of distinct nodes holds at most the six nodes. */
  lemma QueueBound(q: seq<int>)
    requires QueueOk(q)
    ensures |q| <= NodeCount
  {
    NoDupBounded(q, NodeCount);
  }

  /** The loop keeps the queue made of distinct nodes, so it never holds
      more than the six nodes. */
  lemma RunQueueOk(st: State, flags: set<int>, fuel: nat)
    requires QueueOk(st.queue)
    ensures QueueOk(Run(st, flags, fuel).queue)
    ensures |Run(st, flags, fuel).queue| <= NodeCount
  {
    RunKeepsQueueOk(st, flags, fuel);
    QueueBound(Run(st, flags, fuel).queue);
  }

  /** First in, first out: while the queue holds nodes only, the next `n`
      visits are the first `n` queued ids, in queue order. */
  lemma {:induction false} FifoOrder(st: State, flags: set<int>, n: nat)
    requires n <= |st.queue| && forall i | 0 <= i < |st.queue| :: IsNode(st.queue[i])
    ensures Run(st, flags, n).order == st.order + st.queue[..n]
    decreases n
  {
    if n > 0 {
      StepKeepsNodes(st, flags);
      FifoOrder(Step(st, flags), flags, n - 1);
      FifoStep(st, flags, n);
    } else {
      RunDone(st, flags, n);
      assert st.order + st.queue[..n] == st.order;
    }
  }

  /** An iteration over a queue of nodes leaves a queue of nodes at most one
      shorter. */
  lemma StepKeepsNodes(st: State, flags: set<int>)
    requires |st.queue| > 0 && forall i | 0 <= i < |st.queue| :: IsNode(st.queue[i])
    ensures |Step(st, flags).queue| >= |st.queue| - 1
    ensures forall i | 0 <= i < |Step(st, flags).queue| :: IsNode(Step(st, flags).queue[i])
  {
    assert forall i | 0 <= i < |st.queue| :: st.queue[i] in st.queue;
    StepNodes(st, flags);
    StepKeepsQueue(st, flags);
    var q := Step(st, flags).queue;
    assert forall i | 0 <= i < |q| :: q[i] in q;
  }

  /** One iteration of `FifoOrder`: if the run after the first iteration
      records the first `n - 1` queued ids, the whole run records the first
      `n`. */
  lemma FifoStep(st: State, flags: set<int>, n: nat)
    requires 0 < n <= |st.queue| && forall i | 0 <= i < |st.queue| :: IsNode(st.queue[i])
    requires |Step(st, flags).queue| >= n - 1
    requires Run(Step(st, flags), flags, n - 1).order == Step(st, flags).order + Step(st, flags).queue[..n - 1]
    ensures Run(st, flags, n).order == st.order + st.queue[..n]
  {
    var cur := st.queue[0];
    var next := Step(st, flags);
    RunUnfold(st, flags, n);
    assert next.order == st.order + [cur];
    StepKeepsQueue(st, flags);
    FifoShift(st.order, st.queue, next.order, next.queue, n);
  }

  /** The sequence step behind `FifoOrder`: recording the front and then the
      first `n - 1` of a queue that starts with the old rest records the
      first `n` of the old queue. */
  lemma FifoShift(order: seq<nat>, q: seq<int>, order': seq<nat>, q': seq<int>, n: nat)
    requires 0 < n <= |q| && order' == order + [q[0]]
    requires |q'| >= |q| - 1 && q'[..|q| - 1] == q[1..]
    ensures order' + q'[..n - 1] == order + q[..n]
  {
    PrefixAgree(q', q[1..], n - 1);
    assert q[1..][..n - 1] == q[1..n];
    assert q[..n] == [q[0]] + q[1..n];
  }

  /** Appending the unflagged ids of a duplicate-free list none of whose ids
      is queued appends exactly those ids, in list order. */
  lemma {:induction false} EnqueueFresh(q: seq<int>, ns: seq<nat>, flags: set<int>)
    requires NoDup(ns) && forall x | x in ns :: x !in q
    ensures EnqueueNew(q, ns, flags) == q + Unvisited(ns, flags)
    decreases |ns|
  {
    if |ns| > 0 {
      assert forall x | x in ns[1..] :: x in ns && x != ns[0];
      if ns[0] !in flags {
        EnqueueFresh(q + [ns[0]], ns[1..], flags);
        assert q + [ns[0]] + Unvisited(ns[1..], flags) == q + ([ns[0]] + Unvisited(ns[1..], flags));
      } else {
        EnqueueFresh(q, ns[1..], flags);
      }
    }
  }

  /** Breadth first: from a node, the visits begin with the start and then
      its unflagged neighbours in neighbour order. */
  lemma FirstLayer(start: int, flags: set<int>)
    requires IsNode(start)
    ensures var layer := Unvisited(Neighbors[start], flags);
      Run(Init(start), flags, 1 + |layer|).order == [start] + layer
  {
    FirstIteration(start, flags);
    RunAfterFirst(start, flags, Unvisited(Neighbors[start], flags));
  }

  /** The runs after the first iteration visit the queued layer in order. */
  lemma RunAfterFirst(start: int, flags: set<int>, layer: seq<int>)
    requires IsNode(start)
    requires Step(Init(start), flags).queue == layer && Step(Init(start), flags).order == [start]
    requires forall i | 0 <= i < |layer| :: IsNode(layer[i])
    ensures Run(Init(start), flags, 1 + |layer|).order == [start] + layer
  {
    var next := Step(Init(start), flags);
    assert Run(Init(start), flags, 1 + |layer|) == Run(next, flags, |layer|);
    FifoOrder(next, flags, |layer|);
    assert next.queue[..|layer|] == layer;
  }

  /** The first iteration records the start and queues its unflagged
      neighbours in neighbour order. */
  lemma FirstIteration(start: int, flags: set<int>)
    requires IsNode(start)
    ensures Step(Init(start), flags).queue == Unvisited(Neighbors[start], flags)
    ensures Step(Init(start), flags).order == [start]
    ensures var q := Step(Init(start), flags).queue; forall i | 0 <= i < |q| :: IsNode(q[i])
  {
    NeighborsWellFormed(start);
    EnqueueFresh([], Neighbors[start], flags);
    assert [start][1..] == [];
    var q := Step(Init(start), flags).queue;
    assert forall i | 0 <= i < |q| :: q[i] in q;
  }

  /** With every node's flag clear, an iteration from a queue of nodes
      leaves a non-empty queue of nodes and records its front: the visited
      node has a neighbour, and every neighbour is queued or re-queued. */
  lemma StepNeverEmpties(st: State, flags: set<int>)
    requires |st.queue| > 0 && forall i | 0 <= i < |st.queue| :: IsNode(st.queue[i])
    requires forall v | IsNode(v) :: v !in flags
    ensures var q := Step(st, flags).queue; |q| > 0 && forall i | 0 <= i < |q| :: IsNode(q[i])
    ensures |Step(st, flags).order| == |st.order| + 1
  {
    var cur := st.queue[0];
    NeighborsWellFormed(cur);
    EnqueueFacts(st.queue[1..], Neighbors[cur], flags);
    assert Neighbors[cur][0] in Neighbors[cur];
    StepNodes(st, flags);
    var q := Step(st, flags).queue;
    forall i | 0 <= i < |q| ensures IsNode(q[i]) {
      assert q[i] in q;
    }
  }

  /** A run with fuel left and a non-empty queue is one iteration followed
      by the rest of the run. */
  lemma RunUnfold(st: State, flags: set<int>, fuel: nat)
    requires fuel > 0 && |st.queue| > 0
    ensures Run(st, flags, fuel) == Run(Step(st, flags), flags, fuel - 1)
  {
  }

  /** A run without fuel or without a queue changes nothing. */
  lemma RunDone(st: State, flags: set<int>, fuel: nat)
    requires fuel == 0 || |st.queue| == 0
    ensures Run(st, flags, fuel) == st
  {
  }

  /** With every node's flag clear the queue never empties, so every
      iteration visits a node. */
  lemma {:induction false} NeverEmpties(st: State, flags: set<int>, fuel: nat)
    requires |st.queue| > 0 && forall i | 0 <= i < |st.queue| :: IsNode(st.queue[i])
    requires forall v | IsNode(v) :: v !in flags
    ensures |Run(st, flags, fuel).queue| > 0
    ensures |Run(st, flags, fuel).order| == |st.order| + fuel
    decreases fuel
  {
    if fuel > 0 {
      StepNeverEmpties(st, flags);
      NeverEmpties(Step(st, flags), flags, fuel - 1);
      RunUnfold(st, flags, fuel);
    }
  }

  /** The loop records nodes only. */
  lemma {:induction false} RunOrderNodes(st: State, flags: set<int>, fuel: nat)
    requires forall x | x in st.order :: IsNode(x)
    ensures forall x | x in Run(st, flags, fuel).order :: IsNode(x)
    decreases fuel
  {
    if fuel > 0 && |st.queue| > 0 {
      var next := Step(st, flags);
      assert forall x | x in next.order :: IsNode(x);
      RunOrderNodes(next, flags, fuel - 1);
    }
  }

  /** As written, on a freshly loaded page (every flag clear) the search
      revisits a node within seven iterations, from any start node, and
      the queue is still not empty. */
  lemma StaleFlagsRevisit(start: int)
    requires IsNode(start)
    ensures |Run(Init(start), {}, NodeCount + 1).queue| > 0
    ensures !NoDup(Run(Init(start), {}, NodeCount + 1).order)
  {
    NeverEmpties(Init(start), {}, NodeCount + 1);
    RunOrderNodes(Init(start), {}, NodeCount + 1);
    Pigeonhole(Run(Init(start), {}, NodeCount + 1).order, NodeCount);
  }

  /** The first four iterations from A on a freshly loaded page. */
  lemma StaleStep1() ensures Step(Init(0), {}) == State([1, 2], [0], {0}) {
    assert [0][1..] == [];
  }

  lemma QueuedByB() ensures EnqueueNew([2], Neighbors[1], {}) == [2, 0, 3, 4] {
    assert Neighbors[1] == [0, 3, 4];
    assert [0, 3, 4][1..] == [3, 4] && [3, 4][1..] == [4] && [4][1..] == [];
    assert [2] + [0] == [2, 0] && [2, 0] + [3] == [2, 0, 3] && [2, 0, 3] + [4] == [2, 0, 3, 4];
    assert EnqueueNew([2, 0, 3, 4], [], {}) == [2, 0, 3, 4];
    assert EnqueueNew([2, 0, 3], [4], {}) == [2, 0, 3, 4];
    assert EnqueueNew([2, 0], [3, 4], {}) == [2, 0, 3, 4];
  }

  lemma StaleStep2() ensures Step(State([1, 2], [0], {0}), {}) == State([2, 0, 3, 4], [0, 1], {0, 1}) {
    assert [1, 2][1..] == [2];
    QueuedByB();
  }

  lemma StaleStep3() ensures Step(State([2, 0, 3, 4], [0, 1], {0, 1}), {}) == State([0, 3, 4, 5], [0, 1, 2], {0, 1, 2}) {
    assert [2, 0, 3, 4][1..] == [0, 3, 4];
    assert EnqueueNew([0, 3, 4], [0, 5], {}) == EnqueueNew([0, 3, 4], [5], {});
  }

  lemma StaleStep4() ensures Step(State([0, 3, 4, 5], [0, 1, 2], {0, 1, 2}), {}).order == [0, 1, 2, 0] {
  }

  /** As written, from A on a freshly loaded page: A is visited, then B,
      then C, and A again, since B re-queues it once it has left the
      queue. */
  lemma FirstFourFromA()
    ensures Run(Init(0), {}, 4).order == [0, 1, 2, 0]
  {
    StaleStep1();
    StaleStep2();
    StaleStep3();
    StaleStep4();
  }

  /** With every flag set (the page after an earlier run), only the start
      is visited and the loop stops after one iteration. */
  lemma AllFlagsSet(start: int, flags: set<int>, fuel: nat)
    requires IsNode(start) && fuel > 0
    requires forall i | IsNode(i) :: i in flags
    ensures Run(Init(start), flags, fuel).order == [start]
    ensures Run(Init(start), flags, fuel).queue == []
  {
    NeighborsWellFormed(start);
    EnqueueFresh([], Neighbors[start], flags);
    assert [start][1..] == [];
    var next := Step(Init(start), flags);
    assert next == State([], [start], {start});
  }

  /** A start id that names no node: nothing is visited. */
  lemma InvalidStart(start: int, flags: set<int>, fuel: nat)
    requires !IsNode(start) && fuel > 0
    ensures Run(Init(start), flags, fuel) == State([], [], {})
  {
    assert [start][1..] == [];
    assert Step(Init(start), flags) == State([], [], {});
  }

  /** The evidently intended loop's bookkeeping: the queue holds distinct
      unvisited ids, and the visit order lists, once each, exactly the
      visited ids, which name nodes. */
  predicate LiveBooks(st: State) {
    NoDup(st.queue) &&
    (forall x | x in st.queue :: x !in st.visited) &&
    NoDup(st.order) &&
    (forall x | x in st.order :: x in st.visited) &&
    (forall x | x in st.visited :: IsNode(x) && x in st.order)
  }

  /** Every neighbour of a visited node is visited or queued. */
  predicate LiveClosed(st: State) {
    forall v | IsNode(v) && v in st.visited :: forall n | n in Neighbors[v] :: n in st.visited || n in st.queue
  }

  /** The evidently intended loop's invariant. */
  predicate LiveInv(st: State) {
    LiveBooks(st) && LiveClosed(st)
  }

  /** The intended iteration visits a new node or shortens the queue. */
  lemma LiveProgress(st: State)
    requires |st.queue| > 0 && forall x | x in st.queue :: x !in st.visited
    ensures |Remaining(Step(st, st.visited).visited)| < |Remaining(st.visited)| ||
      (Step(st, st.visited).visited == st.visited && |Step(st, st.visited).queue| < |st.queue|)
  {
    var cur := st.queue[0];
    var r := Step(st, st.visited);
    if IsNode(cur) {
      assert cur in st.queue;
      assert cur in Remaining(st.visited) && cur !in Remaining(r.visited);
      SubsetCard(Remaining(r.visited), Remaining(st.visited));
    }
  }

  /** The intended iteration, which checks neighbours against the flags set
      so far, keeps the bookkeeping. */
  lemma LiveStepBooks(st: State)
    requires |st.queue| > 0 && LiveBooks(st)
    ensures LiveBooks(Step(st, st.visited))
  {
    var cur := st.queue[0];
    var rest := st.queue[1..];
    assert cur in st.queue && st.queue == [cur] + rest;
    assert forall x | x in rest :: x in st.queue && x != cur;
    if IsNode(cur) {
      NeighborsWellFormed(cur);
      EnqueueFacts(rest, Neighbors[cur], st.visited);
      assert cur !in st.order;
    }
  }

  /** The intended iteration keeps every neighbour of a visited node visited
      or queued. */
  lemma LiveStepClosed(st: State)
    requires |st.queue| > 0 && LiveClosed(st)
    ensures LiveClosed(Step(st, st.visited))
  {
    var cur := st.queue[0];
    var rest := st.queue[1..];
    var r := Step(st, st.visited);
    assert st.queue == [cur] + rest;
    if IsNode(cur) {
      EnqueueFacts(rest, Neighbors[cur], st.visited);
      forall v, n | IsNode(v) && v in r.visited && n in Neighbors[v] ensures n in r.visited || n in r.queue {
        if v != cur && n !in r.visited {
          assert n in st.queue && n != cur;
          assert n in r.queue[..|rest|];
        }
      }
    } else {
      forall v, n | IsNode(v) && v in r.visited && n in Neighbors[v] ensures n in r.visited || n in r.queue {
        NeighborsWellFormed(v);
      }
    }
  }

  /** The evidently intended loop: it ends once the queue is empty. */
  function RunLive(st: State): (r: State)
    requires LiveInv(st)
    ensures LiveInv(r) && |r.queue| == 0
    ensures st.visited <= r.visited
    decreases |Remaining(st.visited)|, |st.queue|
  {
    if |st.queue| == 0 then st
    else
      LiveStepBooks(st);
      LiveStepClosed(st);
      LiveProgress(st);
      RunLive(Step(st, st.visited))
  }

  /** The evidently intended `runBFS` from a fresh page: the visit order. */
  function TraverseLive(start: int): (order: seq<nat>)
    ensures NoDup(order) && forall x | x in order :: IsNode(x)
    ensures |order| <= NodeCount
  {
    var r := RunLive(Init(start));
    assert forall k | 0 <= k < |r.order| :: r.order[k] in r.order;
    NoDupBounded(r.order, NodeCount);
    r.order
  }

  /** The corrected traversal from A visits nodes in breadth-first layers
      by distance from A: A, then B and C, then D, E and F. */
  lemma LiveOrderFromA()
    ensures TraverseLive(0) == [0, 1, 2, 3, 4, 5]
  {
    var s1 := State([1, 2], [0], {0});
    var s2 := State([2, 3, 4], [0, 1], {0, 1});
    var s3 := State([3, 4, 5], [0, 1, 2], {0, 1, 2});
    var s4 := State([4, 5], [0, 1, 2, 3], {0, 1, 2, 3});
    var s5 := State([5], [0, 1, 2, 3, 4], {0, 1, 2, 3, 4});
    var s6 := State([], [0, 1, 2, 3, 4, 5], {0, 1, 2, 3, 4, 5});
    StaleStep1();
    LiveUnfold(Init(0));
    LiveStep2();
    LiveUnfold(s1);
    LiveStep3();
    LiveUnfold(s2);
    LiveStep4();
    LiveUnfold(s3);
    LiveStep5();
    LiveUnfold(s4);
    LiveStep6();
    LiveUnfold(s5);
    assert RunLive(s6) == s6;
  }

  /** One iteration of the intended loop from a state with a queue. */
  lemma LiveUnfold(st: State)
    requires LiveInv(st) && |st.queue| > 0
    ensures LiveInv(Step(st, st.visited))
    ensures RunLive(st) == RunLive(Step(st, st.visited))
  {
    LiveStepBooks(st);
    LiveStepClosed(st);
  }

  /** The iterations of the intended loop from A after the first. */
  lemma LiveStep2() ensures Step(State([1, 2], [0], {0}), {0}) == State([2, 3, 4], [0, 1], {0, 1}) {
    assert [1, 2][1..] == [2];
    assert Neighbors[1] == [0, 3, 4];
    assert [0, 3, 4][1..] == [3, 4] && [3, 4][1..] == [4] && [4][1..] == [];
    assert [2] + [3] == [2, 3] && [2, 3] + [4] == [2, 3, 4];
    assert EnqueueNew([2, 3, 4], [], {0}) == [2, 3, 4];
    assert EnqueueNew([2, 3], [4], {0}) == [2, 3, 4];
    assert EnqueueNew([2], [3, 4], {0}) == [2, 3, 4];
  }

  lemma LiveStep3() ensures Step(State([2, 3, 4], [0, 1], {0, 1}), {0, 1}) == State([3, 4, 5], [0, 1, 2], {0, 1, 2}) {
    assert [2, 3, 4][1..] == [3, 4];
    assert Neighbors[2] == [0, 5];
    assert [0, 5][1..] == [5] && [5][1..] == [];
    assert [3, 4] + [5] == [3, 4, 5];
    assert EnqueueNew([3, 4, 5], [], {0, 1}) == [3, 4, 5];
    assert EnqueueNew([3, 4], [5], {0, 1}) == [3, 4, 5];
  }

  lemma LiveStep4() ensures Step(State([3, 4, 5], [0, 1, 2], {0, 1, 2}), {0, 1, 2}) == State([4, 5], [0, 1, 2, 3], {0, 1, 2, 3}) {
    assert [3, 4, 5][1..] == [4, 5];
    assert Neighbors[3] == [1];
    assert [1][1..] == [];
    assert EnqueueNew([4, 5], [], {0, 1, 2}) == [4, 5];
  }

  lemma LiveStep5() ensures Step(State([4, 5], [0, 1, 2, 3], {0, 1, 2, 3}), {0, 1, 2, 3}) == State([5], [0, 1, 2, 3, 4], {0, 1, 2, 3, 4}) {
    assert [4, 5][1..] == [5];
    assert Neighbors[4] == [1, 5];
    assert [1, 5][1..] == [5] && [5][1..] == [];
    assert EnqueueNew([5], [], {0, 1, 2, 3}) == [5];
    assert EnqueueNew([5], [5], {0, 1, 2, 3}) == [5];
  }

  lemma LiveStep6() ensures Step(State([5], [0, 1, 2, 3, 4], {0, 1, 2, 3, 4}), {0, 1, 2, 3, 4}) == State([], [0, 1, 2, 3, 4, 5], {0, 1, 2, 3, 4, 5}) {
    assert [5][1..] == [];
    assert Neighbors[5] == [2, 4];
    assert [2, 4][1..] == [4] && [4][1..] == [];
    assert EnqueueNew([], [], {0, 1, 2, 3, 4}) == [];
    assert EnqueueNew([], [4], {0, 1, 2, 3, 4}) == [];
  }

  /** The intended loop visits every node exactly once from any start
      node, and nothing from an id that names no node. */
  lemma LiveVisitsEveryNode(start: int)
    ensures IsNode(start) ==> |TraverseLive(start)| == NodeCount && forall i | IsNode(i) :: i in TraverseLive(start)
    ensures !IsNode(start) ==> TraverseLive(start) == []
  {
    var s0 := Init(start);
    assert [start][1..] == [];
    if IsNode(start) {
      var s1 := Step(s0, s0.visited);
      LiveStepBooks(s0);
      LiveStepClosed(s0);
      assert start in s1.visited;
      var r := RunLive(s1);
      assert RunLive(s0) == r;
      Connected(r.visited, start);
      CoverLength(r.order, NodeCount);
    } else {
      assert Step(s0, s0.visited) == State([], [], {});
      assert RunLive(s0) == RunLive(State([], [], {}));
    }
  }
}

=== FILE: bst.dfy ===
/** The binary search tree visualizer: `insertNode` puts a value into an
    empty tree as the root, and otherwise descends from the root (left when
    smaller, right when larger) and links a new node where the descent falls
    off the tree; an equal value stops the descent and changes nothing.
    `searchNode` reports an empty tree, or descends the same way and reports
    whether it met the value. */
module Bst {
  import opened Common

  datatype Tree = Leaf | Node(left: Tree, value: int, right: Tree)

  /** What `searchNode` reports. */
  datatype SearchReport = EmptyTree | Found | NotFound

  function Values(t: Tree): set<int> {
    match t
    case Leaf => {}
    case Node(l, x, r) => Values(l) + {x} + Values(r)
  }

  /** The strict search-tree order: every value in a left subtree is smaller
      than its node's value and every value in a right subtree is larger. */
  predicate Ordered(t: Tree) {
    match t
    case Leaf => true
    case Node(l, x, r) =>
      Ordered(l) && Ordered(r) &&
      (forall y | y in Values(l) :: y < x) &&
      (forall y | y in Values(r) :: x < y)
  }

  /** A position in the tree: the turns from the root, `false` for left and
      `true` for right. */
  type Path = seq<bool>

  /** The value of the node at path `p`, if there is one. Two trees with the
      same `At` everywhere are the same tree. */
  function At(t: Tree, p: Path): Option<int>
    decreases |p|
  {
    match t
    case Leaf => None
    case Node(l, x, r) =>
      if |p| == 0 then Some(x)
      else if p[0] then At(r, p[1..]) else At(l, p[1..])
  }

  /** Where the descent for `v` stops: at the node holding `v`, or at the
      empty spot where a node for `v` would be linked. */
  function Descent(t: Tree, v: int): (p: Path)
    ensures At(t, p) == None || At(t, p) == Some(v)
  {
    match t
    case Leaf => []
    case Node(l, x, r) =>
      if v < x then [false] + Descent(l, v)
      else if v > x then [true] + Descent(r, v)
      else []
  }

  /** `insertNode`: a new root for an empty tree, otherwise the recursive
      `insert`. */
  function Insert(t: Tree, v: int): (r: Tree)
    ensures Values(r) == Values(t) + {v}
    ensures Ordered(t) ==> Ordered(r)
    ensures r != Leaf
  {
    match t
    case Leaf => Node(Leaf, v, Leaf)
    case Node(l, x, rt) =>
      if v < x then Node(Insert(l, v), x, rt)
      else if v > x then Node(l, x, Insert(rt, v))
      else t
  }

  /** The descent of `search`: whether it meets a node holding `v`. */
  function Contains(t: Tree, v: int): (found: bool)
    ensures found <==> At(t, Descent(t, v)) == Some(v)
    ensures found ==> v in Values(t)
  {
    match t
    case Leaf => false
    case Node(l, x, r) =>
      if v == x then true
      else if v < x then Contains(l, v)
      else Contains(r, v)
  }

  /** `searchNode`. */
  function Search(t: Tree, v: int): (r: SearchReport)
    ensures r == EmptyTree <==> t == Leaf
    ensures r == Found ==> v in Values(t)
  {
    if t == Leaf then EmptyTree
    else if Contains(t, v) then Found
    else NotFound
  }

  /** In an ordered tree the descent finds every value the tree holds. */
  lemma {:induction false} ContainsComplete(t: Tree, v: int)
    requires Ordered(t)
    ensures Contains(t, v) <==> v in Values(t)
  {
    match t
    case Leaf =>
    case Node(l, x, r) =>
      if v < x {
        ContainsComplete(l, v);
        assert v !in Values(r);
      } else if v > x {
        ContainsComplete(r, v);
        assert v !in Values(l);
      }
  }

  /** Search reports found exactly when an ordered tree holds the value, and
      not found exactly when a non-empty ordered tree does not. */
  lemma SearchCorrect(t: Tree, v: int)
    requires Ordered(t)
    ensures Search(t, v) == Found <==> v in Values(t)
    ensures Search(t, v) == NotFound <==> t != Leaf && v !in Values(t)
  {
    ContainsComplete(t, v);
  }

  /** Insert changes exactly one position, the end of the descent, which now
      holds `v`: a new node is linked there as a leaf (or the node already
      held `v`), and every other node keeps its place and value. */
  lemma {:induction false} InsertAtDescent(t: Tree, v: int, p: Path)
    ensures At(Insert(t, v), p) == (if p == Descent(t, v) then Some(v) else At(t, p))
    decreases |p|
  {
    match t
    case Leaf =>
      if |p| > 0 {
        assert At(Insert(t, v), p) == None;
      }
    case Node(l, x, r) =>
      if |p| > 0 && v != x {
        var d := Descent(t, v);
        if v < x {
          InsertAtDescent(l, v, p[1..]);
          assert p == d <==> !p[0] && p[1..] == Descent(l, v);
        } else {
          InsertAtDescent(r, v, p[1..]);
          assert p == d <==> p[0] && p[1..] == Descent(r, v);
        }
      }
  }

  /** The new node is a leaf under an existing node: the descent ends on an
      empty spot whose parent position is occupied (or the tree was empty),
      and nothing hangs below the new node. */
  lemma {:induction false} InsertLinksLeaf(t: Tree, v: int)
    requires v !in Values(t)
    ensures At(t, Descent(t, v)) == None
    ensures |Descent(t, v)| > 0 ==> At(t, Descent(t, v)[..|Descent(t, v)| - 1]).Some?
    ensures At(Insert(t, v), Descent(t, v) + [false]) == None
    ensures At(Insert(t, v), Descent(t, v) + [true]) == None
  {
    match t
    case Leaf =>
    case Node(l, x, r) =>
      var d := Descent(t, v);
      if v < x {
        InsertLinksLeaf(l, v);
        var dl := Descent(l, v);
        assert d == [false] + dl;
        assert (d + [false])[1..] == dl + [false];
        assert (d + [true])[1..] == dl + [true];
        if |dl| > 0 {
          assert d[..|d| - 1] == [false] + dl[..|dl| - 1];
        }
      } else {
        InsertLinksLeaf(r, v);
        var dr := Descent(r, v);
        assert d == [true] + dr;
        assert (d + [false])[1..] == dr + [false];
        assert (d + [true])[1..] == dr + [true];
        if |dr| > 0 {
          assert d[..|d| - 1] == [true] + dr[..|dr| - 1];
        }
      }
  }

  /** Inserting a value an ordered tree already holds leaves it unchanged. */
  lemma {:induction false} InsertDuplicate(t: Tree, v: int)
    requires Ordered(t) && v in Values(t)
    ensures Insert(t, v) == t
  {
    match t
    case Node(l, x, r) =>
      if v < x {
        assert v !in Values(r);
        InsertDuplicate(l, v);
      } else if v > x {
        assert v !in Values(l);
        InsertDuplicate(r, v);
      }
  }

  /** Inserting the values of `xs` in order, starting from `t`. */
  function InsertAll(t: Tree, xs: seq<int>): (r: Tree)
    ensures Values(r) == Values(t) + set x | x in xs
    ensures Ordered(t) ==> Ordered(r)
    decreases |xs|
  {
    if |xs| == 0 then t
    else
      var r := InsertAll(Insert(t, xs[0]), xs[1..]);
      assert (set x | x in xs) == {xs[0]} + set x | x in xs[1..];
      r
  }

  /** Insert 5, 3, 8, 1, 4 into an empty tree: searching 4 finds it and
      searching 99 does not. */
  lemma FiveInserts()
    ensures InsertAll(Leaf, [5, 3, 8, 1, 4])
      == Node(Node(Node(Leaf, 1, Leaf), 3, Node(Leaf, 4, Leaf)), 5, Node(Leaf, 8, Leaf))
    ensures Search(InsertAll(Leaf, [5, 3, 8, 1, 4]), 4) == Found
    ensures Search(InsertAll(Leaf, [5, 3, 8, 1, 4]), 99) == NotFound
  {
    var t := InsertAll(Leaf, [5, 3, 8, 1, 4]);
    SearchCorrect(t, 99);
  }

  /** An empty tree: insert makes a single-node root, search reports the
      tree empty. */
  lemma EmptyTreeCases(v: int)
    ensures Insert(Leaf, v) == Node(Leaf, v, Leaf)
    ensures Search(Leaf, v) == EmptyTree
  {
  }
}

=== FILE: common.dfy ===
/** Shared vocabulary of the visualizer models: optional values, orderings and
    duplicate-freedom of sequences. */
module Common {

  /** A value that may be absent (`null` / `undefined` / `Infinity` in the visualizers). */
  datatype Option<+T> = None | Some(value: T)

  /** Non-decreasing order of a whole sequence. */
  predicate Sorted(s: seq<int>) {
    forall i, j | 0 <= i < j < |s| :: s[i] <= s[j]
  }

  /** Non-decreasing order of the slice `s[lo..hi]`. */
  predicate SortedRange(s: seq<int>, lo: int, hi: int)
    requires 0 <= lo <= hi <= |s|
  {
    forall i, j | lo <= i < j < hi :: s[i] <= s[j]
  }

  /** No element occurs twice. */
  predicate NoDup<T(==)>(s: seq<T>) {
    forall i, j | 0 <= i < j < |s| :: s[i] != s[j]
  }

  /** `a` is `b` with some elements left out, the rest kept in order. */
  predicate Subsequence<T(==)>(a: seq<T>, b: seq<T>) {
    if |a| == 0 then true
    else if |b| == 0 then false
    else if a[0] == b[0] then Subsequence(a[1..], b[1..])
    else Subsequence(a, b[1..])
  }

  /** Index of the first occurrence of `x` in `s`, if any. */
  function IndexOf<T(==)>(s: seq<T>, x: T): (r: Option<nat>)
    ensures r.None? <==> x !in s
    ensures r.Some? ==> r.value < |s| && s[r.value] == x && x !in s[..r.value]
  {
    if |s| == 0 then None
    else if s[0] == x then Some(0)
    else match IndexOf(s[1..], x)
      case None => None
      case Some(k) => assert s[1..][..k] == s[1..k + 1]; Some(k + 1)
  }

  /** `s` with its first occurrence of `x` deleted (unchanged when absent). */
  function RemoveFirst<T(==)>(s: seq<T>, x: T): (r: seq<T>)
    ensures x !in s ==> r == s
    ensures x in s ==> |r| == |s| - 1
  {
    if |s| == 0 then s
    else if s[0] == x then s[1..]
    else [s[0]] + RemoveFirst(s[1..], x)
  }

  /** Deleting the first occurrence splits the sequence around that index and
      keeps everything else in order. */
  lemma {:induction false} RemoveFirstAtIndex<T>(s: seq<T>, x: T)
    requires x in s
    ensures IndexOf(s, x).Some?
    ensures RemoveFirst(s, x) == s[..IndexOf(s, x).value] + s[IndexOf(s, x).value + 1..]
  {
    if s[0] != x {
      RemoveFirstAtIndex(s[1..], x);
      var k := IndexOf(s[1..], x).value;
      assert s[..k + 1] == [s[0]] + s[1..][..k];
      assert s[k + 2..] == s[1..][k + 1..];
    }
  }

  /** `s` back to front. */
  function Reverse<T>(s: seq<T>): (r: seq<T>)
    ensures |r| == |s|
    ensures forall k | 0 <= k < |s| :: r[k] == s[|s| - 1 - k]
  {
    if |s| == 0 then [] else Reverse(s[1..]) + [s[0]]
  }

  /** A sequence that extends `b` agrees with `b` on every shorter prefix. */
  lemma PrefixAgree<T>(a: seq<T>, b: seq<T>, k: nat)
    requires k <= |b| <= |a| && a[..|b|] == b
    ensures a[..k] == b[..k]
  {
    assert forall i | 0 <= i < k :: a[i] == a[..|b|][i];
  }

  /** Reversing keeps a sequence duplicate-free. */
  lemma ReverseNoDup<T>(s: seq<T>)
    requires NoDup(s)
    ensures NoDup(Reverse(s))
  {
    var r := Reverse(s);
    forall a, b | 0 <= a < b < |r| ensures r[a] != r[b] {
      assert r[a] == s[|s| - 1 - a] && r[b] == s[|s| - 1 - b];
    }
  }

  /** `s` with every occurrence of `x` dropped. */
  function Without(s: seq<int>, x: int): (r: seq<int>)
    ensures forall i | 0 <= i < |r| :: r[i] != x && r[i] in s
    ensures x !in s ==> r == s
    ensures NoDup(s) ==> NoDup(r) && |r| + 1 >= |s|
    ensures forall y | y in s && y != x :: y in r
    ensures x in s ==> |r| < |s|
  {
    if |s| == 0 then s
    else if s[0] == x then Without(s[1..], x)
    else [s[0]] + Without(s[1..], x)
  }

  /** A duplicate-free sequence of ids drawn from `0..n-1` has at most `n` elements. */
  lemma {:induction false} NoDupBounded(s: seq<int>, n: nat)
    requires NoDup(s)
    requires forall i | 0 <= i < |s| :: 0 <= s[i] < n
    ensures |s| <= n
    decreases n
  {
    if |s| > 0 {
      assert 0 <= s[0] < n;
      var t := Without(s, n - 1);
      forall i | 0 <= i < |t| ensures 0 <= t[i] < n - 1 {
        assert t[i] in s;
      }
      NoDupBounded(t, n - 1);
    }
  }

  /** Pigeonhole: more than `n` ids drawn from `0..n-1` repeat one. */
  lemma Pigeonhole(s: seq<int>, n: nat)
    requires |s| > n && forall x | x in s :: 0 <= x < n
    ensures !NoDup(s)
  {
    if NoDup(s) {
      assert forall k | 0 <= k < |s| :: s[k] in s;
      NoDupBounded(s, n);
    }
  }

  /** A sequence holding every id of `0..n-1` has at least `n` elements. */
  lemma {:induction false} CoverLength(s: seq<int>, n: nat)
    requires forall i | 0 <= i < n :: i in s
    ensures |s| >= n
    decreases n
  {
    if n > 0 {
      var t := Without(s, n - 1);
      CoverLength(t, n - 1);
    }
  }

  /** Replacing a slice by a permutation of it permutes the whole. */
  lemma MultisetSpliceReplace(s: seq<int>, lo: int, hi: int, part: seq<int>)
    requires 0 <= lo <= hi <= |s|
    requires multiset(part) == multiset(s[lo..hi])
    ensures multiset(s[..lo] + part + s[hi..]) == multiset(s)
  {
    MultisetThreeWay(s, lo, hi);
    assert multiset(s[..lo] + part + s[hi..]) == multiset(s[..lo]) + multiset(part) + multiset(s[hi..]);
  }

  /** Replacing two adjacent slices by a permutation of both permutes the
      whole. */
  lemma MultisetSpliceHalves(s: seq<int>, lo: int, m: int, hi: int, part: seq<int>)
    requires 0 <= lo <= m <= hi <= |s|
    requires multiset(part) == multiset(s[lo..m]) + multiset(s[m..hi])
    ensures multiset(s[..lo] + part + s[hi..]) == multiset(s)
  {
    MultisetSliceSplit(s, lo, m, hi);
    MultisetSpliceReplace(s, lo, hi, part);
  }

  /** Cutting a sequence at two points splits its multiset three ways. */
  lemma MultisetThreeWay(s: seq<int>, lo: int, hi: int)
    requires 0 <= lo <= hi <= |s|
    ensures multiset(s) == multiset(s[..lo]) + multiset(s[lo..hi]) + multiset(s[hi..])
  {
    assert s == s[..lo] + s[lo..hi] + s[hi..];
  }

  /** Cutting a slice at an inner point splits its multiset in two. */
  lemma MultisetSliceSplit(s: seq<int>, lo: int, mid: int, hi: int)
    requires 0 <= lo <= mid <= hi <= |s|
    ensures multiset(s[lo..hi]) == multiset(s[lo..mid]) + multiset(s[mid..hi])
  {
    assert s[lo..hi] == s[lo..mid] + s[mid..hi];
  }

  /** Equal sums with equal outer parts have equal middles. */
  lemma MultisetCancel(p: multiset<int>, x: multiset<int>, y: multiset<int>, q: multiset<int>)
    requires p + x + q == p + y + q
    ensures x == y
  {
    forall e ensures x[e] == y[e] {
      assert (p + x + q)[e] == (p + y + q)[e];
    }
  }
}

=== FILE: dfs.dfy ===
/** The DFS visualizer's `runDFS`: an explicit stack seeded with the start
    id and a set of visited ids. Each iteration pops the top id, skips it if
    already visited, marks it visited, and, when it names a node, records it
    in the visit order and pushes its not-yet-visited neighbours in reverse
    neighbour order, leaving out ids already on the stack. */
module Dfs {
  import opened Common
  import opened SearchGraph

  datatype State = State(stack: seq<int>, visited: set<int>, order: seq<nat>)

  /** The state before the first iteration: the start alone on the stack,
      which already satisfies the loop's invariant `Inv`. */
  function Init(start: int): (r: State)
    ensures r.stack == [start] && |r.order| == 0
    ensures Inv(r)
  {
    State([start], {}, [])
  }

  /** The push loop: each id in turn goes on top unless it is on the stack
      already (including ids pushed earlier in the same loop). */
  function PushAbsent(stack: seq<int>, ids: seq<nat>): (r: seq<int>)
    ensures |stack| <= |r|
    decreases |ids|
  {
    if |ids| == 0 then stack
    else
      var next := if ids[0] in stack then stack else stack + [ids[0]];
      PushAbsent(next, ids[1..])
  }

  /** The push loop pushes at most one id per neighbour. */
  lemma {:induction false} PushBound(stack: seq<int>, ids: seq<nat>)
    ensures |PushAbsent(stack, ids)| <= |stack| + |ids|
    decreases |ids|
  {
    if |ids| > 0 {
      var next := if ids[0] in stack then stack else stack + [ids[0]];
      PushBound(next, ids[1..]);
    }
  }

  /** The push loop keeps the old stack underneath, never pushes an id
      twice, pushes only the given ids and leaves each of them on the stack;
      the last id ends on top unless it was there already. */
  lemma PushFacts(stack: seq<int>, ids: seq<nat>)
    ensures |PushAbsent(stack, ids)| >= |stack| && PushAbsent(stack, ids)[..|stack|] == stack
    ensures NoDup(stack) ==> NoDup(PushAbsent(stack, ids))
    ensures forall x | x in PushAbsent(stack, ids) :: x in stack || x in ids
    ensures forall x | x in ids :: x in PushAbsent(stack, ids)
    ensures NoDup(ids) && |ids| > 0 && ids[|ids| - 1] !in stack ==>
      PushAbsent(stack, ids)[|PushAbsent(stack, ids)| - 1] == ids[|ids| - 1]
  {
    PushPrefix(stack, ids);
    PushMembers(stack, ids);
    if NoDup(stack) {
      PushNoDup(stack, ids);
    }
    if NoDup(ids) && |ids| > 0 && ids[|ids| - 1] !in stack {
      PushLast(stack, ids);
    }
  }

  /** The push loop keeps the old stack underneath. */
  lemma {:induction false} PushPrefix(stack: seq<int>, ids: seq<nat>)
    ensures PushAbsent(stack, ids)[..|stack|] == stack
    decreases |ids|
  {
    if |ids| > 0 {
      var next := if ids[0] in stack then stack else stack + [ids[0]];
      PushPrefix(next, ids[1..]);
      var r := PushAbsent(stack, ids);
      assert r == PushAbsent(next, ids[1..]);
      assert r[..|stack|] == next[..|next|][..|stack|];
    }
  }

  /** The push loop pushes only the given ids and leaves each on the stack. */
  lemma {:induction false} PushMembers(stack: seq<int>, ids: seq<nat>)
    ensures forall x | x in PushAbsent(stack, ids) :: x in stack || x in ids
    ensures forall x | x in ids :: x in PushAbsent(stack, ids)
    decreases |ids|
  {
    if |ids| > 0 {
      var next := if ids[0] in stack then stack else stack + [ids[0]];
      PushMembers(next, ids[1..]);
      PushPrefix(next, ids[1..]);
      var r := PushAbsent(stack, ids);
      assert r == PushAbsent(next, ids[1..]);
      assert forall x | x in ids :: x == ids[0] || x in ids[1..];
      assert ids[0] in next;
      assert forall x | x in next :: x in r[..|next|];
    }
  }

  /** The push loop never pushes an id twice. */
  lemma {:induction false} PushNoDup(stack: seq<int>, ids: seq<nat>)
    requires NoDup(stack)
    ensures NoDup(PushAbsent(stack, ids))
    decreases |ids|
  {
    if |ids| > 0 {
      var next := if ids[0] in stack then stack else stack + [ids[0]];
      assert NoDup(next);
      PushNoDup(next, ids[1..]);
    }
  }

  /** The last id ends on top when it was not on the stack already. */
  lemma {:induction false} PushLast(stack: seq<int>, ids: seq<nat>)
    requires NoDup(ids) && |ids| > 0 && ids[|ids| - 1] !in stack
    ensures PushAbsent(stack, ids)[|PushAbsent(stack, ids)| - 1] == ids[|ids| - 1]
    decreases |ids|
  {
    var next := if ids[0] in stack then stack else stack + [ids[0]];
    if |ids| == 1 {
      assert PushAbsent(stack, ids) == PushAbsent(next, []) == next;
    } else {
      assert ids[|ids| - 1] != ids[0];
      assert ids[1..][|ids| - 2] == ids[|ids| - 1];
      PushLast(next, ids[1..]);
    }
  }

  /** Every neighbour of a visited node is visited too or waits on the
      stack. */
  predicate Closed(st: State) {
    forall v | IsNode(v) && v in st.visited ::
      forall n | n in Neighbors[v] :: n in st.visited || n in st.stack
  }

  /** What the run has established so far: the stack has no duplicates and
      holds no visited id, the visit order lists, once each, exactly the
      visited ids that name nodes, and the visited nodes are closed under
      neighbours up to the stack. */
  predicate Inv(st: State) {
    NoDup(st.stack) &&
    (forall x | x in st.stack :: x !in st.visited) &&
    NoDup(st.order) &&
    (forall x | x in st.order :: IsNode(x) && x in st.visited) &&
    (forall i | IsNode(i) && i in st.visited :: i in st.order) &&
    Closed(st)
  }

  /** One iteration of the `while` loop. */
  function Step(st: State): (r: State)
    requires |st.stack| > 0
    ensures st.visited <= r.visited
    ensures r.order == st.order || r.order == st.order + [st.stack[|st.stack| - 1]]
  {
    var cur := st.stack[|st.stack| - 1];
    var rest := st.stack[..|st.stack| - 1];
    if cur in st.visited then State(rest, st.visited, st.order)
    else
      var visited := st.visited + {cur};
      if !IsNode(cur) then
        State(rest, visited, st.order)
      else
        State(PushAbsent(rest, Reverse(Unvisited(Neighbors[cur], visited))), visited, st.order + [cur])
  }

  /** The iteration that visits a node: it is recorded, and its unvisited
      neighbours are pushed in reverse order. */
  lemma StepVisit(st: State)
    requires |st.stack| > 0
    requires st.stack[|st.stack| - 1] !in st.visited && IsNode(st.stack[|st.stack| - 1])
    ensures var cur := st.stack[|st.stack| - 1];
      Step(st) == State(PushAbsent(st.stack[..|st.stack| - 1], Reverse(Unvisited(Neighbors[cur], st.visited + {cur}))),
        st.visited + {cur}, st.order + [cur])
  {
  }

  /** Pushing the reversed unvisited neighbours onto a duplicate-free stack
      of unvisited ids keeps it so, and leaves every one of them on it. */
  lemma PushKeeps(rest: seq<int>, un: seq<nat>, visited: set<int>)
    requires NoDup(rest) && forall x | x in rest :: x !in visited
    requires forall x | x in un :: x !in visited
    ensures var s := PushAbsent(rest, Reverse(un));
      NoDup(s) && (forall x | x in s :: x !in visited) && forall x | x in un :: x in s
  {
    var pushed := Reverse(un);
    PushFacts(rest, pushed);
    forall x | x in pushed ensures x in un {
      var k :| 0 <= k < |pushed| && pushed[k] == x;
      assert x == un[|un| - 1 - k];
    }
    forall x | x in un ensures x in pushed {
      var k :| 0 <= k < |un| && un[k] == x;
      assert x == pushed[|un| - 1 - k];
    }
  }

  /** A neighbour of a visited node, under `Closed`, is visited or on the
      stack. */
  lemma ClosedAt(st: State, v: nat, n: nat)
    requires Closed(st) && IsNode(v) && v in st.visited && n in Neighbors[v]
    ensures n in st.visited || n in st.stack
  {
  }

  /** Visiting `cur`, popped from the top, keeps `Closed` when the new stack
      keeps the rest of the old one and holds every unvisited neighbour of
      `cur`. */
  lemma VisitClosed(st: State, cur: nat, s: seq<int>, order: seq<nat>)
    requires Closed(st) && |st.stack| > 0 && cur == st.stack[|st.stack| - 1] && IsNode(cur)
    requires |s| >= |st.stack| - 1 && s[..|st.stack| - 1] == st.stack[..|st.stack| - 1]
    requires forall n | n in Neighbors[cur] && n !in st.visited + {cur} :: n in s
    ensures Closed(State(s, st.visited + {cur}, order))
  {
    var r := State(s, st.visited + {cur}, order);
    var rest := st.stack[..|st.stack| - 1];
    assert st.stack == rest + [cur];
    forall v, n | IsNode(v) && v in r.visited && n in Neighbors[v]
      ensures n in r.visited || n in r.stack
    {
      if v != cur && n !in r.visited {
        ClosedAt(st, v, n);
        assert n in rest;
        assert n in s[..|rest|];
      }
    }
  }

  /** Each iteration keeps `Inv`. */
  lemma StepInv(st: State)
    requires |st.stack| > 0 && Inv(st)
    ensures Inv(Step(st))
  {
    var cur := st.stack[|st.stack| - 1];
    var rest := st.stack[..|st.stack| - 1];
    assert st.stack == rest + [cur];
    if cur !in st.visited && IsNode(cur) {
      var visited := st.visited + {cur};
      var un := Unvisited(Neighbors[cur], visited);
      StepVisit(st);
      var r := Step(st);
      PushKeeps(rest, un, visited);
      PushFacts(rest, Reverse(un));
      VisitClosed(st, cur, r.stack, r.order);
      assert NoDup(r.order) by {
        assert cur !in st.order;
      }
    }
  }

  /** The `while (newStack.length > 0)` loop. */
  function Run(st: State): (r: State)
    ensures |r.stack| == 0
    ensures st.visited <= r.visited
    ensures |st.order| <= |r.order| && r.order[..|st.order|] == st.order
    decreases |Remaining(st.visited)|, |st.stack|
  {
    if |st.stack| == 0 then st
    else
      var next := Step(st);
      StepProgress(st);
      var r := Run(next);
      assert r.order[..|st.order|] == next.order[..|st.order|];
      r
  }

  /** The loop keeps `Inv`. */
  lemma {:induction false} RunInv(st: State)
    requires Inv(st)
    ensures Inv(Run(st))
    decreases |Remaining(st.visited)|, |st.stack|
  {
    if |st.stack| > 0 {
      StepInv(st);
      StepProgress(st);
      RunInv(Step(st));
    }
  }

  /** Each iteration visits a new node or shrinks the stack. */
  lemma StepProgress(st: State)
    requires |st.stack| > 0
    ensures |Remaining(Step(st).visited)| < |Remaining(st.visited)| ||
      (Remaining(Step(st).visited) == Remaining(st.visited) && |Step(st).stack| < |st.stack|)
  {
    var cur := st.stack[|st.stack| - 1];
    var r := Step(st);
    if cur !in st.visited {
      if IsNode(cur) {
        assert cur in Remaining(st.visited) && cur !in Remaining(r.visited);
        SubsetCard(Remaining(r.visited), Remaining(st.visited));
      } else {
        assert Remaining(r.visited) == Remaining(st.visited);
      }
    }
  }

  /** `runDFS` from a start id: the visit order. */
  function Traverse(start: int): (order: seq<nat>)
    ensures NoDup(order)
    ensures forall k | 0 <= k < |order| :: IsNode(order[k])
    ensures |order| <= NodeCount
  {
    var r := Run(Init(start));
    RunInv(Init(start));
    assert forall k | 0 <= k < |r.order| :: r.order[k] in r.order;
    NoDupBounded(r.order, NodeCount);
    r.order
  }

  /** Pushing a reversed duplicate-free list leaves its first element on
      top, unless that element was on the stack already. */
  lemma PushTop(rest: seq<int>, un: seq<nat>)
    requires NoDup(un) && |un| > 0 && un[0] !in rest
    ensures var r := PushAbsent(rest, Reverse(un)); |r| > 0 && r[|r| - 1] == un[0]
  {
    var pushed := Reverse(un);
    assert NoDup(pushed) && |pushed| > 0 && pushed[|pushed| - 1] == un[0] by {
      ReverseNoDup(un);
    }
    PushLast(rest, pushed);
  }

  /** After a node is visited, its first neighbour, if unvisited and not on
      the stack already, is on top and is popped next. */
  lemma FirstNeighbourNext(st: State, cur: nat)
    requires |st.stack| > 0 && cur == st.stack[|st.stack| - 1]
    requires cur !in st.visited && IsNode(cur) && |Neighbors[cur]| > 0
    requires Neighbors[cur][0] !in st.visited && Neighbors[cur][0] !in st.stack
    ensures |Step(st).stack| > 0 && Step(st).stack[|Step(st).stack| - 1] == Neighbors[cur][0]
  {
    var rest := st.stack[..|st.stack| - 1];
    var ns := Neighbors[cur];
    var un := Unvisited(ns, st.visited + {cur});
    assert NoDup(un) && |un| > 0 && un[0] == ns[0] by {
      NeighborsWellFormed(cur);
      assert ns[0] != cur && NoDup(ns);
    }
    assert un[0] !in rest by {
      assert forall x | x in rest :: x in st.stack;
    }
    assert Step(st).stack == PushAbsent(rest, Reverse(un)) by {
      StepVisit(st);
    }
    PushTop(rest, un);
  }

  /** From any node every node is visited exactly once: the order is a
      permutation of the six ids. */
  lemma VisitsEveryNode(start: int)
    requires IsNode(start)
    ensures |Traverse(start)| == NodeCount
    ensures forall i | IsNode(i) :: i in Traverse(start)
  {
    var s0 := Init(start);
    var s1 := Step(s0);
    assert start in s1.visited;
    assert Inv(s0);
    StepInv(s0);
    RunInv(s1);
    var r := Run(s1);
    assert Run(s0) == r;
    assert ClosedUnder(r.visited) by {
      forall v, n | IsNode(v) && v in r.visited && n in Neighbors[v] ensures n in r.visited {
        ClosedAt(r, v, n);
      }
    }
    Connected(r.visited, start);
    CoverLength(r.order, NodeCount);
  }

  /** The iterations of `runDFS` from A: A, B, D, E, F and C are visited
      in turn, and the last pop empties the stack. */
  lemma PushedByA() ensures PushAbsent([], Reverse(Unvisited(Neighbors[0], {0}))) == [2, 1] {
    assert Unvisited(Neighbors[0], {0}) == [1, 2];
    assert Reverse([1, 2]) == [2, 1];
    assert PushAbsent([], [2, 1]) == PushAbsent([2], [1]) == [2, 1];
  }

  lemma FromAStep1() ensures Step(Init(0)) == State([2, 1], {0}, [0]) {
    assert [0][..0] == [] && {} + {0} == {0};
    StepVisit(Init(0));
    PushedByA();
  }

  lemma PushedByB() ensures PushAbsent([2], Reverse(Unvisited(Neighbors[1], {0, 1}))) == [2, 4, 3] {
    assert Unvisited(Neighbors[1], {0, 1}) == [3, 4];
    assert Reverse([3, 4]) == [4, 3];
    assert PushAbsent([2], [4, 3]) == PushAbsent([2, 4], [3]) == [2, 4, 3];
  }

  lemma FromAStep2() ensures Step(State([2, 1], {0}, [0])) == State([2, 4, 3], {0, 1}, [0, 1]) {
    assert [2, 1][..1] == [2] && {0} + {1} == {0, 1};
    StepVisit(State([2, 1], {0}, [0]));
    PushedByB();
  }

  lemma FromAStep3() ensures Step(State([2, 4, 3], {0, 1}, [0, 1])) == State([2, 4], {0, 1, 3}, [0, 1, 3]) {
    assert [2, 4, 3][..2] == [2, 4] && {0, 1} + {3} == {0, 1, 3};
    assert Unvisited(Neighbors[3], {0, 1, 3}) == [];
  }

  lemma FromAStep4() ensures Step(State([2, 4], {0, 1, 3}, [0, 1, 3])) == State([2, 5], {0, 1, 3, 4}, [0, 1, 3, 4]) {
    assert [2, 4][..1] == [2] && {0, 1, 3} + {4} == {0, 1, 3, 4};
    assert Unvisited(Neighbors[4], {0, 1, 3, 4}) == [5];
    assert Reverse([5]) == [5];
    assert PushAbsent([2], [5]) == [2, 5];
  }

  lemma FromAStep5()
    ensures Step(State([2, 5], {0, 1, 3, 4}, [0, 1, 3, 4])) == State([2], {0, 1, 3, 4, 5}, [0, 1, 3, 4, 5])
  {
    assert [2, 5][..1] == [2] && {0, 1, 3, 4} + {5} == {0, 1, 3, 4, 5};
    assert Unvisited(Neighbors[5], {0, 1, 3, 4, 5}) == [2];
    assert Reverse([2]) == [2];
    assert PushAbsent([2], [2]) == [2];
  }

  lemma FromAStep6()
    ensures Step(State([2], {0, 1, 3, 4, 5}, [0, 1, 3, 4, 5])) == State([], {0, 1, 3, 4, 5, 2}, [0, 1, 3, 4, 5, 2])
  {
    assert [2][..0] == [] && {0, 1, 3, 4, 5} + {2} == {0, 1, 3, 4, 5, 2};
    assert Unvisited(Neighbors[2], {0, 1, 3, 4, 5, 2}) == [];
  }

  /** From A the visit order is A, B, D, E, F, C: B is pushed last and
      popped first, D before E for the same reason, and C, pushed at the
      bottom by A, comes last. */
  lemma OrderFromA()
    ensures Traverse(0) == [0, 1, 3, 4, 5, 2]
  {
    FromAStep1();
    FromAStep2();
    FromAStep3();
    FromAStep4();
    FromAStep5();
    FromAStep6();
    assert Run(Init(0)) == Run(State([], {0, 1, 3, 4, 5, 2}, [0, 1, 3, 4, 5, 2]));
  }

  /** A start id that names no node gives an empty visit order. */
  lemma InvalidStart(start: int)
    requires !IsNode(start)
    ensures Traverse(start) == []
  {
    assert Step(Init(start)) == State([], {start}, []);
    assert Run(Init(start)) == Run(State([], {start}, []));
    assert Run(State([], {start}, [])) == State([], {start}, []);
  }
}

=== FILE: dijkstra.dfy ===
/** The Dijkstra visualizer's `runDijkstra`. Every node starts at distance
    infinity (`None` here) except the start, at 0. Each iteration scans the
    unvisited ids in ascending order for the first one with the strictly
    smallest finite distance, stops when there is none, relaxes the edges to
    its unvisited neighbours and marks it visited. The path to the end node
    is then read backwards along the `previous` links, and it is reported
    when it begins at the start.

    The algorithm is stated over any well-formed six-node graph; the
    visualizer's own graph is `Edges`. */
module Dijkstra {
  import opened Common
  import opened SearchGraph

  /** A weighted edge out of a node. */
  datatype Edge = Edge(to: nat, weight: nat)

  /** No two edges out of a node lead to the same node. */
  ghost predicate DistinctTargets(es: seq<Edge>) {
    forall i, j | 0 <= i < j < |es| :: es[i].to != es[j].to
  }

  /** A graph over the six nodes: each node's edges lead to other nodes,
      each once, with positive weight. */
  ghost predicate WellFormed(g: seq<seq<Edge>>) {
    |g| == NodeCount &&
    forall u | 0 <= u < |g| ::
      DistinctTargets(g[u]) && forall e | e in g[u] :: IsNode(e.to) && e.to != u && e.weight > 0
  }

  type Graph = g: seq<seq<Edge>> | WellFormed(g) witness [[], [], [], [], [], []]

  /** The visualizer's graph: each node's edges, in the order the
      relaxation loop visits them. */
  const Edges: Graph := [
    [Edge(1, 4), Edge(2, 2)],
    [Edge(0, 4), Edge(3, 3), Edge(4, 1)],
    [Edge(0, 2), Edge(4, 7), Edge(5, 1)],
    [Edge(1, 3)],
    [Edge(1, 1), Edge(2, 7), Edge(5, 2)],
    [Edge(2, 1), Edge(4, 2)]
  ]

  /** The weight of the first edge in `es` leading to `v`. */
  function FindWeight(es: seq<Edge>, v: int): (w: Option<nat>)
    ensures w.Some? ==> v >= 0 && Edge(v, w.value) in es
    ensures w.None? ==> forall e | e in es :: e.to != v
  {
    if |es| == 0 then None
    else if es[0].to == v then Some(es[0].weight)
    else FindWeight(es[1..], v)
  }

  /** The weight of the edge from `u` to `v`, if there is one. */
  function Weight(g: Graph, u: int, v: int): (w: Option<nat>)
    ensures w.Some? ==> IsNode(u) && v >= 0 && Edge(v, w.value) in g[u]
  {
    if IsNode(u) then FindWeight(g[u], v) else None
  }

  /** With distinct targets, an edge's own weight is the one found for its
      target. */
  lemma {:induction false} FindWeightAt(es: seq<Edge>, k: nat)
    requires DistinctTargets(es) && k < |es|
    ensures FindWeight(es, es[k].to) == Some(es[k].weight)
  {
    if k > 0 {
      assert es[0].to != es[k].to;
      assert es[1..][k - 1] == es[k];
      FindWeightAt(es[1..], k - 1);
    }
  }

  /** Every listed edge is the edge between its two ends. */
  lemma WeightOf(g: Graph, u: int, k: nat)
    requires IsNode(u) && k < |g[u]|
    ensures Weight(g, u, g[u][k].to) == Some(g[u][k].weight)
  {
    FindWeightAt(g[u], k);
  }

  /** Edges join two different nodes and weigh at least 1. */
  lemma EdgeFacts(g: Graph, u: int, v: int)
    requires Weight(g, u, v).Some?
    ensures IsNode(u) && IsNode(v) && u != v && Weight(g, u, v).value > 0
  {
    assert Edge(v, Weight(g, u, v).value) in g[u];
  }

  /** `a < b` between distances, `None` standing for `Infinity`. */
  predicate Below(a: Option<nat>, b: Option<nat>) {
    a.Some? && (b.None? || a.value < b.value)
  }

  /** `a <= b` between distances, `None` standing for `Infinity`. */
  predicate AtMost(a: Option<nat>, b: Option<nat>) {
    b.None? || (a.Some? && a.value <= b.value)
  }

  /** Per node: its distance, its `previous` node, and whether it is still
      unvisited. */
  datatype Labels = Labels(dist: seq<Option<nat>>, prev: seq<Option<int>>, unvisited: set<int>)

  /** Labels for exactly the six nodes. */
  type Table = l: Labels | |l.dist| == NodeCount && |l.prev| == NodeCount
    witness Labels(seq(NodeCount, _ => None), seq(NodeCount, _ => None), {})

  /** The labels after initialisation: distance 0 for the start and
      infinity elsewhere, no `previous` links, every node unvisited. */
  function Init(start: int): (l: Table)
    ensures forall v | IsNode(v) :: v in l.unvisited && l.prev[v].None? && (l.dist[v].Some? <==> v == start)
    ensures forall v | v in l.unvisited :: IsNode(v)
    ensures IsNode(start) ==> l.dist[start] == Some(0)
  {
    Labels(seq(NodeCount, i => if i == start then Some(0) else None),
      seq(NodeCount, _ => None),
      {0, 1, 2, 3, 4, 5})
  }

  /** The selection scan from id `i` on, carrying the id chosen so far and
      its distance (`-1` and infinity before any is chosen). An id replaces
      the choice only when its distance is strictly smaller. */
  function Scan(l: Table, i: nat, cur: int, min: Option<nat>): (r: (int, Option<nat>))
    ensures r == (cur, min) ||
      (i <= r.0 < NodeCount && r.0 in l.unvisited && r.1 == l.dist[r.0] && Below(r.1, min))
    decreases NodeCount - i
  {
    if i >= NodeCount then (cur, min)
    else if i in l.unvisited && Below(l.dist[i], min) then Scan(l, i + 1, i, l.dist[i])
    else Scan(l, i + 1, cur, min)
  }

  /** What the scan has established over the ids below `i`: either no
      unvisited one has a finite distance, or `cur` is the first unvisited
      one with the smallest distance, `min`. */
  ghost predicate Chosen(l: Table, i: nat, cur: int, min: Option<nat>) {
    (cur == -1 && min.None? && forall v | 0 <= v < i && v < NodeCount && v in l.unvisited :: l.dist[v].None?) ||
    (0 <= cur < i && cur < NodeCount && cur in l.unvisited && min == l.dist[cur] && min.Some? &&
      (forall v | 0 <= v < i && v < NodeCount && v in l.unvisited :: AtMost(min, l.dist[v])) &&
      (forall v | 0 <= v < cur && v in l.unvisited :: Below(min, l.dist[v])))
  }

  /** The scan keeps `Chosen` up to the last id. */
  lemma {:induction false} ScanChooses(l: Table, i: nat, cur: int, min: Option<nat>)
    requires i <= NodeCount && Chosen(l, i, cur, min)
    ensures Chosen(l, NodeCount, Scan(l, i, cur, min).0, Scan(l, i, cur, min).1)
    decreases NodeCount - i
  {
    if i < NodeCount {
      if i in l.unvisited && Below(l.dist[i], min) {
        ScanChooses(l, i + 1, i, l.dist[i]);
      } else {
        ScanChooses(l, i + 1, cur, min);
      }
    }
  }

  /** The selection of the next node to visit: the unvisited node with the
      smallest finite distance, the lowest id among equals, or `-1` with
      infinity when every unvisited node is at infinity. */
  function Select(l: Table): (r: (int, Option<nat>))
    ensures r.1.None? <==> forall v | IsNode(v) && v in l.unvisited :: l.dist[v].None?
    ensures r.1.None? <==> r.0 == -1
    ensures r.1.Some? ==> IsNode(r.0) && r.0 in l.unvisited && l.dist[r.0] == r.1
    ensures r.1.Some? ==> forall v | IsNode(v) && v in l.unvisited :: AtMost(r.1, l.dist[v])
    ensures r.1.Some? ==> forall v | 0 <= v < r.0 && v in l.unvisited :: Below(r.1, l.dist[v])
  {
    ScanChooses(l, 0, -1, None);
    Scan(l, 0, -1, None)
  }

  /** The relaxation loop of the iteration that visits `cur` at distance
      `d`, from its `k`-th edge on: an unvisited neighbour whose distance
      through `cur` is strictly smaller takes that distance and `cur` as its
      `previous` node. */
  function Relax(g: Graph, l: Table, cur: int, d: nat, k: nat): (r: Table)
    requires IsNode(cur) && k <= |g[cur]|
    ensures r.unvisited == l.unvisited
    decreases |g[cur]| - k
  {
    if k == |g[cur]| then l
    else
      var e := g[cur][k];
      var next: Table :=
        if IsNode(e.to) && e.to in l.unvisited && Below(Some(d + e.weight), l.dist[e.to])
        then Labels(l.dist[e.to := Some(d + e.weight)], l.prev[e.to := Some(cur)], l.unvisited)
        else l;
      Relax(g, next, cur, d, k + 1)
  }

  /** A node's labels either stay, or the node is an unvisited neighbour of
      `cur` that now lies strictly closer, through `cur`. */
  ghost predicate Relaxed(g: Graph, l: Table, r: Table, cur: int, d: nat, v: int)
    requires IsNode(v)
  {
    (r.dist[v] == l.dist[v] && r.prev[v] == l.prev[v]) ||
    (v in l.unvisited && Weight(g, cur, v).Some? && r.dist[v] == Some(d + Weight(g, cur, v).value) &&
      r.prev[v] == Some(cur) && Below(r.dist[v], l.dist[v]))
  }

  /** The relaxation loop changes no visited node, only lowers distances,
      and leaves every unvisited neighbour at most as far as the way through
      `cur`. */
  lemma {:induction false} RelaxFacts(g: Graph, l: Table, cur: int, d: nat, k: nat)
    requires IsNode(cur) && k <= |g[cur]|
    ensures Relax(g, l, cur, d, k).unvisited == l.unvisited
    ensures forall v | IsNode(v) :: Relaxed(g, l, Relax(g, l, cur, d, k), cur, d, v)
    ensures forall j | k <= j < |g[cur]| && IsNode(g[cur][j].to) && g[cur][j].to in l.unvisited ::
      AtMost(Relax(g, l, cur, d, k).dist[g[cur][j].to], Some(d + g[cur][j].weight))
    decreases |g[cur]| - k
  {
    if k < |g[cur]| {
      var e := g[cur][k];
      var next: Table :=
        if IsNode(e.to) && e.to in l.unvisited && Below(Some(d + e.weight), l.dist[e.to])
        then Labels(l.dist[e.to := Some(d + e.weight)], l.prev[e.to := Some(cur)], l.unvisited)
        else l;
      var r := Relax(g, l, cur, d, k);
      assert r == Relax(g, next, cur, d, k + 1);
      RelaxFacts(g, next, cur, d, k + 1);
      WeightOf(g, cur, k);
      forall v | IsNode(v) ensures Relaxed(g, l, r, cur, d, v) {
        assert Relaxed(g, next, r, cur, d, v);
        assert Relaxed(g, l, next, cur, d, v);
      }
      if IsNode(e.to) && e.to in l.unvisited {
        assert Relaxed(g, next, r, cur, d, e.to);
        assert AtMost(next.dist[e.to], Some(d + e.weight));
      }
    }
  }

  /** One iteration after the selection: relax the edges of `cur`, at
      distance `d`, then mark it visited. */
  function Visit(g: Graph, l: Table, cur: int, d: nat): (r: Table)
    requires IsNode(cur)
    ensures r.unvisited == l.unvisited - {cur}
  {
    var r := Relax(g, l, cur, d, 0);
    Labels(r.dist, r.prev, r.unvisited - {cur})
  }

  /** Every unvisited node that is left lies at infinity. */
  ghost predicate Done(l: Table) {
    forall v | IsNode(v) && v in l.unvisited :: l.dist[v].None?
  }

  /** The `while (unvisited.size > 0)` loop, with its `break` once no
      unvisited node has a finite distance: when it ends, every node at a
      finite distance has been visited. */
  function Run(g: Graph, l: Table): (r: Table)
    ensures Done(r)
    ensures r.unvisited <= l.unvisited
    decreases |l.unvisited|
  {
    if |l.unvisited| == 0 then l
    else
      var s := Select(l);
      if s.0 == -1 || s.1.None? then l
      else
        RelaxFacts(g, l, s.0, s.1.value, 0);
        Run(g, Visit(g, l, s.0, s.1.value))
  }

  /** Each `previous` link is an edge into the node, and the node's distance
      is its predecessor's plus that edge's weight. */
  ghost predicate PrevOk(g: Graph, l: Table) {
    forall v | IsNode(v) && l.prev[v].Some? ::
      IsNode(l.prev[v].value) && Weight(g, l.prev[v].value, v).Some? &&
      l.dist[l.prev[v].value].Some? &&
      l.dist[v] == Some(l.dist[l.prev[v].value].value + Weight(g, l.prev[v].value, v).value)
  }

  /** Every `previous` node has been visited. */
  ghost predicate PrevVisited(l: Table) {
    forall v | IsNode(v) && l.prev[v].Some? :: l.prev[v].value !in l.unvisited
  }

  /** The start stays at distance 0 with no `previous` node. */
  ghost predicate StartOk(l: Table, start: int) {
    IsNode(start) ==> l.dist[start] == Some(0) && l.prev[start].None?
  }

  /** Any node other than the start with a finite distance has a
      `previous` node. */
  ghost predicate Reached(l: Table, start: int) {
    forall v | IsNode(v) && l.dist[v].Some? :: v == start || l.prev[v].Some?
  }

  /** A visited node has a finite distance, and none of its neighbours is
      farther than the way through it. */
  ghost predicate Settled(g: Graph, l: Table) {
    forall u | IsNode(u) && u !in l.unvisited ::
      l.dist[u].Some? &&
      forall e | e in g[u] && IsNode(e.to) :: AtMost(l.dist[e.to], Some(l.dist[u].value + e.weight))
  }

  /** No visited node is farther than an unvisited one. */
  ghost predicate Ordered(l: Table) {
    forall a, b | IsNode(a) && IsNode(b) && a !in l.unvisited && b in l.unvisited :: AtMost(l.dist[a], l.dist[b])
  }

  /** What the loop keeps. */
  ghost predicate Inv(g: Graph, l: Table, start: int) {
    (forall v | v in l.unvisited :: IsNode(v)) &&
    PrevOk(g, l) && PrevVisited(l) && StartOk(l, start) && Reached(l, start) && Settled(g, l) && Ordered(l)
  }

  /** The initial labels satisfy the invariant. */
  lemma InitInv(g: Graph, start: int)
    ensures Inv(g, Init(start), start)
  {
  }

  /** The facts the invariant's preservation rests on: the visited node is
      the nearest unvisited one, and relaxation changed only unvisited
      neighbours, each now closer through it, and left every unvisited
      neighbour at most as far as the way through it. */
  ghost predicate VisitSetup(g: Graph, l: Table, r: Table, cur: int, d: nat) {
    IsNode(cur) && cur in l.unvisited && l.dist[cur] == Some(d) &&
    (forall v | IsNode(v) && v in l.unvisited :: AtMost(Some(d), l.dist[v])) &&
    r.unvisited == l.unvisited &&
    (forall v | IsNode(v) :: Relaxed(g, l, r, cur, d, v)) &&
    (forall e | e in g[cur] && IsNode(e.to) && e.to in l.unvisited :: AtMost(r.dist[e.to], Some(d + e.weight)))
  }

  /** There is no edge from a node to itself. */
  lemma NoSelfEdge(g: Graph, u: int)
    ensures Weight(g, u, u).None?
  {
    if Weight(g, u, u).Some? {
      EdgeFacts(g, u, u);
    }
  }

  /** The `previous` link of one node after a visit. */
  lemma VisitPrevAt(g: Graph, l: Table, r: Table, cur: int, d: nat, v: int)
    requires PrevOk(g, l) && PrevVisited(l) && VisitSetup(g, l, r, cur, d)
    requires IsNode(v) && r.prev[v].Some?
    ensures var p := r.prev[v].value;
      IsNode(p) && p !in r.unvisited - {cur} && Weight(g, p, v).Some? &&
      r.dist[p].Some? && r.dist[v] == Some(r.dist[p].value + Weight(g, p, v).value)
  {
    NoSelfEdge(g, cur);
    assert Relaxed(g, l, r, cur, d, cur);
    assert Relaxed(g, l, r, cur, d, v);
    if r.prev[v] == l.prev[v] && r.dist[v] == l.dist[v] {
      assert Relaxed(g, l, r, cur, d, l.prev[v].value);
    }
  }

  /** Visiting keeps the `previous` links valid and pointing to visited
      nodes. */
  lemma VisitPrev(g: Graph, l: Table, r: Table, cur: int, d: nat)
    requires PrevOk(g, l) && PrevVisited(l) && VisitSetup(g, l, r, cur, d)
    ensures PrevOk(g, Labels(r.dist, r.prev, r.unvisited - {cur}))
    ensures PrevVisited(Labels(r.dist, r.prev, r.unvisited - {cur}))
  {
    forall v | IsNode(v) && r.prev[v].Some?
      ensures IsNode(r.prev[v].value) && r.prev[v].value !in r.unvisited - {cur} && Weight(g, r.prev[v].value, v).Some? &&
        r.dist[r.prev[v].value].Some? && r.dist[v] == Some(r.dist[r.prev[v].value].value + Weight(g, r.prev[v].value, v).value)
    {
      VisitPrevAt(g, l, r, cur, d, v);
    }
  }

  /** Visiting keeps the start at 0 and every other reached node linked. */
  lemma VisitStart(g: Graph, l: Table, r: Table, cur: int, d: nat, start: int)
    requires StartOk(l, start) && Reached(l, start) && VisitSetup(g, l, r, cur, d)
    ensures StartOk(Labels(r.dist, r.prev, r.unvisited - {cur}), start)
    ensures Reached(Labels(r.dist, r.prev, r.unvisited - {cur}), start)
  {
    if IsNode(start) {
      assert Relaxed(g, l, r, cur, d, start);
    }
    forall v | IsNode(v) && r.dist[v].Some? ensures v == start || r.prev[v].Some? {
      assert Relaxed(g, l, r, cur, d, v);
    }
  }

  /** Visiting the nearest unvisited node settles it and keeps the visited
      nodes no farther than the unvisited ones. */
  lemma VisitSettled(g: Graph, l: Table, r: Table, cur: int, d: nat)
    requires Settled(g, l) && Ordered(l) && VisitSetup(g, l, r, cur, d)
    ensures Settled(g, Labels(r.dist, r.prev, r.unvisited - {cur}))
    ensures Ordered(Labels(r.dist, r.prev, r.unvisited - {cur}))
  {
    var n: Table := Labels(r.dist, r.prev, r.unvisited - {cur});
    NoSelfEdge(g, cur);
    assert Relaxed(g, l, r, cur, d, cur);
    forall u | IsNode(u) && u !in n.unvisited
      ensures n.dist[u].Some? && forall e | e in g[u] && IsNode(e.to) :: AtMost(n.dist[e.to], Some(n.dist[u].value + e.weight))
    {
      assert Relaxed(g, l, r, cur, d, u);
      forall e | e in g[u] && IsNode(e.to) ensures AtMost(n.dist[e.to], Some(n.dist[u].value + e.weight)) {
        assert Relaxed(g, l, r, cur, d, e.to);
      }
    }
    forall a, b | IsNode(a) && IsNode(b) && a !in n.unvisited && b in n.unvisited
      ensures AtMost(n.dist[a], n.dist[b])
    {
      assert Relaxed(g, l, r, cur, d, a);
      assert Relaxed(g, l, r, cur, d, b);
    }
  }

  /** Each iteration keeps the invariant. */
  lemma VisitInv(g: Graph, l: Table, start: int)
    requires Inv(g, l, start) && Select(l).1.Some?
    ensures Inv(g, Visit(g, l, Select(l).0, Select(l).1.value), start)
  {
    var cur := Select(l).0;
    var d := Select(l).1.value;
    var r := Relax(g, l, cur, d, 0);
    RelaxFacts(g, l, cur, d, 0);
    forall e | e in g[cur] && IsNode(e.to) && e.to in l.unvisited ensures AtMost(r.dist[e.to], Some(d + e.weight)) {
      var j :| 0 <= j < |g[cur]| && g[cur][j] == e;
    }
    assert VisitSetup(g, l, r, cur, d);
    VisitPrev(g, l, r, cur, d);
    VisitStart(g, l, r, cur, d, start);
    VisitSettled(g, l, r, cur, d);
  }

  /** The loop keeps the invariant. */
  lemma {:induction false} RunInv(g: Graph, l: Table, start: int)
    requires Inv(g, l, start)
    ensures Inv(g, Run(g, l), start)
    decreases |l.unvisited|
  {
    if |l.unvisited| > 0 {
      var s := Select(l);
      if s.0 != -1 && s.1.Some? {
        RelaxFacts(g, l, s.0, s.1.value, 0);
        VisitInv(g, l, start);
        RunInv(g, Visit(g, l, s.0, s.1.value), start);
      }
    }
  }

  /** A walk through the graph: nodes joined by edges, possibly repeating. */
  ghost predicate IsPath(g: Graph, q: seq<int>) {
    |q| > 0 && (forall k | 0 <= k < |q| :: IsNode(q[k])) &&
    forall k | 0 <= k < |q| - 1 :: Weight(g, q[k], q[k + 1]).Some?
  }

  /** The sum of a walk's edge weights. */
  ghost function PathWeight(g: Graph, q: seq<int>): nat
    requires IsPath(g, q)
    decreases |q|
  {
    if |q| == 1 then 0
    else
      assert IsPath(g, q[..|q| - 1]);
      PathWeight(g, q[..|q| - 1]) + Weight(g, q[|q| - 2], q[|q| - 1]).value
  }

  /** The path loop: from `cur`, prepend each node and move to its
      `previous` node; an id that names no node ends the walk. */
  function Walk(g: Graph, l: Table, cur: int): (path: seq<int>)
    requires PrevOk(g, l)
    ensures |path| > 0 <==> IsNode(cur)
    decreases if IsNode(cur) && l.dist[cur].Some? then l.dist[cur].value + 1 else 0
  {
    if !IsNode(cur) then []
    else if l.prev[cur].None? then [cur]
    else
      var p := l.prev[cur].value;
      EdgeFacts(g, p, cur);
      Walk(g, l, p) + [cur]
  }

  /** The walk back from a node is a walk through the graph ending at it
      and starting at a node with no `previous` link; when the node has a
      finite distance, that distance is the first node's plus the walk's
      weight, and at infinity the walk is the node alone. */
  lemma {:induction false} WalkFacts(g: Graph, l: Table, cur: int)
    requires PrevOk(g, l) && IsNode(cur)
    ensures IsPath(g, Walk(g, l, cur)) && Walk(g, l, cur)[|Walk(g, l, cur)| - 1] == cur
    ensures l.prev[Walk(g, l, cur)[0]].None?
    ensures l.dist[cur].None? ==> Walk(g, l, cur) == [cur]
    ensures l.dist[cur].Some? ==>
      l.dist[Walk(g, l, cur)[0]].Some? &&
      l.dist[cur].value == l.dist[Walk(g, l, cur)[0]].value + PathWeight(g, Walk(g, l, cur))
    decreases if l.dist[cur].Some? then l.dist[cur].value + 1 else 0
  {
    if l.prev[cur].Some? {
      var p := l.prev[cur].value;
      EdgeFacts(g, p, cur);
      WalkFacts(g, l, p);
      var w' := Walk(g, l, p);
      var w := Walk(g, l, cur);
      assert w == w' + [cur];
      Join(g, w', [p, cur]);
      assert w == w' + [p, cur][1..];
      assert w[..|w| - 1] == w';
      assert PathWeight(g, w) == PathWeight(g, w') + Weight(g, p, cur).value;
    }
  }

  /** What `runDijkstra` reports: the path and the end node's distance, or
      that there is no path. */
  datatype Outcome = Found(path: seq<int>, distance: nat) | NoPath

  /** `runDijkstra` from `start` to `end` over the graph `g`: the path is
      reported when the walk back from the end begins at the start, and it
      then goes from the start to the end along edges whose weights add up
      to the reported distance. */
  function ShortestPath(g: Graph, start: int, end: int): (r: Outcome)
    ensures r.Found? ==> IsPath(g, r.path) && r.path[0] == start && r.path[|r.path| - 1] == end
    ensures r.Found? ==> r.distance == PathWeight(g, r.path)
  {
    InitInv(g, start);
    RunInv(g, Init(start), start);
    var l := Run(g, Init(start));
    var path := Walk(g, l, end);
    if |path| > 0 && path[0] == start then
      WalkFacts(g, l, end);
      Found(path, l.dist[end].value)
    else NoPath
  }

  /** One edge out of a settled node. */
  lemma SettledEdge(g: Graph, l: Table, u: int, e: Edge)
    requires Settled(g, l) && IsNode(u) && u !in l.unvisited && e in g[u] && IsNode(e.to)
    ensures l.dist[u].Some? && AtMost(l.dist[e.to], Some(l.dist[u].value + e.weight))
  {
  }

  /** Once the loop is over, every walk from the start reaches its last
      node at a finite distance no greater than the walk's weight. */
  lemma {:induction false} NoShorterPath(g: Graph, l: Table, start: int, q: seq<int>)
    requires StartOk(l, start) && Settled(g, l) && Done(l)
    requires IsPath(g, q) && q[0] == start
    ensures l.dist[q[|q| - 1]].Some? && l.dist[q[|q| - 1]].value <= PathWeight(g, q)
    decreases |q|
  {
    if |q| > 1 {
      var q' := q[..|q| - 1];
      assert IsPath(g, q');
      NoShorterPath(g, l, start, q');
      var u := q[|q| - 2];
      var v := q[|q| - 1];
      assert q'[|q'| - 1] == u;
      var w := Weight(g, u, v).value;
      assert PathWeight(g, q) == PathWeight(g, q') + w;
      assert u !in l.unvisited;
      SettledEdge(g, l, u, Edge(v, w));
    }
  }

  /** The reported distance is the shortest: no walk from the start to the
      end weighs less. No path is reported exactly when there is no walk
      from the start to the end. */
  lemma ShortestPathCorrect(g: Graph, start: int, end: int)
    ensures ShortestPath(g, start, end).Found? ==>
      forall q | IsPath(g, q) && q[0] == start && q[|q| - 1] == end :: ShortestPath(g, start, end).distance <= PathWeight(g, q)
    ensures ShortestPath(g, start, end).NoPath? <==>
      forall q | IsPath(g, q) && q[0] == start :: q[|q| - 1] != end
  {
    InitInv(g, start);
    RunInv(g, Init(start), start);
    var l := Run(g, Init(start));
    var r := ShortestPath(g, start, end);
    forall q | IsPath(g, q) && q[0] == start && q[|q| - 1] == end
      ensures r.Found? && r.distance <= PathWeight(g, q)
    {
      NoShorterPath(g, l, start, q);
      WalkFacts(g, l, end);
      var w := Walk(g, l, end);
      assert l.dist[w[0]].Some?;
    }
  }

  /** A walk splits after its first edge: the rest is a walk, and the
      weights add up. */
  lemma {:induction false} PathWeightFront(g: Graph, q: seq<int>)
    requires IsPath(g, q) && |q| > 1
    ensures IsPath(g, q[1..])
    ensures PathWeight(g, q) == Weight(g, q[0], q[1]).value + PathWeight(g, q[1..])
    decreases |q|
  {
    assert IsPath(g, q[1..]) by {
      forall k | 0 <= k < |q| - 2 ensures Weight(g, q[1..][k], q[1..][k + 1]).Some? {
        assert q[1..][k] == q[k + 1] && q[1..][k + 1] == q[k + 2];
      }
    }
    if |q| > 2 {
      var q' := q[..|q| - 1];
      assert IsPath(g, q');
      PathWeightFront(g, q');
      assert q'[1..] == q[1..][..|q| - 2];
    }
  }

  /** Every edge weighs at least one, so a walk weighs at least its number
      of edges. */
  lemma {:induction false} PathWeightBound(g: Graph, q: seq<int>)
    requires IsPath(g, q)
    ensures PathWeight(g, q) >= |q| - 1
    decreases |q|
  {
    if |q| > 1 {
      var q' := q[..|q| - 1];
      assert IsPath(g, q');
      PathWeightBound(g, q');
      EdgeFacts(g, q[|q| - 2], q[|q| - 1]);
    }
  }

  /** Two walks that meet join into one. */
  lemma Join(g: Graph, a: seq<int>, b: seq<int>)
    requires IsPath(g, a) && IsPath(g, b) && a[|a| - 1] == b[0]
    ensures IsPath(g, a + b[1..])
  {
    var c := a + b[1..];
    forall k | 0 <= k < |c| - 1 ensures Weight(g, c[k], c[k + 1]).Some? {
      if k < |a| - 1 {
        assert c[k] == a[k] && c[k + 1] == a[k + 1];
      } else {
        assert c[k] == b[k - |a| + 1] && c[k + 1] == b[k - |a| + 2];
      }
    }
  }

  /** A walk in the visualizer's graph from node A to any node. */
  function FromA(t: int): (q: seq<int>)
    requires IsNode(t)
    ensures IsPath(Edges, q) && q[0] == 0 && q[|q| - 1] == t
  {
    if t == 0 then [0]
    else if t == 1 then assert Weight(Edges, 0, 1).Some?; [0, 1]
    else if t == 2 then assert Weight(Edges, 0, 2).Some?; [0, 2]
    else if t == 3 then assert Weight(Edges, 0, 1).Some? && Weight(Edges, 1, 3).Some?; [0, 1, 3]
    else if t == 4 then assert Weight(Edges, 0, 1).Some? && Weight(Edges, 1, 4).Some?; [0, 1, 4]
    else assert Weight(Edges, 0, 2).Some? && Weight(Edges, 2, 5).Some?; [0, 2, 5]
  }

  /** A walk in the visualizer's graph from any node to node A. */
  function ToA(s: int): (q: seq<int>)
    requires IsNode(s)
    ensures IsPath(Edges, q) && q[0] == s && q[|q| - 1] == 0
  {
    if s == 0 then [0]
    else if s == 1 then assert Weight(Edges, 1, 0).Some?; [1, 0]
    else if s == 2 then assert Weight(Edges, 2, 0).Some?; [2, 0]
    else if s == 3 then assert Weight(Edges, 3, 1).Some? && Weight(Edges, 1, 0).Some?; [3, 1, 0]
    else if s == 4 then assert Weight(Edges, 4, 1).Some? && Weight(Edges, 1, 0).Some?; [4, 1, 0]
    else assert Weight(Edges, 5, 2).Some? && Weight(Edges, 2, 0).Some?; [5, 2, 0]
  }

  /** The visualizer's graph is connected: any node reaches any other
      through node A. */
  lemma EdgesConnected(s: int, t: int)
    requires IsNode(s) && IsNode(t)
    ensures IsPath(Edges, ToA(s) + FromA(t)[1..])
    ensures (ToA(s) + FromA(t)[1..])[0] == s
    ensures (ToA(s) + FromA(t)[1..])[|ToA(s) + FromA(t)[1..]| - 1] == t
  {
    Join(Edges, ToA(s), FromA(t));
  }

  /** In the visualizer's graph, no walk from A to F weighs less than 3,
      and A, C, F is the only one that weighs 3. */
  lemma {:induction false} AtoFBound(q: seq<int>)
    requires IsPath(Edges, q) && q[0] == 0 && q[|q| - 1] == 5
    ensures PathWeight(Edges, q) >= 3
    ensures PathWeight(Edges, q) == 3 ==> q == [0, 2, 5]
  {
    PathWeightFront(Edges, q);
    var rest := q[1..];
    assert Edge(q[1], Weight(Edges, 0, q[1]).value) in Edges[0];
    PathWeightBound(Edges, rest);
    if q[1] == 2 && |rest| == 2 {
      assert q == [0, 2, 5];
    }
  }

  /** A, C, F is a walk of weight 3. */
  lemma AtoFRoute()
    ensures IsPath(Edges, [0, 2, 5]) && PathWeight(Edges, [0, 2, 5]) == 3
  {
    assert FromA(5) == [0, 2, 5];
    assert [0, 2, 5][..2] == [0, 2] && [0, 2][..1] == [0];
  }

  /** `runDijkstra` on the visualizer's graph reports a path exactly when
      both ids name nodes. */
  lemma ReportsPathExactlyForNodes(start: int, end: int)
    ensures ShortestPath(Edges, start, end).Found? <==> IsNode(start) && IsNode(end)
  {
    ShortestPathCorrect(Edges, start, end);
    if IsNode(start) && IsNode(end) {
      EdgesConnected(start, end);
    }
  }

  /** The visualizer's default query, A to F, reports A, C, F at distance 3. */
  lemma DefaultQuery()
    ensures ShortestPath(Edges, 0, 5) == Found([0, 2, 5], 3)
  {
    AtoFRoute();
    ShortestPathCorrect(Edges, 0, 5);
    var r := ShortestPath(Edges, 0, 5);
    AtoFBound(r.path);
  }

  /** A query whose start is its end reports the one-node path at
      distance 0: the walk back from the start stops at once. */
  lemma StartIsEnd(g: Graph, s: int)
    requires IsNode(s)
    ensures ShortestPath(g, s, s) == Found([s], 0)
  {
    ShortestPathCorrect(g, s, s);
    assert IsPath(g, [s]);
    PathWeightBound(g, ShortestPath(g, s, s).path);
  }

  /** The labels after each iteration of `runDijkstra` from A over the
      visualizer's graph: A is visited at 0, then C at 2, F at 3, B at 4,
      E at 5 and D at 7. */
  function Trace1(): Table {
    Labels([Some(0), Some(4), Some(2), None, None, None], [None, Some(0), Some(0), None, None, None], {1, 2, 3, 4, 5})
  }

  function Trace2(): Table {
    Labels([Some(0), Some(4), Some(2), None, Some(9), Some(3)], [None, Some(0), Some(0), None, Some(2), Some(2)], {1, 3, 4, 5})
  }

  function Trace3(): Table {
    Labels([Some(0), Some(4), Some(2), None, Some(5), Some(3)], [None, Some(0), Some(0), None, Some(5), Some(2)], {1, 3, 4})
  }

  /** Visiting B at 4 leaves E at 5 through F: 4 + 1 is not strictly
      smaller. */
  function Trace4(): Table {
    Labels([Some(0), Some(4), Some(2), Some(7), Some(5), Some(3)], [None, Some(0), Some(0), Some(1), Some(5), Some(2)], {3, 4})
  }

  function Trace5(): Table {
    Labels([Some(0), Some(4), Some(2), Some(7), Some(5), Some(3)], [None, Some(0), Some(0), Some(1), Some(5), Some(2)], {3})
  }

  function Trace6(): Table {
    Labels([Some(0), Some(4), Some(2), Some(7), Some(5), Some(3)], [None, Some(0), Some(0), Some(1), Some(5), Some(2)], {})
  }

  /** One iteration of the loop, once its selection and visit are known. */
  lemma RunStep(g: Graph, l: Table, cur: int, d: nat, next: Table)
    requires IsNode(cur) && |l.unvisited| > 0 && Select(l) == (cur, Some(d)) && Visit(g, l, cur, d) == next
    ensures Run(g, l) == Run(g, next)
  {
  }

  lemma TraceStep0() ensures Select(Init(0)) == (0, Some(0)) && Visit(Edges, Init(0), 0, 0) == Trace1() {}
  lemma TraceStep1() ensures Select(Trace1()) == (2, Some(2)) && Visit(Edges, Trace1(), 2, 2) == Trace2() {}
  lemma TraceStep2() ensures Select(Trace2()) == (5, Some(3)) && Visit(Edges, Trace2(), 5, 3) == Trace3() {}
  lemma TraceStep3() ensures Select(Trace3()) == (1, Some(4)) && Visit(Edges, Trace3(), 1, 4) == Trace4() {}
  lemma TraceStep4() ensures Select(Trace4()) == (4, Some(5)) && Visit(Edges, Trace4(), 4, 5) == Trace5() {}
  lemma TraceStep5() ensures Select(Trace5()) == (3, Some(7)) && Visit(Edges, Trace5(), 3, 7) == Trace6() {}

  /** The whole loop from A ends with every node visited and these labels. */
  lemma RunFromA()
    ensures Run(Edges, Init(0)) == Trace6()
  {
    TraceStep0(); RunStep(Edges, Init(0), 0, 0, Trace1());
    TraceStep1(); RunStep(Edges, Trace1(), 2, 2, Trace2());
    TraceStep2(); RunStep(Edges, Trace2(), 5, 3, Trace3());
    TraceStep3(); RunStep(Edges, Trace3(), 1, 4, Trace4());
    TraceStep4(); RunStep(Edges, Trace4(), 4, 5, Trace5());
    TraceStep5(); RunStep(Edges, Trace5(), 3, 7, Trace6());
  }

  /** The weights of the edges the final `previous` links follow. */
  lemma LinkWeights()
    ensures Weight(Edges, 0, 1) == Some(4) && Weight(Edges, 0, 2) == Some(2) && Weight(Edges, 1, 3) == Some(3)
    ensures Weight(Edges, 5, 4) == Some(2) && Weight(Edges, 2, 5) == Some(1)
  {
  }

  lemma FinalPrevOk()
    ensures PrevOk(Edges, Trace6())
  {
    LinkWeights();
    var l := Trace6();
    forall v | IsNode(v) && l.prev[v].Some?
      ensures IsNode(l.prev[v].value) && Weight(Edges, l.prev[v].value, v).Some? &&
        l.dist[l.prev[v].value].Some? &&
        l.dist[v] == Some(l.dist[l.prev[v].value].value + Weight(Edges, l.prev[v].value, v).value)
    {
      assert v == 1 || v == 2 || v == 3 || v == 4 || v == 5;
    }
  }

  /** The walk back from F after the run from A. */
  lemma WalkToF()
    ensures PrevOk(Edges, Trace6()) && Walk(Edges, Trace6(), 5) == [0, 2, 5]
  {
    FinalPrevOk();
    assert Walk(Edges, Trace6(), 0) == [0];
    assert Walk(Edges, Trace6(), 2) == [0, 2];
  }

  /** The walk back from E after the run from A. */
  lemma WalkToE()
    ensures PrevOk(Edges, Trace6()) && Walk(Edges, Trace6(), 4) == [0, 2, 5, 4]
  {
    WalkToF();
  }

  /** From A to E, both A, B, E and A, C, F, E weigh 5; E's `previous`
      node stays F, set when F was visited, because B's later offer of 5
      is not strictly smaller, so the walk back gives A, C, F, E. */
  lemma AtoEQuery()
    ensures ShortestPath(Edges, 0, 4) == Found([0, 2, 5, 4], 5)
  {
    RunFromA();
    WalkToE();
    var l := Run(Edges, Init(0));
    assert l == Trace6() && l.dist[4] == Some(5);
    assert Walk(Edges, l, 4) == [0, 2, 5, 4];
  }
}

=== FILE: doubly_linked_list.dfy ===
/** The doubly linked list visualizer: nodes carry a value and optional
    `prev` and `next` links, and the component keeps `head` and `tail`.
    `addNode` links a new node after the tail; `removeNode` walks from the
    head to the first node holding the value and splices it out, moving
    `head` or `tail` when it was at an end; `searchNode` walks from the head
    counting positions.

    Nodes are objects in the source. Here every node ever created lives in
    an arena, and a link is the arena index of its target; the random `id`
    a node carries for rendering is left out. */
module DoublyLinkedList {
  import opened Common

  /** A node: its value and its `prev` and `next` links. */
  datatype Cell = Cell(value: int, prev: Option<nat>, next: Option<nat>)

  /** The arena of nodes and the component's `head` and `tail`. */
  datatype DList = DList(cells: seq<Cell>, head: Option<nat>, tail: Option<nat>)

  /** What `removeNode` reports: nothing at all on an empty list, otherwise
      whether a node was unlinked. */
  datatype RemoveReport = Silent | Removed | NotFound

  /** What `searchNode` reports. */
  datatype SearchReport = EmptyList | FoundAt(index: nat) | Missing

  /** The list before any node is added. */
  const Empty: DList := DList([], None, None)

  /** All of `ord` are indices into the arena. */
  ghost predicate InArena(d: DList, ord: seq<nat>) {
    forall k | 0 <= k < |ord| :: ord[k] < |d.cells|
  }

  /** The node at position `k` of `ord`, or none outside it. */
  function NodeAt(ord: seq<nat>, k: int): Option<nat> {
    if 0 <= k < |ord| then Some(ord[k]) else None
  }

  /** The node at position `k` links forward to its successor and back to
      its predecessor (none at the ends). */
  ghost predicate Links(d: DList, ord: seq<nat>, k: int)
    requires InArena(d, ord) && 0 <= k < |ord|
  {
    d.cells[ord[k]].next == NodeAt(ord, k + 1) && d.cells[ord[k]].prev == NodeAt(ord, k - 1)
  }

  /** Every node of `ord` links to its neighbours in it. */
  ghost predicate Chained(d: DList, ord: seq<nat>) {
    InArena(d, ord) && forall k | 0 <= k < |ord| :: Links(d, ord, k)
  }

  /** `ord` lists the nodes from head to tail: no node twice, `head` and
      `tail` name its ends (both null when it is empty), and every node links
      to its neighbours in it. */
  ghost predicate LinkedBy(d: DList, ord: seq<nat>) {
    NoDup(ord) && Chained(d, ord) &&
    d.head == NodeAt(ord, 0) && d.tail == NodeAt(ord, |ord| - 1)
  }

  /** The values of the nodes `ord` lists, in its order. */
  function Values(d: DList, ord: seq<nat>): (vs: seq<int>)
    requires InArena(d, ord)
    ensures |vs| == |ord|
    ensures forall k | 0 <= k < |ord| :: vs[k] == d.cells[ord[k]].value
  {
    if |ord| == 0 then []
    else [d.cells[ord[0]].value] + Values(d, ord[1..])
  }

  /** Two arenas that agree on the values of the listed nodes give the same
      values. */
  lemma ValuesFrame(d: DList, e: DList, ord: seq<nat>)
    requires InArena(d, ord) && InArena(e, ord)
    requires forall k | 0 <= k < |ord| :: e.cells[ord[k]].value == d.cells[ord[k]].value
    ensures Values(e, ord) == Values(d, ord)
  {
  }

  /** The empty list is linked by the empty order. */
  lemma EmptyLinked()
    ensures LinkedBy(Empty, [])
  {
  }

  /** Following `next` links from `cur`, for at most `fuel` nodes. */
  function Forward(d: DList, cur: Option<nat>, fuel: nat): seq<nat>
    decreases fuel
  {
    if fuel == 0 || cur.None? || cur.value >= |d.cells| then []
    else [cur.value] + Forward(d, d.cells[cur.value].next, fuel - 1)
  }

  /** Following `prev` links from `cur`, for at most `fuel` nodes. */
  function Backward(d: DList, cur: Option<nat>, fuel: nat): seq<nat>
    decreases fuel
  {
    if fuel == 0 || cur.None? || cur.value >= |d.cells| then []
    else [cur.value] + Backward(d, d.cells[cur.value].prev, fuel - 1)
  }

  lemma {:induction false} ForwardFrom(d: DList, ord: seq<nat>, k: nat, fuel: nat)
    requires Chained(d, ord) && k <= |ord| && fuel >= |ord| - k
    ensures Forward(d, NodeAt(ord, k), fuel) == ord[k..]
    decreases |ord| - k
  {
    if k < |ord| {
      ForwardFrom(d, ord, k + 1, fuel - 1);
      assert Links(d, ord, k);
      assert ord[k..] == [ord[k]] + ord[k + 1..];
    }
  }

  lemma {:induction false} BackwardFrom(d: DList, ord: seq<nat>, k: nat, fuel: nat)
    requires Chained(d, ord) && k <= |ord| && fuel >= k
    ensures Backward(d, NodeAt(ord, k - 1), fuel) == Reverse(ord[..k])
  {
    if k > 0 {
      BackwardFrom(d, ord, k - 1, fuel - 1);
      assert Links(d, ord, k - 1);
      var r := Reverse(ord[..k]);
      assert r == [ord[k - 1]] + Reverse(ord[..k - 1]) by {
        assert r[0] == ord[k - 1];
        forall j | 1 <= j < k ensures r[j] == Reverse(ord[..k - 1])[j - 1] {
        }
      }
    }
  }

  /** A well-linked list has no more nodes than the arena. */
  lemma OrderFits(d: DList, ord: seq<nat>)
    requires LinkedBy(d, ord)
    ensures |ord| <= |d.cells|
  {
    NoDupBounded(ord, |d.cells|);
  }

  /** Walking `next` links from the head lists the nodes in order, and
      walking `prev` links from the tail lists them in reverse. */
  lemma Walks(d: DList, ord: seq<nat>)
    requires LinkedBy(d, ord)
    ensures Forward(d, d.head, |d.cells|) == ord
    ensures Backward(d, d.tail, |d.cells|) == Reverse(ord)
  {
    OrderFits(d, ord);
    ForwardFrom(d, ord, 0, |d.cells|);
    assert NodeAt(ord, 0) == d.head;
    BackwardFrom(d, ord, |ord|, |d.cells|);
    assert ord[..|ord|] == ord;
  }

  /** `addNode`: a new node holding `v` at the end of the arena; on an empty
      list it becomes head and tail, otherwise its `prev` is the old tail,
      the old tail's `next` is the new node, and the new node is the tail. */
  function Add(d: DList, v: int): (r: DList)
    ensures |r.cells| == |d.cells| + 1
    ensures r.cells[|d.cells|] == Cell(v, if d.head.None? then None else d.tail, None)
    ensures r.tail == Some(|d.cells|)
    ensures d.head.Some? ==> r.head == d.head
    ensures forall c | 0 <= c < |d.cells| :: r.cells[c].value == d.cells[c].value && r.cells[c].prev == d.cells[c].prev
  {
    var n := |d.cells|;
    if d.head.None? then DList(d.cells + [Cell(v, None, None)], Some(n), Some(n))
    else
      var cells := d.cells + [Cell(v, d.tail, None)];
      var linked := if d.tail.Some? && d.tail.value < n then cells[d.tail.value := cells[d.tail.value].(next := Some(n))] else cells;
      DList(linked, d.head, Some(n))
  }

  /** The links of one node after adding. */
  lemma AddLinkAt(d: DList, ord: seq<nat>, v: int, k: nat)
    requires LinkedBy(d, ord) && k <= |ord|
    ensures InArena(Add(d, v), ord + [|d.cells|]) && Links(Add(d, v), ord + [|d.cells|], k)
  {
    var o := ord + [|d.cells|];
    if k < |ord| {
      assert Links(d, ord, k);
      assert NodeAt(o, k - 1) == NodeAt(ord, k - 1);
      if k + 1 < |ord| {
        assert ord[k] != ord[|ord| - 1];
      }
    }
  }

  /** Adding keeps the list well linked, with the new node last: its values
      gain `v` at the end. */
  lemma AddLinks(d: DList, ord: seq<nat>, v: int)
    requires LinkedBy(d, ord)
    ensures LinkedBy(Add(d, v), ord + [|d.cells|])
    ensures Values(Add(d, v), ord + [|d.cells|]) == Values(d, ord) + [v]
  {
    var o := ord + [|d.cells|];
    assert |d.cells| !in ord;
    forall k | 0 <= k < |o| ensures Links(Add(d, v), o, k) {
      AddLinkAt(d, ord, v, k);
    }
  }

  /** The walk shared by `removeNode` and `searchNode`: from `cur`, follow
      `next` links until a node holds `v`; the node found and how many links
      were followed. */
  function Locate(d: DList, cur: Option<nat>, v: int, fuel: nat): (r: Option<(nat, nat)>)
    ensures r.Some? ==> r.value.0 < |d.cells| && d.cells[r.value.0].value == v
    decreases fuel
  {
    if fuel == 0 || cur.None? || cur.value >= |d.cells| then None
    else if d.cells[cur.value].value == v then Some((cur.value, 0))
    else
      match Locate(d, d.cells[cur.value].next, v, fuel - 1)
      case None => None
      case Some(p) => Some((p.0, p.1 + 1))
  }

  /** The values from position `k` on are that node's value and then the
      values after it. */
  lemma ValuesFrom(d: DList, ord: seq<nat>, k: nat)
    requires InArena(d, ord) && k < |ord|
    ensures InArena(d, ord[k..]) && InArena(d, ord[k + 1..])
    ensures Values(d, ord[k..]) == [d.cells[ord[k]].value] + Values(d, ord[k + 1..])
  {
    assert ord[k..][1..] == ord[k + 1..];
  }

  /** The first position of `v` after a leading `x`. */
  lemma IndexOfCons(x: int, s: seq<int>, v: int)
    ensures IndexOf([x] + s, v) ==
      if x == v then Some(0) else if IndexOf(s, v).None? then None else Some(IndexOf(s, v).value + 1)
  {
    assert ([x] + s)[1..] == s;
  }

  /** On a well-linked list the walk from position `k` finds the first
      later node holding `v`: it fails exactly when none does, and
      otherwise stops at that node after as many links as its distance
      from position `k`. */
  lemma {:induction false} LocateFrom(d: DList, ord: seq<nat>, k: nat, v: int, fuel: nat)
    requires Chained(d, ord) && k <= |ord| && fuel >= |ord| - k
    ensures Locate(d, NodeAt(ord, k), v, fuel).None? <==> IndexOf(Values(d, ord[k..]), v).None?
    ensures Locate(d, NodeAt(ord, k), v, fuel).Some? ==>
      k + IndexOf(Values(d, ord[k..]), v).value < |ord| &&
      Locate(d, NodeAt(ord, k), v, fuel).value.0 == ord[k + IndexOf(Values(d, ord[k..]), v).value] &&
      Locate(d, NodeAt(ord, k), v, fuel).value.1 == IndexOf(Values(d, ord[k..]), v).value
    decreases |ord| - k
  {
    if k < |ord| {
      LocateFrom(d, ord, k + 1, v, fuel - 1);
      assert Links(d, ord, k);
      ValuesFrom(d, ord, k);
      IndexOfCons(d.cells[ord[k]].value, Values(d, ord[k + 1..]), v);
    }
  }

  /** `searchNode`: an empty list is reported as such; otherwise the 0-based
      position of the first node holding `v`, or that there is none. */
  function Search(d: DList, v: int): (r: SearchReport)
    ensures r == EmptyList <==> d.head.None?
  {
    if d.head.None? then EmptyList
    else
      match Locate(d, d.head, v, |d.cells|)
      case None => Missing
      case Some(p) => FoundAt(p.1)
  }

  /** On a well-linked list, search reports the first position holding the
      value, missing exactly when no node holds it, and an empty list only
      when there are no nodes. */
  lemma SearchCorrect(d: DList, ord: seq<nat>, v: int)
    requires LinkedBy(d, ord)
    ensures Search(d, v) == EmptyList <==> |ord| == 0
    ensures Search(d, v) == Missing <==> |ord| > 0 && v !in Values(d, ord)
    ensures Search(d, v).FoundAt? ==> IndexOf(Values(d, ord), v) == Some(Search(d, v).index)
    ensures |ord| > 0 && v in Values(d, ord) ==> Search(d, v).FoundAt?
  {
    LocateHead(d, ord, v);
  }

  /** Splicing node `c` out: its `prev` node (or else `head`) skips to its
      `next`, and its `next` node (or else `tail`) skips back to its `prev`. */
  function Unlink(d: DList, c: nat): (r: DList)
    requires c < |d.cells|
    ensures |r.cells| == |d.cells|
    ensures forall x | 0 <= x < |d.cells| :: r.cells[x].value == d.cells[x].value
  {
    var cell := d.cells[c];
    var cells1 := if cell.prev.Some? && cell.prev.value < |d.cells| then d.cells[cell.prev.value := d.cells[cell.prev.value].(next := cell.next)] else d.cells;
    var head := if cell.prev.Some? then d.head else cell.next;
    var cells2 := if cell.next.Some? && cell.next.value < |cells1| then cells1[cell.next.value := cells1[cell.next.value].(prev := cell.prev)] else cells1;
    var tail := if cell.next.Some? then d.tail else cell.prev;
    DList(cells2, head, tail)
  }

  /** The order without position `i`. */
  function Drop(ord: seq<nat>, i: nat): (r: seq<nat>)
    requires i < |ord|
    ensures |r| == |ord| - 1
    ensures forall k | 0 <= k < |r| :: r[k] == if k < i then ord[k] else ord[k + 1]
  {
    ord[..i] + ord[i + 1..]
  }

  /** The links of one node that survives the splice. */
  lemma UnlinkAt(d: DList, ord: seq<nat>, i: nat, k: nat)
    requires LinkedBy(d, ord) && i < |ord| && k < |ord| - 1
    ensures InArena(Unlink(d, ord[i]), Drop(ord, i)) && Links(Unlink(d, ord[i]), Drop(ord, i), k)
  {
    var o := Drop(ord, i);
    var j := if k < i then k else k + 1;
    assert o[k] == ord[j];
    assert Links(d, ord, i) && Links(d, ord, j);
    assert ord[j] != ord[i];
    if i > 0 { assert ord[j] == ord[i - 1] <==> j == i - 1; }
    if i + 1 < |ord| { assert ord[j] == ord[i + 1] <==> j == i + 1; }
  }

  /** Dropping a position keeps the order free of duplicates. */
  lemma DropNoDup(ord: seq<nat>, i: nat)
    requires NoDup(ord) && i < |ord|
    ensures NoDup(Drop(ord, i))
  {
    var o := Drop(ord, i);
    forall a, b | 0 <= a < b < |o| ensures o[a] != o[b] {
      var ja := if a < i then a else a + 1;
      var jb := if b < i then b else b + 1;
      assert o[a] == ord[ja] && o[b] == ord[jb];
    }
  }

  /** After the splice `head` and `tail` name the ends of the order without
      the node. */
  lemma UnlinkEnds(d: DList, ord: seq<nat>, i: nat)
    requires LinkedBy(d, ord) && i < |ord|
    ensures Unlink(d, ord[i]).head == NodeAt(Drop(ord, i), 0)
    ensures Unlink(d, ord[i]).tail == NodeAt(Drop(ord, i), |ord| - 2)
  {
    assert Links(d, ord, i);
  }

  /** Splicing out the node at position `i` leaves the list linked by the
      order without it. */
  lemma UnlinkLinks(d: DList, ord: seq<nat>, i: nat)
    requires LinkedBy(d, ord) && i < |ord|
    ensures LinkedBy(Unlink(d, ord[i]), Drop(ord, i))
    ensures Values(Unlink(d, ord[i]), Drop(ord, i)) == Values(d, Drop(ord, i))
  {
    var r := Unlink(d, ord[i]);
    var o := Drop(ord, i);
    DropNoDup(ord, i);
    UnlinkEnds(d, ord, i);
    forall k | 0 <= k < |o| ensures InArena(r, o) && Links(r, o, k) {
      UnlinkAt(d, ord, i, k);
    }
    ValuesFrame(d, r, o);
  }

  /** `removeNode`: nothing on an empty list; otherwise the first node
      holding `v` is spliced out, or the list is left alone when none does. */
  function Remove(d: DList, v: int): (r: (DList, RemoveReport))
    ensures r.1 == Silent <==> d.head.None?
    ensures r.1 != Removed ==> r.0 == d
  {
    if d.head.None? then (d, Silent)
    else
      match Locate(d, d.head, v, |d.cells|)
      case None => (d, NotFound)
      case Some(p) => (Unlink(d, p.0), Removed)
  }

  /** The walk from the head of a well-linked list stops at the first node
      holding `v`, after as many links as its position. */
  lemma LocateHead(d: DList, ord: seq<nat>, v: int)
    requires LinkedBy(d, ord)
    ensures Locate(d, d.head, v, |d.cells|).None? <==> v !in Values(d, ord)
    ensures Locate(d, d.head, v, |d.cells|).Some? ==>
      IndexOf(Values(d, ord), v).value < |ord| &&
      Locate(d, d.head, v, |d.cells|).value.0 == ord[IndexOf(Values(d, ord), v).value] &&
      Locate(d, d.head, v, |d.cells|).value.1 == IndexOf(Values(d, ord), v).value
  {
    OrderFits(d, ord);
    LocateFrom(d, ord, 0, v, |d.cells|);
    assert ord[0..] == ord;
    assert NodeAt(ord, 0) == d.head;
  }

  /** Dropping a position from the order drops it from the values. */
  lemma DropValues(d: DList, ord: seq<nat>, i: nat)
    requires InArena(d, ord) && i < |ord|
    ensures InArena(d, Drop(ord, i))
    ensures Values(d, Drop(ord, i)) == Values(d, ord)[..i] + Values(d, ord)[i + 1..]
  {
  }

  /** On a well-linked list, remove unlinks exactly the first node holding
      the value: the list stays well linked and its values lose their first
      `v`; it reports removed exactly when some node held `v`. */
  lemma RemoveCorrect(d: DList, ord: seq<nat>, v: int)
    requires LinkedBy(d, ord)
    ensures Remove(d, v).1 == Removed <==> v in Values(d, ord)
    ensures Remove(d, v).1 == NotFound <==> |ord| > 0 && v !in Values(d, ord)
    ensures v in Values(d, ord) ==>
      var i := IndexOf(Values(d, ord), v).value;
      LinkedBy(Remove(d, v).0, Drop(ord, i)) &&
      Values(Remove(d, v).0, Drop(ord, i)) == RemoveFirst(Values(d, ord), v)
  {
    LocateHead(d, ord, v);
    if v in Values(d, ord) {
      var vs := Values(d, ord);
      var i := IndexOf(vs, v).value;
      UnlinkLinks(d, ord, i);
      RemoveFirstAtIndex(vs, v);
      DropValues(d, ord, i);
    }
  }

  /** Removing the only node nulls both `head` and `tail`; removing the
      head makes its successor the head with no `prev`; removing the tail
      makes its predecessor the tail with no `next`. */
  lemma RemoveEnds(d: DList, ord: seq<nat>, v: int)
    requires LinkedBy(d, ord) && v in Values(d, ord)
    ensures var i := IndexOf(Values(d, ord), v).value; var r := Remove(d, v).0;
      (|ord| == 1 ==> r.head.None? && r.tail.None?) &&
      (i == 0 && |ord| > 1 ==> r.head == Some(ord[1]) && ord[1] < |r.cells| && r.cells[ord[1]].prev.None?) &&
      (i == |ord| - 1 && |ord| > 1 ==>
        r.tail == Some(ord[|ord| - 2]) && ord[|ord| - 2] < |r.cells| && r.cells[ord[|ord| - 2]].next.None?)
  {
    RemoveCorrect(d, ord, v);
    var i := IndexOf(Values(d, ord), v).value;
    var r := Remove(d, v).0;
    var o := Drop(ord, i);
    if |o| > 0 {
      assert Links(r, o, 0) && Links(r, o, |o| - 1);
    }
  }

  /** Removing a value no node holds leaves the list as it was. */
  lemma RemoveAbsent(d: DList, ord: seq<nat>, v: int)
    requires LinkedBy(d, ord) && v !in Values(d, ord)
    ensures Remove(d, v).0 == d
  {
    RemoveCorrect(d, ord, v);
  }
}

=== FILE: input_parse.dfy ===
/** The sorting visualizers' array input: a comma-separated list of integers.
    Each comma-separated token is trimmed and read with decimal `parseInt`
    (optional sign, then the longest run of digits); tokens with no leading
    integer are dropped silently. */
module InputParse {
  import opened Common

  const Separator: char := ','

  /** The characters JavaScript's `trim()` removes: the ECMAScript
      WhiteSpace and LineTerminator code points (tab, vertical tab, form
      feed, space, no-break space, byte order mark, the Unicode space
      separators, line feed, carriage return, line and paragraph
      separators). */
  predicate IsWhitespace(c: char) {
    var n := c as int;
    n == 0x09 || n == 0x0B || n == 0x0C || n == 0x20 || n == 0xA0 || n == 0xFEFF ||
    n == 0x1680 || (0x2000 <= n <= 0x200A) || n == 0x202F || n == 0x205F || n == 0x3000 ||
    n == 0x0A || n == 0x0D || n == 0x2028 || n == 0x2029
  }

  predicate IsDigit(c: char) {
    '0' <= c <= '9'
  }

  function DigitValue(c: char): (d: nat)
    requires IsDigit(c)
    ensures d < 10
  {
    (c as int - '0' as int) as nat
  }

  function DigitChar(d: nat): (c: char)
    requires d < 10
    ensures IsDigit(c) && DigitValue(c) == d
  {
    ('0' as int + d) as char
  }

  /** Tokens joined with the separator, as JavaScript's `join(',')`. */
  function Join(toks: seq<string>): string {
    if |toks| == 0 then ""
    else if |toks| == 1 then toks[0]
    else toks[0] + [Separator] + Join(toks[1..])
  }

  /** The pieces between separators, as JavaScript's `split(',')`: never empty,
      no piece holds a separator, and joining the pieces gives back the input. */
  function Split(s: string): (r: seq<string>)
    ensures |r| >= 1
    ensures forall k | 0 <= k < |r| :: Separator !in r[k]
    ensures Join(r) == s
    decreases |s|
  {
    if |s| == 0 then [""]
    else
      var rest := Split(s[1..]);
      if s[0] == Separator then
        assert s == [Separator] + s[1..];
        [""] + rest
      else
        var r := [[s[0]] + rest[0]] + rest[1..];
        assert |rest| == 1 ==> Join(r) == [s[0]] + rest[0];
        assert |rest| > 1 ==> Join(r) == [s[0]] + Join(rest) by {
          if |rest| > 1 {
            assert r[1..] == rest[1..];
            assert Join(rest) == rest[0] + [Separator] + Join(rest[1..]);
          }
        }
        assert s == [s[0]] + s[1..];
        r
  }

  /** Leading whitespace removed: the result is a suffix of `s`, everything cut
      is whitespace, and the result does not start with whitespace. */
  function TrimStart(s: string): (r: string)
    ensures |r| <= |s| && r == s[|s| - |r|..]
    ensures forall i | 0 <= i < |s| - |r| :: IsWhitespace(s[i])
    ensures |r| > 0 ==> !IsWhitespace(r[0])
  {
    if |s| > 0 && IsWhitespace(s[0]) then TrimStart(s[1..]) else s
  }

  /** Trailing whitespace removed: the result is a prefix of `s`, everything cut
      is whitespace, and the result does not end with whitespace. */
  function TrimEnd(s: string): (r: string)
    ensures |r| <= |s| && r == s[..|r|]
    ensures forall i | |r| <= i < |s| :: IsWhitespace(s[i])
    ensures |r| > 0 ==> !IsWhitespace(r[|r| - 1])
  {
    if |s| > 0 && IsWhitespace(s[|s| - 1]) then TrimEnd(s[..|s| - 1]) else s
  }

  /** JavaScript's `trim()`: the result neither starts nor ends with
      whitespace, and text without whitespace at either end is kept as it is. */
  function Trim(s: string): (r: string)
    ensures |r| <= |s|
    ensures |r| > 0 ==> !IsWhitespace(r[0]) && !IsWhitespace(r[|r| - 1])
    ensures |s| > 0 && !IsWhitespace(s[0]) && !IsWhitespace(s[|s| - 1]) ==> r == s
  {
    TrimEnd(TrimStart(s))
  }

  /** The longest prefix of `s` made of digits. */
  function LeadingDigits(s: string): (r: string)
    ensures |r| <= |s| && r == s[..|r|]
    ensures forall i | 0 <= i < |r| :: IsDigit(r[i])
    ensures |r| < |s| ==> !IsDigit(s[|r|])
  {
    if |s| > 0 && IsDigit(s[0]) then [s[0]] + LeadingDigits(s[1..]) else ""
  }

  /** The decimal value of a digit string, most significant digit first. */
  function DigitsValue(ds: string): nat
    requires forall i | 0 <= i < |ds| :: IsDigit(ds[i])
  {
    if |ds| == 0 then 0 else 10 * DigitsValue(ds[..|ds| - 1]) + DigitValue(ds[|ds| - 1])
  }

  /** Decimal `parseInt`: an optional `+`/`-`, then the longest digit run;
      `None` (JavaScript's NaN) when that run is empty. */
  function ParseInt(s: string): (r: Option<int>)
    ensures r.Some? <==> |UnsignedPart(s)| > 0 && IsDigit(UnsignedPart(s)[0])
  {
    var body := UnsignedPart(s);
    var ds := LeadingDigits(body);
    if |ds| == 0 then None
    else
      var magnitude: int := DigitsValue(ds);
      if |s| > 0 && s[0] == '-' then Some(-magnitude) else Some(magnitude)
  }

  /** `s` without its leading sign character, if it has one. */
  function UnsignedPart(s: string): string {
    if |s| > 0 && (s[0] == '-' || s[0] == '+') then s[1..] else s
  }

  /** What one token contributes: its trimmed leading integer, or nothing. */
  function TokenValues(tok: string): (r: seq<int>)
    ensures |r| <= 1
    ensures |r| == 1 <==> ParseInt(Trim(tok)).Some?
  {
    match ParseInt(Trim(tok))
    case Some(x) => [x]
    case None => []
  }

  /** The integers of the parsed tokens, in token order. */
  function KeepParsed(toks: seq<string>): (r: seq<int>)
    ensures |r| <= |toks|
  {
    if |toks| == 0 then [] else TokenValues(toks[0]) + KeepParsed(toks[1..])
  }

  /** `input.split(',').map(v => parseInt(v.trim())).filter(v => !isNaN(v))`. */
  function ParseValues(input: string): (r: seq<int>)
    ensures |r| <= |Split(input)|
    ensures Separator !in input ==> |r| <= 1
  {
    KeepParsed(Split(input))
  }

  /** Decimal digits of a natural number, most significant first. */
  function NatToString(n: nat): (s: string)
    ensures |s| > 0
    ensures forall i | 0 <= i < |s| :: IsDigit(s[i])
  {
    if n < 10 then [DigitChar(n)] else NatToString(n / 10) + [DigitChar(n % 10)]
  }

  /** The decimal text JavaScript prints for an integer. */
  function IntToString(n: int): string {
    if n < 0 then "-" + NatToString(-n) else NatToString(n)
  }

  /** The text `values.join(',')` shown for an array. */
  function FormatValues(xs: seq<int>): string {
    Join(Strings(xs))
  }

  function Strings(xs: seq<int>): (r: seq<string>)
    ensures |r| == |xs|
    ensures forall k | 0 <= k < |r| :: r[k] == IntToString(xs[k])
  {
    if |xs| == 0 then [] else [IntToString(xs[0])] + Strings(xs[1..])
  }

  // ---- Lemmas ----------------------------------------------------------

  lemma {:induction false} DigitsValueOfNatToString(n: nat)
    ensures DigitsValue(NatToString(n)) == n
  {
    var s := NatToString(n);
    if n >= 10 {
      DigitsValueOfNatToString(n / 10);
      assert s[..|s| - 1] == NatToString(n / 10);
    }
  }

  /** A digit run followed by text that does not start with a digit has
      exactly that run as its leading digits. */
  lemma {:induction false} LeadingDigitsOf(ds: string, rest: string)
    requires forall i | 0 <= i < |ds| :: IsDigit(ds[i])
    requires |rest| == 0 || !IsDigit(rest[0])
    ensures LeadingDigits(ds + rest) == ds
  {
    if |ds| > 0 {
      assert (ds + rest)[1..] == ds[1..] + rest;
      LeadingDigitsOf(ds[1..], rest);
      assert ds == [ds[0]] + ds[1..];
    } else {
      assert ds + rest == rest;
    }
  }

  /** `parseInt` reads the value of the digit run after the sign. */
  lemma ParseIntOfRun(s: string, ds: string)
    requires LeadingDigits(UnsignedPart(s)) == ds && |ds| > 0
    ensures ParseInt(s) == Some(if |s| > 0 && s[0] == '-' then -(DigitsValue(ds) as int) else DigitsValue(ds))
  {
  }

  /** A digit run followed by text that does not start with a digit reads
      as the run's value. */
  lemma ParseIntOfDigits(ds: string, rest: string)
    requires |ds| > 0 && forall i | 0 <= i < |ds| :: IsDigit(ds[i])
    requires |rest| == 0 || !IsDigit(rest[0])
    ensures ParseInt(ds + rest) == Some(DigitsValue(ds))
  {
    var t := ds + rest;
    assert t[0] == ds[0] && IsDigit(ds[0]);
    assert LeadingDigits(UnsignedPart(t)) == ds by {
      LeadingDigitsOf(ds, rest);
    }
    ParseIntOfRun(t, ds);
  }

  /** Dropping the minus sign of `-` + digits + rest leaves digits + rest. */
  lemma SignedText(ds: string, rest: string)
    ensures ("-" + ds + rest)[0] == '-'
    ensures ("-" + ds + rest)[1..] == ds + rest
  {
    var s := "-" + ds + rest;
    var t := ds + rest;
    forall i | 0 <= i < |t| ensures s[1..][i] == t[i] {
      if i < |ds| {
        assert s[i + 1] == ("-" + ds)[i + 1] == ds[i];
      }
    }
  }

  /** The same run after a minus sign reads as the run's value negated. */
  lemma ParseIntOfNegDigits(ds: string, rest: string)
    requires |ds| > 0 && forall i | 0 <= i < |ds| :: IsDigit(ds[i])
    requires |rest| == 0 || !IsDigit(rest[0])
    ensures ParseInt("-" + ds + rest) == Some(-(DigitsValue(ds) as int))
  {
    var s := "-" + ds + rest;
    SignedText(ds, rest);
    assert LeadingDigits(UnsignedPart(s)) == ds by {
      LeadingDigitsOf(ds, rest);
    }
    ParseIntOfRun(s, ds);
  }

  /** `parseInt` stops at the first character that cannot continue the
      number: an integer's decimal text followed by such a character (a
      letter, a decimal point, a space) reads as that integer. */
  lemma ParseIntLeading(n: int, rest: string)
    requires |rest| == 0 || !IsDigit(rest[0])
    ensures ParseInt(IntToString(n) + rest) == Some(n)
  {
    if n < 0 {
      ParseNegativeLeading(-n, rest);
    } else {
      ParseNaturalLeading(n, rest);
    }
  }

  /** The non-negative case of ParseIntLeading. */
  lemma ParseNaturalLeading(m: nat, rest: string)
    requires |rest| == 0 || !IsDigit(rest[0])
    ensures ParseInt(NatToString(m) + rest) == Some(m)
  {
    DigitsValueOfNatToString(m);
    ParseIntOfDigits(NatToString(m), rest);
  }

  /** The negative case of ParseIntLeading. */
  lemma ParseNegativeLeading(m: nat, rest: string)
    requires m > 0
    requires |rest| == 0 || !IsDigit(rest[0])
    ensures ParseInt("-" + NatToString(m) + rest) == Some(-(m as int))
  {
    DigitsValueOfNatToString(m);
    ParseIntOfNegDigits(NatToString(m), rest);
  }

  /** Leading zeros add nothing: `007` reads as 7. */
  lemma ParseIntLeadingZeros()
    ensures ParseInt("007") == Some(7)
  {
    LeadingDigitsOf("007", "");
    assert "007" + "" == "007";
    assert UnsignedPart("007") == "007";
    assert "007"[..2] == "00" && "00"[..1] == "0" && "0"[..0] == "";
    assert DigitsValue("0") == 0;
    assert DigitsValue("00") == 0;
    assert DigitsValue("007") == 7;
  }

  /** The values `parseInt` reads from tokens with trailing text. */
  lemma ParseIntExamples()
    ensures ParseInt("12abc") == Some(12)
    ensures ParseInt("3.7") == Some(3)
    ensures ParseInt("-5px") == Some(-5)
    ensures ParseInt("abc") == None
  {
    assert ParseInt("12abc") == Some(12) by {
      assert "12abc" == "12" + "abc" && "12"[..1] == "1";
      ParseIntOfDigits("12", "abc");
    }
    assert ParseInt("3.7") == Some(3) by {
      assert "3.7" == "3" + ".7";
      ParseIntOfDigits("3", ".7");
    }
    assert ParseInt("-5px") == Some(-5) by {
      assert "-5px" == "-" + "5" + "px";
      ParseIntOfNegDigits("5", "px");
    }
  }

  /** Parsing the printed form of an integer gives the integer back. */
  lemma ParseIntOfIntToString(n: int)
    ensures Trim(IntToString(n)) == IntToString(n)
    ensures ParseInt(IntToString(n)) == Some(n)
  {
    var s := IntToString(n);
    var digits := if n < 0 then NatToString(-n) else NatToString(n);
    assert UnsignedPart(s) == digits;
    assert LeadingDigits(digits) == digits;
    DigitsValueOfNatToString(if n < 0 then -n else n);
    assert !IsWhitespace(s[0]);
    assert !IsWhitespace(s[|s| - 1]);
  }

  /** A token without a separator in front of any text splits at the token's end. */
  lemma {:induction false} SplitPrefix(t: string, s: string)
    requires Separator !in t
    ensures Split(t + s) == [t + Split(s)[0]] + Split(s)[1..]
  {
    if |t| > 0 {
      SplitPrefix(t[1..], s);
      var ss := Split(s);
      var rest := Split(t[1..] + s);
      assert (t + s)[1..] == t[1..] + s;
      assert (t + s)[0] == t[0] && t[0] != Separator;
      assert rest[0] == t[1..] + ss[0];
      assert rest[1..] == ss[1..];
      assert [t[0]] + rest[0] == t + ss[0];
    } else {
      assert t + s == s;
      var r := Split(s);
      assert r == [r[0]] + r[1..];
      assert t + r[0] == r[0];
    }
  }

  /** Splitting joined separator-free tokens gives the tokens back. */
  lemma {:induction false} SplitJoin(toks: seq<string>)
    requires |toks| >= 1
    requires forall k | 0 <= k < |toks| :: Separator !in toks[k]
    ensures Split(Join(toks)) == toks
  {
    if |toks| == 1 {
      SplitPrefix(toks[0], "");
      assert toks[0] + "" == toks[0];
    } else {
      SplitJoin(toks[1..]);
      var rest := Join(toks[1..]);
      assert Join(toks) == toks[0] + ([Separator] + rest);
      SplitPrefix(toks[0], [Separator] + rest);
      assert ([Separator] + rest)[1..] == rest;
      assert toks[0] + "" == toks[0];
      assert toks == [toks[0]] + toks[1..];
    }
  }

  lemma {:induction false} KeepParsedAppend(a: seq<string>, b: seq<string>)
    ensures KeepParsed(a + b) == KeepParsed(a) + KeepParsed(b)
  {
    if |a| > 0 {
      calc {
        KeepParsed(a + b);
        TokenValues((a + b)[0]) + KeepParsed((a + b)[1..]);
        { assert (a + b)[1..] == a[1..] + b; }
        TokenValues(a[0]) + KeepParsed(a[1..] + b);
        { KeepParsedAppend(a[1..], b); }
        TokenValues(a[0]) + (KeepParsed(a[1..]) + KeepParsed(b));
      }
    } else {
      assert a + b == b;
    }
  }

  lemma {:induction false} KeepParsedStrings(xs: seq<int>)
    ensures KeepParsed(Strings(xs)) == xs
  {
    if |xs| > 0 {
      KeepParsedStrings(xs[1..]);
      TokenValuesOfIntToString(xs[0]);
      assert Strings(xs)[1..] == Strings(xs[1..]);
    }
  }

  /** The printed form of an integer is a token contributing that integer. */
  lemma TokenValuesOfIntToString(n: int)
    ensures TokenValues(IntToString(n)) == [n]
  {
    ParseIntOfIntToString(n);
  }

  /** Round trip: parsing the comma-joined decimal text of any integer array
      gives the array back. */
  lemma ParseFormatRoundTrip(xs: seq<int>)
    ensures ParseValues(FormatValues(xs)) == xs
  {
    var toks := Strings(xs);
    if |xs| == 0 {
      assert FormatValues(xs) == "";
    } else {
      forall k | 0 <= k < |toks| ensures Separator !in toks[k] {
        var s := toks[k];
        assert s == IntToString(xs[k]);
      }
      SplitJoin(toks);
      KeepParsedStrings(xs);
    }
  }

  /** Parsing distributes over a separator: the values of `a,b` are the values
      of `a` followed by the values of `b`. */
  lemma ParseValuesConcat(a: string, b: string)
    ensures ParseValues(a + [Separator] + b) == ParseValues(a) + ParseValues(b)
  {
    var ta := Split(a);
    var tb := Split(b);
    SplitJoin(ta + tb);
    assert Join(ta + tb) == a + [Separator] + b by {
      JoinAppend(ta, tb);
    }
    KeepParsedAppend(ta, tb);
  }

  lemma {:induction false} JoinAppend(a: seq<string>, b: seq<string>)
    requires |a| >= 1 && |b| >= 1
    ensures Join(a + b) == Join(a) + [Separator] + Join(b)
  {
    if |a| == 1 {
      assert (a + b)[1..] == b;
    } else {
      JoinAppend(a[1..], b);
      assert (a + b)[1..] == a[1..] + b;
    }
  }

  /** A single token contributes its leading integer if it has one, and
      nothing otherwise. */
  lemma ParseValuesToken(t: string)
    requires Separator !in t
    ensures ParseInt(Trim(t)).Some? ==> ParseValues(t) == [ParseInt(Trim(t)).value]
    ensures ParseInt(Trim(t)).None? ==> ParseValues(t) == []
  {
    SplitJoin([t]);
  }

  /** A pasted no-break space before a number is trimmed like any other
      whitespace: `a,<NBSP>b` reads as the two values `a` and `b`. */
  lemma NoBreakSpaceTrimmed(a: int, b: int)
    ensures ParseValues(IntToString(a) + [Separator] + (['\U{00A0}'] + IntToString(b))) == [a, b]
  {
    var nb := ['\U{00A0}'] + IntToString(b);
    ParseValuesConcat(IntToString(a), nb);
    NumberToken(a);
    NoBreakNumberToken(b);
  }

  /** The decimal text of an integer reads as that integer. */
  lemma NumberToken(n: int)
    ensures ParseValues(IntToString(n)) == [n]
  {
    ParseIntOfIntToString(n);
    NotSeparator(n);
    ParseValuesToken(IntToString(n));
  }

  /** The same with a no-break space in front. */
  lemma NoBreakNumberToken(n: int)
    ensures ParseValues(['\U{00A0}'] + IntToString(n)) == [n]
  {
    var s := IntToString(n);
    var nb := ['\U{00A0}'] + s;
    ParseIntOfIntToString(n);
    NotSeparator(n);
    assert Separator !in nb;
    assert TrimStart(nb) == TrimStart(s) by {
      assert nb[1..] == s;
    }
    ParseValuesToken(nb);
  }

  /** The decimal text of an integer holds no separator. */
  lemma NotSeparator(n: int)
    ensures Separator !in IntToString(n)
  {
    var s := IntToString(n);
    forall i | 0 <= i < |s| ensures s[i] != Separator {
      if n < 0 {
        assert s == "-" + NatToString(-n);
        if i > 0 {
          assert s[i] == NatToString(-n)[i - 1];
        }
      }
    }
  }
}

=== FILE: linked_list.dfy ===
/** The singly linked list visualizer: a chain of nodes from `head`, each
    holding a value and an optional `next`. `addNode` walks to the last node
    and links the new one after it; `removeNode` unlinks the first node
    holding the value; `searchNode` walks from the head counting positions. */
module LinkedList {
  import opened Common

  /** The chain from a node on: `Nil` is a missing `next` (or a null head). */
  datatype List = Nil | Node(value: int, next: List)

  /** What `removeNode` reports: nothing at all on an empty list, otherwise
      whether a node was unlinked. */
  datatype RemoveReport = Silent | Removed | NotFound

  /** What `searchNode` reports. */
  datatype SearchReport = EmptyList | FoundAt(index: nat) | Missing

  /** The values along the chain, head first. */
  function Values(l: List): seq<int> {
    match l
    case Nil => []
    case Node(x, next) => [x] + Values(next)
  }

  /** `addNode`: the new node becomes the last one. */
  function Add(l: List, v: int): (r: List)
    ensures Values(r) == Values(l) + [v]
  {
    match l
    case Nil => Node(v, Nil)
    case Node(x, next) => Node(x, Add(next, v))
  }

  /** The loop of `removeNode` from node `cur` on: step while the next node
      exists and does not hold `v`, then unlink that next node if there is
      one. `cur` itself has already been compared. */
  function UnlinkAfter(cur: List, v: int): (r: (List, bool))
    requires cur.Node?
    ensures r.0.Node? && r.0.value == cur.value
    ensures r.1 <==> v in Values(cur.next)
    ensures Values(r.0) == [cur.value] + RemoveFirst(Values(cur.next), v)
  {
    match cur.next
    case Nil => (cur, false)
    case Node(x, after) =>
      if x == v then (Node(cur.value, after), true)
      else
        var rest := UnlinkAfter(cur.next, v);
        (Node(cur.value, rest.0), rest.1)
  }

  /** `removeNode`: the list afterwards and the report. */
  function Remove(l: List, v: int): (r: (List, RemoveReport))
    ensures Values(r.0) == RemoveFirst(Values(l), v)
    ensures r.1 == Silent <==> l == Nil
    ensures r.1 == Removed <==> v in Values(l)
    ensures r.1 == NotFound <==> l != Nil && v !in Values(l)
  {
    match l
    case Nil => (l, Silent)
    case Node(x, next) =>
      if x == v then (next, Removed)
      else
        var u := UnlinkAfter(l, v);
        (u.0, if u.1 then Removed else NotFound)
  }

  /** The loop of `searchNode` from node `cur`, which sits at position
      `index`. */
  function SearchFrom(cur: List, v: int, index: nat): (r: SearchReport)
    ensures r != EmptyList
    ensures r == Missing <==> v !in Values(cur)
    ensures r.FoundAt? ==> IndexOf(Values(cur), v) == Some(r.index - index) && r.index >= index
  {
    match cur
    case Nil => Missing
    case Node(x, next) =>
      if x == v then FoundAt(index)
      else SearchFrom(next, v, index + 1)
  }

  /** `searchNode`: an empty list is reported as such; otherwise the 0-based
      position of the first node holding `v`, or that there is none. */
  function Search(l: List, v: int): (r: SearchReport)
    ensures r == EmptyList <==> l == Nil
    ensures r == Missing <==> l != Nil && v !in Values(l)
    ensures r.FoundAt? ==> IndexOf(Values(l), v) == Some(r.index)
  {
    if l == Nil then EmptyList else SearchFrom(l, v, 0)
  }

  /** A found value is removed at the position search reports; everything
      before and after it keeps its order. */
  lemma RemoveAtSearchIndex(l: List, v: int)
    requires Search(l, v).FoundAt?
    ensures var i := Search(l, v).index;
      i < |Values(l)| && Values(l)[i] == v &&
      Values(Remove(l, v).0) == Values(l)[..i] + Values(l)[i + 1..]
  {
    RemoveFirstAtIndex(Values(l), v);
  }

  /** Searching right after adding a value not yet present finds it at the
      end. */
  lemma SearchAfterAdd(l: List, v: int)
    requires v !in Values(l)
    ensures Search(Add(l, v), v) == FoundAt(|Values(l)|)
  {
    var s := Values(l) + [v];
    assert s[..|Values(l)|] == Values(l);
    assert IndexOf(s, v) == Some(|Values(l)|);
  }

  /** Removing from an empty list changes nothing; removing an absent value
      leaves the values as they were. */
  lemma RemoveAbsent(l: List, v: int)
    requires v !in Values(l)
    ensures Values(Remove(l, v).0) == Values(l)
    ensures Remove(l, v).1 == (if l == Nil then Silent else NotFound)
  {
  }
}

=== FILE: mergesort.dfy ===
/** The merge sort visualizer's step generator: top-down recursion on
    `[left, right]` with `mid = floor((left + right) / 2)`, and a merge that
    copies both halves out and writes them back one placement at a time,
    recording a snapshot after every placement.

    The merge's two-sided loop advances `i` while `i < |leftArr| - 1` and `j`
    otherwise, whichever side supplied the element (`AsWritten`). The model
    also carries the rule the loop evidently intends, advancing the side that
    supplied the element (`BySource`), so that the two can be compared. */
module MergeSort {
  import opened Common
  import SortPlayer

  /** How the two-sided merge loop picks the index to advance. */
  datatype AdvanceRule = AsWritten | BySource

  /** The values a merge places from state `(i, j)` on, in order. `w` is the
      array as it was when the merge began (the source reads the copies
      `leftArr = w[left..mid + 1]` and `rightArr = w[mid + 1..right + 1]`),
      so `i` runs over `[left, mid + 1]` and `j` over `[mid + 1, right + 1]`.
      While both sides have elements the smaller head is placed (the left one
      on ties) and an index advances by `rule`; then the left leftovers, then
      the right leftovers. */
  function MergeFrom(w: seq<int>, mid: nat, right: nat, i: nat, j: nat, rule: AdvanceRule): (rest: seq<int>)
    requires i <= mid + 1 <= j <= right + 1 <= |w|
    ensures |rest| == (mid + 1 - i) + (right + 1 - j)
    decreases (mid + 1 - i) + (right + 1 - j)
  {
    if i <= mid && j <= right then
      var x := Placed(w, mid, right, i, j);
      if AdvancesLeft(w, mid, right, i, j, rule) then [x] + MergeFrom(w, mid, right, i + 1, j, rule)
      else [x] + MergeFrom(w, mid, right, i, j + 1, rule)
    else w[i..mid + 1] + w[j..right + 1]
  }

  /** The value the running loop places from state `(i, j)`: the smaller
      head (the left one on ties) while both sides have elements, otherwise
      the head of the side that still has some. */
  function Placed(src: seq<int>, mid: nat, right: nat, i: nat, j: nat): (x: int)
    requires i <= mid + 1 <= j <= right + 1 <= |src|
    requires i <= mid || j <= right
    ensures i <= mid ==> x == src[i] || (j <= right && x == src[j] && src[j] < src[i])
    ensures i <= mid && (j > right || src[i] <= src[j]) ==> x == src[i]
    ensures i <= mid && j <= right && src[j] < src[i] ==> x == src[j]
    ensures i > mid ==> x == src[j]
  {
    if i <= mid && j <= right then (if src[i] <= src[j] then src[i] else src[j])
    else if i <= mid then src[i]
    else src[j]
  }

  /** Whether the running loop advances `i` (rather than `j`) from state
      `(i, j)`. In the two-sided loop this is the advance rule; the leftover
      loops advance the side they drain. */
  function AdvancesLeft(src: seq<int>, mid: nat, right: nat, i: nat, j: nat, rule: AdvanceRule): (b: bool)
    requires i <= mid + 1 <= j <= right + 1 <= |src|
    requires i <= mid || j <= right
    ensures b ==> i <= mid
    ensures !b ==> j <= right
    ensures rule == BySource && i <= mid && j <= right ==> (b <==> src[i] <= src[j])
  {
    if i <= mid && j <= right then
      match rule
      case AsWritten => i < mid
      case BySource => src[i] <= src[j]
    else i <= mid
  }

  /** The merge's three `while` loops from state `(i, j)`: each iteration
      writes one value at `k = i + j - (mid + 1)` (the source's `k`, which
      starts at `left` when `i = left` and `j = mid + 1`) and advances one
      index. `src` is the array as it was when the merge began, standing for
      the copies `leftArr` and `rightArr`. */
  function MergeLoop(src: seq<int>, w: seq<int>, mid: nat, right: nat, i: nat, j: nat, rule: AdvanceRule): (w': seq<int>)
    requires i <= mid + 1 <= j <= right + 1 <= |src| == |w|
    ensures |w'| == |w|
    decreases (mid + 1 - i) + (right + 1 - j)
  {
    if i > mid && j > right then w
    else
      var w1 := w[i + j - (mid + 1) := Placed(src, mid, right, i, j)];
      if AdvancesLeft(src, mid, right, i, j, rule) then MergeLoop(src, w1, mid, right, i + 1, j, rule)
      else MergeLoop(src, w1, mid, right, i, j + 1, rule)
  }

  /** The array after `merge(left, mid, right)`. */
  function MergeWrite(w: seq<int>, left: nat, mid: nat, right: nat, rule: AdvanceRule): (w': seq<int>)
    requires left <= mid < right < |w|
    ensures |w'| == |w|
  {
    MergeLoop(w, w, mid, right, left, mid + 1, rule)
  }

  /** One iteration, as `MergeFrom` lists it: the placed value comes first. */
  lemma MergeFromStep(src: seq<int>, mid: nat, right: nat, i: nat, j: nat, rule: AdvanceRule)
    requires i <= mid + 1 <= j <= right + 1 <= |src|
    requires i <= mid || j <= right
    ensures AdvancesLeft(src, mid, right, i, j, rule) ==>
      MergeFrom(src, mid, right, i, j, rule) == [Placed(src, mid, right, i, j)] + MergeFrom(src, mid, right, i + 1, j, rule)
    ensures !AdvancesLeft(src, mid, right, i, j, rule) ==>
      MergeFrom(src, mid, right, i, j, rule) == [Placed(src, mid, right, i, j)] + MergeFrom(src, mid, right, i, j + 1, rule)
  {
    if i > mid {
      assert src[j..right + 1] == [src[j]] + src[j + 1..right + 1];
    } else if j > right {
      assert src[i..mid + 1] == [src[i]] + src[i + 1..mid + 1];
    }
  }

  /** The loops write the merged values `MergeFrom` lists over `[k, right]`
      and nothing else. */
  lemma {:induction false} MergeLoopSplice(src: seq<int>, w: seq<int>, mid: nat, right: nat, i: nat, j: nat, rule: AdvanceRule)
    requires i <= mid + 1 <= j <= right + 1 <= |src| == |w|
    ensures MergeLoop(src, w, mid, right, i, j, rule)
      == w[..i + j - (mid + 1)] + MergeFrom(src, mid, right, i, j, rule) + w[right + 1..]
    decreases (mid + 1 - i) + (right + 1 - j), 1
  {
    if i > mid && j > right {
      assert w == w[..i + j - (mid + 1)] + [] + w[right + 1..];
    } else if AdvancesLeft(src, mid, right, i, j, rule) {
      MergeLoopSpliceLeft(src, w, mid, right, i, j, rule);
    } else {
      MergeLoopSpliceRight(src, w, mid, right, i, j, rule);
    }
  }

  /** `MergeLoopSplice` for an iteration that advances `i`. */
  lemma {:induction false} MergeLoopSpliceLeft(src: seq<int>, w: seq<int>, mid: nat, right: nat, i: nat, j: nat, rule: AdvanceRule)
    requires i <= mid + 1 <= j <= right + 1 <= |src| == |w|
    requires (i <= mid || j <= right) && AdvancesLeft(src, mid, right, i, j, rule)
    ensures MergeLoop(src, w, mid, right, i, j, rule)
      == w[..i + j - (mid + 1)] + MergeFrom(src, mid, right, i, j, rule) + w[right + 1..]
    decreases (mid + 1 - i) + (right + 1 - j), 0
  {
    var k := i + j - (mid + 1);
    var x := Placed(src, mid, right, i, j);
    MergeFromStep(src, mid, right, i, j, rule);
    MergeLoopSplice(src, w[k := x], mid, right, i + 1, j, rule);
    WriteOneSplice(w, k, right, x, MergeFrom(src, mid, right, i + 1, j, rule), MergeLoop(src, w, mid, right, i, j, rule),
      MergeLoop(src, w[k := x], mid, right, i + 1, j, rule), MergeFrom(src, mid, right, i, j, rule));
  }

  /** `MergeLoopSplice` for an iteration that advances `j`. */
  lemma {:induction false} MergeLoopSpliceRight(src: seq<int>, w: seq<int>, mid: nat, right: nat, i: nat, j: nat, rule: AdvanceRule)
    requires i <= mid + 1 <= j <= right + 1 <= |src| == |w|
    requires (i <= mid || j <= right) && !AdvancesLeft(src, mid, right, i, j, rule)
    ensures MergeLoop(src, w, mid, right, i, j, rule)
      == w[..i + j - (mid + 1)] + MergeFrom(src, mid, right, i, j, rule) + w[right + 1..]
    decreases (mid + 1 - i) + (right + 1 - j), 0
  {
    var k := i + j - (mid + 1);
    var x := Placed(src, mid, right, i, j);
    MergeFromStep(src, mid, right, i, j, rule);
    MergeLoopSplice(src, w[k := x], mid, right, i, j + 1, rule);
    WriteOneSplice(w, k, right, x, MergeFrom(src, mid, right, i, j + 1, rule), MergeLoop(src, w, mid, right, i, j, rule),
      MergeLoop(src, w[k := x], mid, right, i, j + 1, rule), MergeFrom(src, mid, right, i, j, rule));
  }

  /** Writing `x` at `k` and then `tail` after it is writing `[x] + tail` at
      `k`: the iteration that writes `x` and the rest of the loops together
      write `merged` over `[k, right]`. */
  lemma WriteOneSplice(w: seq<int>, k: nat, right: nat, x: int, tail: seq<int>,
                       whole: seq<int>, rest: seq<int>, merged: seq<int>)
    requires k <= right < |w| && k + 1 + |tail| == right + 1
    requires whole == rest && rest == w[k := x][..k + 1] + tail + w[k := x][right + 1..]
    requires merged == [x] + tail
    ensures whole == w[..k] + merged + w[right + 1..]
  {
    assert w[k := x][..k + 1] == w[..k] + [x];
    assert w[k := x][right + 1..] == w[right + 1..];
  }

  /** The array after a merge: the merged values written back over
      `[left, right]`, everything else as it was. */
  lemma MergeWriteSplice(w: seq<int>, left: nat, mid: nat, right: nat, rule: AdvanceRule)
    requires left <= mid < right < |w|
    ensures MergeWrite(w, left, mid, right, rule)
      == w[..left] + MergeFrom(w, mid, right, left, mid + 1, rule) + w[right + 1..]
  {
    MergeLoopSplice(w, w, mid, right, left, mid + 1, rule);
  }

  /** The snapshots recorded after each of the placements `placed[..1]`,
      `placed[..2]`, ... into `w` starting at `left`: placed values in front,
      not-yet-overwritten values of `w` behind. */
  function PlacementSnapshots(w: seq<int>, left: nat, placed: seq<int>, t: nat): (snaps: seq<seq<int>>)
    requires left + |placed| <= |w| && t <= |placed|
    ensures |snaps| == |placed| - t
    ensures forall k | 0 <= k < |snaps| :: |snaps[k]| == |w|
    decreases |placed| - t
  {
    if t == |placed| then []
    else
      var snap := w[..left] + placed[..t + 1] + w[left + t + 1..];
      [snap] + PlacementSnapshots(w, left, placed, t + 1)
  }

  /** The snapshots `merge(left, mid, right)` records: after marking, after
      each of the `right - left + 1` placements, and after unmarking. */
  function MergeSnapshots(w: seq<int>, left: nat, mid: nat, right: nat, rule: AdvanceRule): (snaps: seq<seq<int>>)
    requires left <= mid < right < |w|
    ensures |snaps| == right - left + 3
    ensures forall k | 0 <= k < |snaps| :: |snaps[k]| == |w|
    ensures snaps[0] == w && snaps[|snaps| - 1] == MergeWrite(w, left, mid, right, rule)
  {
    var placed := MergeFrom(w, mid, right, left, mid + 1, rule);
    [w] + PlacementSnapshots(w, left, placed, 0) + [MergeWrite(w, left, mid, right, rule)]
  }

  /** The array after `mergeSortRecursive(left, right)`: unchanged when
      `left >= right`; otherwise both halves sorted, then merged. */
  function SortRange(w: seq<int>, left: nat, right: int, rule: AdvanceRule): (w': seq<int>)
    requires left <= right + 1 <= |w|
    ensures |w'| == |w|
    ensures left >= right ==> w' == w
    decreases right - left
  {
    if left < right then
      var mid := (left + right) / 2;
      MergeWrite(SortRange(SortRange(w, left, mid, rule), mid + 1, right, rule), left, mid, right, rule)
    else w
  }

  /** The snapshots `mergeSortRecursive(left, right)` records: a "dividing"
      snapshot, those of both recursive calls, those of the merge. */
  function SortSnapshots(w: seq<int>, left: nat, right: int, rule: AdvanceRule): (snaps: seq<seq<int>>)
    requires left <= right + 1 <= |w|
    ensures forall k | 0 <= k < |snaps| :: |snaps[k]| == |w|
    ensures left >= right ==> snaps == []
    ensures left < right ==> |snaps| > 0 && snaps[0] == w
    decreases right - left
  {
    if left < right then
      var mid := (left + right) / 2;
      var w1 := SortRange(w, left, mid, rule);
      var w2 := SortRange(w1, mid + 1, right, rule);
      [w] + SortSnapshots(w, left, mid, rule) + SortSnapshots(w1, mid + 1, right, rule)
        + MergeSnapshots(w2, left, mid, right, rule)
    else []
  }

  /** `mergeSort(arr)`: the snapshots of sorting the whole array, then the
      all-sorted snapshot of the final array. */
  function MergeSortSteps(a: seq<int>, rule: AdvanceRule): (steps: seq<seq<int>>)
    ensures |steps| >= 1
    ensures forall k | 0 <= k < |steps| :: |steps[k]| == |a|
    ensures steps[|steps| - 1] == SortRange(a, 0, |a| - 1, rule)
    ensures |a| <= 1 ==> steps == [a]
    ensures |a| > 1 ==> steps[0] == a
  {
    SortSnapshots(a, 0, |a| - 1, rule) + [SortRange(a, 0, |a| - 1, rule)]
  }

  /** The last snapshot of a run. */
  function Final(a: seq<int>, rule: AdvanceRule): (r: seq<int>)
    ensures |r| == |a|
    ensures r == SortRange(a, 0, |a| - 1, rule)
  {
    var steps := MergeSortSteps(a, rule);
    steps[|steps| - 1]
  }

  /** `startSorting` for the merge sort page (the visualizer runs `AsWritten`). */
  function StartSorting(p: SortPlayer.Page): (r: SortPlayer.Page)
    ensures |p.values| == 0 ==> r == p
    ensures |p.values| > 0 ==> r.playing && r.current == 0 && r.values == p.values
    ensures |p.values| > 0 ==> r.steps == MergeSortSteps(p.values, AsWritten)
    ensures |p.values| > 0 ==> |r.steps| > 0 && forall k | 0 <= k < |r.steps| :: |r.steps[k]| == |p.values|
    ensures SortPlayer.IndexInRange(p) ==> SortPlayer.IndexInRange(r)
  {
    if |p.values| == 0 then p else SortPlayer.Start(p, MergeSortSteps(p.values, AsWritten))
  }

  // ---- Unfolding and framing -----------------------------------------------

  lemma LastOfAppend<T>(x: seq<T>, y: seq<T>)
    requires |y| > 0
    ensures (x + y)[|x + y| - 1] == y[|y| - 1]
  {
  }

  /** One level of `SortRange`: sort the left half, then the right half, then
      merge. */
  lemma SortRangeUnfold(w: seq<int>, left: nat, right: int, rule: AdvanceRule)
    requires left < right < |w|
    ensures var mid := (left + right) / 2;
      SortRange(w, left, right, rule)
        == MergeWrite(SortRange(SortRange(w, left, mid, rule), mid + 1, right, rule), left, mid, right, rule)
  {
  }

  /** One level of `SortSnapshots`. */
  lemma SortSnapshotsUnfold(w: seq<int>, left: nat, right: int, rule: AdvanceRule)
    requires left < right < |w|
    ensures var mid := (left + right) / 2;
      SortSnapshots(w, left, right, rule)
        == [w] + SortSnapshots(w, left, mid, rule) + SortSnapshots(SortRange(w, left, mid, rule), mid + 1, right, rule)
          + MergeSnapshots(SortRange(SortRange(w, left, mid, rule), mid + 1, right, rule), left, mid, right, rule)
  {
  }

  /** The recording of `mergeSortRecursive(left, right)` ends on the array the
      call leaves behind, so the player's last frame before the all-sorted
      one shows the real result. */
  lemma SortSnapshotsLast(w: seq<int>, left: nat, right: int, rule: AdvanceRule)
    requires left < right < |w|
    ensures var snaps := SortSnapshots(w, left, right, rule);
      |snaps| > 0 && snaps[|snaps| - 1] == SortRange(w, left, right, rule)
  {
    var mid := (left + right) / 2;
    var w1 := SortRange(w, left, mid, rule);
    var m := MergeSnapshots(SortRange(w1, mid + 1, right, rule), left, mid, right, rule);
    SortSnapshotsUnfold(w, left, right, rule);
    LastOfAppend([w] + SortSnapshots(w, left, mid, rule) + SortSnapshots(w1, mid + 1, right, rule), m);
    SortRangeUnfold(w, left, right, rule);
  }

  /** `a` and `b` have the same length and agree outside `[lo, hi]`. */
  predicate SameOutside(a: seq<int>, b: seq<int>, lo: int, hi: int) {
    |a| == |b| && forall k | 0 <= k < |a| && !(lo <= k <= hi) :: a[k] == b[k]
  }

  /** A merge writes only inside `[left, right]`. */
  lemma MergeWriteFrame(w: seq<int>, left: nat, mid: nat, right: nat, rule: AdvanceRule)
    requires left <= mid < right < |w|
    ensures SameOutside(MergeWrite(w, left, mid, right, rule), w, left, right)
  {
    var r := MergeWrite(w, left, mid, right, rule);
    MergeWriteSplice(w, left, mid, right, rule);
    var placed := MergeFrom(w, mid, right, left, mid + 1, rule);
    forall k | 0 <= k < |r| && !(left <= k <= right) ensures r[k] == w[k] {
      if k < left {
        assert r[k] == w[..left][k];
      } else {
        assert r[k] == w[right + 1..][k - (right + 1)];
      }
    }
  }

  /** Two nested writes, one inside the other's range, then a write over the
      whole range, all leave the outside alone. */
  lemma SameOutsideChain(m: seq<int>, w2: seq<int>, w1: seq<int>, w: seq<int>,
                         left: nat, mid: nat, right: nat)
    requires left <= mid < right
    requires SameOutside(m, w2, left, right)
    requires SameOutside(w2, w1, mid + 1, right) && SameOutside(w1, w, left, mid)
    ensures SameOutside(m, w, left, right)
  {
  }

  /** `SortRangeFrame` carried across one unfolding of `SortRange`. */
  lemma SortRangeFrameUnfold(w: seq<int>, left: nat, right: int, rule: AdvanceRule)
    requires left < right < |w|
    requires var mid := (left + right) / 2;
      SameOutside(MergeWrite(SortRange(SortRange(w, left, mid, rule), mid + 1, right, rule), left, mid, right, rule), w, left, right)
    ensures SameOutside(SortRange(w, left, right, rule), w, left, right)
  {
    SortRangeUnfold(w, left, right, rule);
  }

  /** Sorting `[left, right]` leaves every position outside it unchanged. */
  lemma {:induction false} SortRangeFrame(w: seq<int>, left: nat, right: int, rule: AdvanceRule)
    requires left <= right + 1 <= |w|
    ensures SameOutside(SortRange(w, left, right, rule), w, left, right)
    decreases right - left
  {
    if left < right {
      var mid := (left + right) / 2;
      var w1 := SortRange(w, left, mid, rule);
      var w2 := SortRange(w1, mid + 1, right, rule);
      SortRangeFrame(w, left, mid, rule);
      SortRangeFrame(w1, mid + 1, right, rule);
      MergeWriteFrame(w2, left, mid, right, rule);
      SameOutsideChain(MergeWrite(w2, left, mid, right, rule), w2, w1, w, left, mid, right);
      SortRangeFrameUnfold(w, left, right, rule);
    }
  }

  // ---- Sortedness -------------------------------------------------------

  /** Every value still to be placed is at least `b` when `b` bounds both
      heads and both remaining runs are sorted. */
  lemma {:induction false} MergeFromAtLeast(w: seq<int>, mid: nat, right: nat, i: nat, j: nat, rule: AdvanceRule, b: int)
    requires i <= mid + 1 <= j <= right + 1 <= |w|
    requires SortedRange(w, i, mid + 1) && SortedRange(w, j, right + 1)
    requires i <= mid ==> b <= w[i]
    requires j <= right ==> b <= w[j]
    ensures forall k | 0 <= k < |MergeFrom(w, mid, right, i, j, rule)| :: b <= MergeFrom(w, mid, right, i, j, rule)[k]
    decreases (mid + 1 - i) + (right + 1 - j)
  {
    if i <= mid || j <= right {
      MergeFromStep(w, mid, right, i, j, rule);
      if AdvancesLeft(w, mid, right, i, j, rule) {
        MergeFromAtLeast(w, mid, right, i + 1, j, rule, b);
      } else {
        MergeFromAtLeast(w, mid, right, i, j + 1, rule, b);
      }
    }
  }

  /** Under either rule, the values a merge places from sorted halves come out
      non-decreasing. */
  lemma {:induction false} MergeFromSorted(w: seq<int>, mid: nat, right: nat, i: nat, j: nat, rule: AdvanceRule)
    requires i <= mid + 1 <= j <= right + 1 <= |w|
    requires SortedRange(w, i, mid + 1) && SortedRange(w, j, right + 1)
    ensures Sorted(MergeFrom(w, mid, right, i, j, rule))
    decreases (mid + 1 - i) + (right + 1 - j)
  {
    if i <= mid || j <= right {
      var x := Placed(w, mid, right, i, j);
      MergeFromStep(w, mid, right, i, j, rule);
      if AdvancesLeft(w, mid, right, i, j, rule) {
        MergeFromSorted(w, mid, right, i + 1, j, rule);
        MergeFromAtLeast(w, mid, right, i + 1, j, rule, x);
        SortedCons(x, MergeFrom(w, mid, right, i + 1, j, rule));
      } else {
        MergeFromSorted(w, mid, right, i, j + 1, rule);
        MergeFromAtLeast(w, mid, right, i, j + 1, rule, x);
        SortedCons(x, MergeFrom(w, mid, right, i, j + 1, rule));
      }
    }
  }

  /** A value at most every element of a sorted sequence extends it in order. */
  lemma SortedCons(x: int, tail: seq<int>)
    requires Sorted(tail)
    requires forall k | 0 <= k < |tail| :: x <= tail[k]
    ensures Sorted([x] + tail)
  {
    var s := [x] + tail;
    forall a, b | 0 <= a < b < |s| ensures s[a] <= s[b] {
      assert s[b] == tail[b - 1];
      if a > 0 {
        assert s[a] == tail[a - 1];
      }
    }
  }

  lemma SortedSlice(w: seq<int>, lo: nat, hi: nat)
    requires lo <= hi <= |w| && SortedRange(w, lo, hi)
    ensures Sorted(w[lo..hi])
  {
    var s := w[lo..hi];
    forall a, b | 0 <= a < b < |s| ensures s[a] <= s[b] {
      assert s[a] == w[lo + a] && s[b] == w[lo + b];
    }
  }

  lemma SortedOfEqual(a: seq<int>, b: seq<int>)
    requires a == b && Sorted(b)
    ensures Sorted(a)
  {
  }

  /** A merge of a range whose two halves are sorted leaves the range sorted. */
  lemma MergeSortsRange(w: seq<int>, left: nat, mid: nat, right: nat, rule: AdvanceRule)
    requires left <= mid < right < |w|
    requires SortedRange(w, left, mid + 1) && SortedRange(w, mid + 1, right + 1)
    ensures SortedRange(MergeWrite(w, left, mid, right, rule), left, right + 1)
  {
    MergeWriteSplice(w, left, mid, right, rule);
    MergeFromSorted(w, mid, right, left, mid + 1, rule);
    SortedSplice(w[..left], MergeFrom(w, mid, right, left, mid + 1, rule), w[right + 1..]);
  }

  /** A sorted run spliced between any two sequences is a sorted range. */
  lemma SortedSplice(pre: seq<int>, run: seq<int>, post: seq<int>)
    requires Sorted(run)
    ensures SortedRange(pre + run + post, |pre|, |pre| + |run|)
  {
    var s := pre + run + post;
    forall x, y | |pre| <= x < y < |pre| + |run| ensures s[x] <= s[y] {
      assert s[x] == run[x - |pre|] && s[y] == run[y - |pre|];
    }
  }

  /** Under either advance rule, `mergeSortRecursive(left, right)` leaves
      `[left, right]` non-decreasing. */
  lemma {:induction false} SortRangeSorted(w: seq<int>, left: nat, right: int, rule: AdvanceRule)
    requires left <= right + 1 <= |w|
    ensures SortedRange(SortRange(w, left, right, rule), left, right + 1)
    decreases right - left
  {
    if left < right {
      var mid := (left + right) / 2;
      SortRangeSorted(w, left, mid, rule);
      SortRangeSorted(SortRange(w, left, mid, rule), mid + 1, right, rule);
      SortRangeSortedStep(w, left, right, rule);
    }
  }

  /** The inductive step of `SortRangeSorted`: sorted halves, then a merge. */
  lemma SortRangeSortedStep(w: seq<int>, left: nat, right: int, rule: AdvanceRule)
    requires left < right < |w|
    requires var mid := (left + right) / 2;
      SortedRange(SortRange(w, left, mid, rule), left, mid + 1)
    requires var mid := (left + right) / 2;
      SortedRange(SortRange(SortRange(w, left, mid, rule), mid + 1, right, rule), mid + 1, right + 1)
    ensures SortedRange(SortRange(w, left, right, rule), left, right + 1)
  {
    var mid := (left + right) / 2;
    var w1 := SortRange(w, left, mid, rule);
    var w2 := SortRange(w1, mid + 1, right, rule);
    SortRangeFrame(w1, mid + 1, right, rule);
    MergeAfterHalves(w1, w2, left, mid, right, rule);
    SortRangeSortedUnfold(w, left, right, rule);
  }

  /** `SortRangeSorted` carried across one unfolding of `SortRange`. */
  lemma SortRangeSortedUnfold(w: seq<int>, left: nat, right: int, rule: AdvanceRule)
    requires left < right < |w|
    requires var mid := (left + right) / 2;
      SortedRange(MergeWrite(SortRange(SortRange(w, left, mid, rule), mid + 1, right, rule), left, mid, right, rule), left, right + 1)
    ensures SortedRange(SortRange(w, left, right, rule), left, right + 1)
  {
    SortRangeUnfold(w, left, right, rule);
  }

  /** A merge after sorting both halves: the left half was sorted in `w1` and
      left alone while the right half was sorted into `w2`. */
  lemma MergeAfterHalves(w1: seq<int>, w2: seq<int>, left: nat, mid: nat, right: nat, rule: AdvanceRule)
    requires left <= mid < right < |w1| == |w2|
    requires SortedRange(w1, left, mid + 1) && SortedRange(w2, mid + 1, right + 1)
    requires SameOutside(w2, w1, mid + 1, right)
    ensures SortedRange(MergeWrite(w2, left, mid, right, rule), left, right + 1)
  {
    assert SortedRange(w2, left, mid + 1) by {
      forall x, y | left <= x < y < mid + 1 ensures w2[x] <= w2[y] {
        assert w2[x] == w1[x] && w2[y] == w1[y];
      }
    }
    MergeSortsRange(w2, left, mid, right, rule);
  }

  /** The final snapshot is non-decreasing and as long as the input, under
      either advance rule. */
  lemma FinalSorted(a: seq<int>, rule: AdvanceRule)
    ensures |Final(a, rule)| == |a|
    ensures Sorted(Final(a, rule))
  {
    SortRangeSorted(a, 0, |a| - 1, rule);
  }

  // ---- Values come from the input ------------------------------------------

  /** Every value in `s` occurs in `src`. */
  predicate ValuesFrom(s: seq<int>, src: seq<int>) {
    forall k | 0 <= k < |s| :: s[k] in src
  }

  lemma ValuesFromTrans(a: seq<int>, b: seq<int>, c: seq<int>)
    requires ValuesFrom(a, b) && ValuesFrom(b, c)
    ensures ValuesFrom(a, c)
  {
    forall k | 0 <= k < |a| ensures a[k] in c {
      var m :| 0 <= m < |b| && b[m] == a[k];
    }
  }

  /** Under either rule a merge only places values read from the array. */
  lemma {:induction false} MergeFromValues(w: seq<int>, mid: nat, right: nat, i: nat, j: nat, rule: AdvanceRule)
    requires i <= mid + 1 <= j <= right + 1 <= |w|
    ensures ValuesFrom(MergeFrom(w, mid, right, i, j, rule), w)
    decreases (mid + 1 - i) + (right + 1 - j)
  {
    if i <= mid || j <= right {
      MergeFromStep(w, mid, right, i, j, rule);
      if AdvancesLeft(w, mid, right, i, j, rule) {
        MergeFromValues(w, mid, right, i + 1, j, rule);
      } else {
        MergeFromValues(w, mid, right, i, j + 1, rule);
      }
    }
  }

  /** A merge writes back only values already in the array. */
  lemma MergeWriteValues(w: seq<int>, left: nat, mid: nat, right: nat, rule: AdvanceRule)
    requires left <= mid < right < |w|
    ensures ValuesFrom(MergeWrite(w, left, mid, right, rule), w)
  {
    MergeWriteSplice(w, left, mid, right, rule);
    MergeFromValues(w, mid, right, left, mid + 1, rule);
    ValuesFromSplice(w, left, right + 1, MergeFrom(w, mid, right, left, mid + 1, rule));
  }

  /** Writing values of `w` over a slice of `w` keeps to the values of `w`. */
  lemma ValuesFromSplice(w: seq<int>, lo: nat, hi: nat, part: seq<int>)
    requires lo <= hi <= |w| && ValuesFrom(part, w)
    ensures ValuesFrom(w[..lo] + part + w[hi..], w)
  {
    var r := w[..lo] + part + w[hi..];
    forall k | 0 <= k < |r| ensures r[k] in w {
      if k < lo {
        assert r[k] == w[k];
      } else if k < lo + |part| {
        assert r[k] == part[k - lo];
      } else {
        assert r[k] == w[hi + k - lo - |part|];
      }
    }
  }

  /** Under either advance rule, sorting a range only ever writes values that
      were in the array. */
  lemma {:induction false} SortRangeValues(w: seq<int>, left: nat, right: int, rule: AdvanceRule)
    requires left <= right + 1 <= |w|
    ensures ValuesFrom(SortRange(w, left, right, rule), w)
    decreases right - left
  {
    if left < right {
      var mid := (left + right) / 2;
      SortRangeValues(w, left, mid, rule);
      SortRangeValues(SortRange(w, left, mid, rule), mid + 1, right, rule);
      SortRangeValuesStep(w, left, right, rule);
    } else {
      assert forall k | 0 <= k < |w| :: w[k] in w;
    }
  }

  /** The inductive step of `SortRangeValues`. */
  lemma SortRangeValuesStep(w: seq<int>, left: nat, right: int, rule: AdvanceRule)
    requires left < right < |w|
    requires var mid := (left + right) / 2;
      ValuesFrom(SortRange(w, left, mid, rule), w)
    requires var mid := (left + right) / 2;
      ValuesFrom(SortRange(SortRange(w, left, mid, rule), mid + 1, right, rule), SortRange(w, left, mid, rule))
    ensures ValuesFrom(SortRange(w, left, right, rule), w)
  {
    var mid := (left + right) / 2;
    var w1 := SortRange(w, left, mid, rule);
    var w2 := SortRange(w1, mid + 1, right, rule);
    MergeWriteValues(w2, left, mid, right, rule);
    ValuesFromTrans(w2, w1, w);
    ValuesFromTrans(MergeWrite(w2, left, mid, right, rule), w2, w);
    SortRangeValuesUnfold(w, left, right, rule);
  }

  /** `SortRangeValues` carried across one unfolding of `SortRange`. */
  lemma SortRangeValuesUnfold(w: seq<int>, left: nat, right: int, rule: AdvanceRule)
    requires left < right < |w|
    requires var mid := (left + right) / 2;
      ValuesFrom(MergeWrite(SortRange(SortRange(w, left, mid, rule), mid + 1, right, rule), left, mid, right, rule), w)
    ensures ValuesFrom(SortRange(w, left, right, rule), w)
  {
    SortRangeUnfold(w, left, right, rule);
  }

  /** Every value of the final snapshot occurs in the input. */
  lemma FinalValuesFromInput(a: seq<int>, rule: AdvanceRule)
    ensures ValuesFrom(Final(a, rule), a)
  {
    SortRangeValues(a, 0, |a| - 1, rule);
  }

  // ---- The advance rules compared ---------------------------------------

  /** As written, the merge can duplicate one value and lose another: when the
      left head is placed while `i` already sits on the last left element, `j`
      is advanced instead, so the left element is placed again later and the
      right head is skipped. Sorting `[1, 2]` ends on `[1, 1]`. */
  lemma AsWrittenLosesValue()
    ensures MergeFrom([1, 2], 0, 1, 0, 1, AsWritten) == [1, 1]
    ensures Final([1, 2], AsWritten) == [1, 1]
    ensures multiset(Final([1, 2], AsWritten)) != multiset([1, 2])
  {
    var w := [1, 2];
    assert MergeFrom(w, 0, 1, 0, 2, AsWritten) == w[0..1] + w[2..2] == [1];
    assert MergeFrom(w, 0, 1, 0, 1, AsWritten) == [1, 1];
    assert SortRange(w, 0, 1, AsWritten) == MergeWrite(w, 0, 0, 1, AsWritten);
    MergeWriteSplice(w, 0, 0, 1, AsWritten);
    assert MergeWrite(w, 0, 0, 1, AsWritten) == [] + [1, 1] + [];
    assert multiset([1, 1])[2] == 0;
    assert multiset([1, 2])[2] == 1;
  }

  /** With the corrected rule the values a merge places are a permutation of
      what is left of both halves. */
  lemma {:induction false} MergeFromPerm(w: seq<int>, mid: nat, right: nat, i: nat, j: nat)
    requires i <= mid + 1 <= j <= right + 1 <= |w|
    ensures multiset(MergeFrom(w, mid, right, i, j, BySource)) == multiset(w[i..mid + 1]) + multiset(w[j..right + 1])
    decreases (mid + 1 - i) + (right + 1 - j), 1
  {
    if i <= mid && j <= right {
      if w[i] <= w[j] {
        MergeFromPermLeftStep(w, mid, right, i, j);
      } else {
        MergeFromPermRightStep(w, mid, right, i, j);
      }
    }
  }

  /** `MergeFromPerm` when the left head is placed. */
  lemma {:induction false} MergeFromPermLeftStep(w: seq<int>, mid: nat, right: nat, i: nat, j: nat)
    requires i <= mid < j <= right < |w| && w[i] <= w[j]
    ensures multiset(MergeFrom(w, mid, right, i, j, BySource)) == multiset(w[i..mid + 1]) + multiset(w[j..right + 1])
    decreases (mid + 1 - i) + (right + 1 - j), 0
  {
    MergeFromPerm(w, mid, right, i + 1, j);
    var tail := MergeFrom(w, mid, right, i + 1, j, BySource);
    assert MergeFrom(w, mid, right, i, j, BySource) == [w[i]] + tail;
    assert w[i..mid + 1] == [w[i]] + w[i + 1..mid + 1];
    ConsPerm(MergeFrom(w, mid, right, i, j, BySource), w[i], tail,
             w[i..mid + 1], w[i + 1..mid + 1], multiset(w[j..right + 1]));
  }

  /** `MergeFromPerm` when the right head is placed. */
  lemma {:induction false} MergeFromPermRightStep(w: seq<int>, mid: nat, right: nat, i: nat, j: nat)
    requires i <= mid < j <= right < |w| && w[i] > w[j]
    ensures multiset(MergeFrom(w, mid, right, i, j, BySource)) == multiset(w[i..mid + 1]) + multiset(w[j..right + 1])
    decreases (mid + 1 - i) + (right + 1 - j), 0
  {
    MergeFromPerm(w, mid, right, i, j + 1);
    var tail := MergeFrom(w, mid, right, i, j + 1, BySource);
    assert MergeFrom(w, mid, right, i, j, BySource) == [w[j]] + tail;
    assert w[j..right + 1] == [w[j]] + w[j + 1..right + 1];
    ConsPerm(MergeFrom(w, mid, right, i, j, BySource), w[j], tail,
             w[j..right + 1], w[j + 1..right + 1], multiset(w[i..mid + 1]));
  }

  /** Placing the head `x` of `s` in front of a permutation of the rest of `s`
      plus `other` gives a permutation of `s` plus `other`. */
  lemma ConsPerm(r: seq<int>, x: int, tail: seq<int>, s: seq<int>, s': seq<int>, other: multiset<int>)
    requires r == [x] + tail && s == [x] + s'
    requires multiset(tail) == multiset(s') + other || multiset(tail) == other + multiset(s')
    ensures multiset(r) == multiset(s) + other && multiset(r) == other + multiset(s)
  {
  }

  /** With the corrected rule a merge permutes the array. */
  lemma MergeWritePerm(w: seq<int>, left: nat, mid: nat, right: nat)
    requires left <= mid < right < |w|
    ensures multiset(MergeWrite(w, left, mid, right, BySource)) == multiset(w)
  {
    MergeWriteSplice(w, left, mid, right, BySource);
    MergedSplicePerm(w, left, mid, right);
  }

  /** The merged values written back over `[left, right]` permute `w`. */
  lemma MergedSplicePerm(w: seq<int>, left: nat, mid: nat, right: nat)
    requires left <= mid < right < |w|
    ensures multiset(w[..left] + MergeFrom(w, mid, right, left, mid + 1, BySource) + w[right + 1..]) == multiset(w)
  {
    MergeFromPerm(w, mid, right, left, mid + 1);
    MultisetSpliceHalves(w, left, mid + 1, right + 1, MergeFrom(w, mid, right, left, mid + 1, BySource));
  }

  /** With the corrected rule, sorting a range permutes the array. */
  lemma {:induction false} SortRangePerm(w: seq<int>, left: nat, right: int)
    requires left <= right + 1 <= |w|
    ensures multiset(SortRange(w, left, right, BySource)) == multiset(w)
    decreases right - left
  {
    if left < right {
      var mid := (left + right) / 2;
      SortRangePerm(w, left, mid);
      SortRangePerm(SortRange(w, left, mid, BySource), mid + 1, right);
      SortRangePermStep(w, left, right);
    }
  }

  /** The inductive step of `SortRangePerm`. */
  lemma SortRangePermStep(w: seq<int>, left: nat, right: int)
    requires left < right < |w|
    requires var mid := (left + right) / 2;
      multiset(SortRange(w, left, mid, BySource)) == multiset(w)
    requires var mid := (left + right) / 2;
      multiset(SortRange(SortRange(w, left, mid, BySource), mid + 1, right, BySource))
        == multiset(SortRange(w, left, mid, BySource))
    ensures multiset(SortRange(w, left, right, BySource)) == multiset(w)
  {
    var mid := (left + right) / 2;
    var w1 := SortRange(w, left, mid, BySource);
    var w2 := SortRange(w1, mid + 1, right, BySource);
    PermAfterHalves(w, w1, w2, left, mid, right);
    SortRangePermUnfold(w, left, right);
  }

  /** `SortRangePerm` carried across one unfolding of `SortRange`. */
  lemma SortRangePermUnfold(w: seq<int>, left: nat, right: int)
    requires left < right < |w|
    requires var mid := (left + right) / 2;
      multiset(MergeWrite(SortRange(SortRange(w, left, mid, BySource), mid + 1, right, BySource), left, mid, right, BySource))
        == multiset(w)
    ensures multiset(SortRange(w, left, right, BySource)) == multiset(w)
  {
    SortRangeUnfold(w, left, right, BySource);
  }

  /** A corrected merge after two permuting half-sorts permutes the array. */
  lemma PermAfterHalves(w: seq<int>, w1: seq<int>, w2: seq<int>, left: nat, mid: nat, right: nat)
    requires left <= mid < right < |w2|
    requires multiset(w1) == multiset(w) && multiset(w2) == multiset(w1)
    ensures multiset(MergeWrite(w2, left, mid, right, BySource)) == multiset(w)
  {
    MergeWritePerm(w2, left, mid, right);
  }

  /** The merge sort page, started on loaded values, autoplays to a stop on
      the final array, which is non-decreasing; as written it need not be a
      rearrangement of the input (see `AsWrittenLosesValue`). */
  lemma {:induction false} PlaybackEndsOnFinal(p: SortPlayer.Page)
    requires |p.values| > 0
    ensures var r := StartSorting(p);
      var q := SortPlayer.Tick(SortPlayer.TickN(r, |r.steps| - 1));
      SortPlayer.IndexInRange(q) && !q.playing &&
      SortPlayer.Display(q) == Final(p.values, AsWritten) && Sorted(SortPlayer.Display(q))
  {
    var steps := MergeSortSteps(p.values, AsWritten);
    SortPlayer.PlaybackEndsOnLast(p, steps);
    FinalSorted(p.values, AsWritten);
  }

  /** The corrected merge sort ends on a sorted permutation of its input. */
  lemma BySourceSortsInput(a: seq<int>)
    ensures Sorted(Final(a, BySource))
    ensures multiset(Final(a, BySource)) == multiset(a)
  {
    FinalSorted(a, BySource);
    SortRangePerm(a, 0, |a| - 1);
  }
}

=== FILE: queue.dfy ===
/** The queue visualizer: the queue is the item sequence with its front at
    index 0. `enqueue` appends at the rear, `dequeue` removes the front and
    reports it, `front` reports it without removing it; on an empty queue
    `dequeue` and `front` report an error and change nothing. */
module Queue {
  /** What `dequeue` and `front` report: the empty-queue error, or the front
      value. */
  datatype Report = EmptyError | Front(value: int)

  /** `enqueue`: the value joins at the rear; everything ahead of it is as it
      was. */
  function Enqueue(q: seq<int>, v: int): (r: seq<int>)
    ensures |r| == |q| + 1
    ensures r[..|q|] == q && r[|q|] == v
  {
    q + [v]
  }

  /** `dequeue`: the report and the queue afterwards. */
  function Dequeue(q: seq<int>): (r: (Report, seq<int>))
    ensures |q| == 0 <==> r.0 == EmptyError
    ensures |q| == 0 ==> r.1 == q
    ensures |q| > 0 ==> [r.0.value] + r.1 == q
  {
    if |q| == 0 then (EmptyError, q)
    else (Front(q[0]), q[1..])
  }

  /** `front`: reports what `dequeue` would, without changing the queue. */
  function FrontOf(q: seq<int>): (r: Report)
    ensures |q| == 0 <==> r == EmptyError
    ensures |q| > 0 ==> r == Front(q[0])
  {
    if |q| == 0 then EmptyError else Front(q[0])
  }

  /** Enqueueing the values of `xs` one after the other. */
  function EnqueueAll(q: seq<int>, xs: seq<int>): seq<int>
    decreases |xs|
  {
    if |xs| == 0 then q else EnqueueAll(Enqueue(q, xs[0]), xs[1..])
  }

  /** Dequeueing `n` times: the values reported in order, and the queue
      left. */
  function DequeueN(q: seq<int>, n: nat): (seq<Report>, seq<int>)
    decreases n
  {
    if n == 0 then ([], q)
    else
      var step := Dequeue(q);
      var more := DequeueN(step.1, n - 1);
      ([step.0] + more.0, more.1)
  }

  /** Reports of a run of dequeues that all find a value. */
  function Fronts(xs: seq<int>): (r: seq<Report>)
    ensures |r| == |xs|
    ensures forall k | 0 <= k < |r| :: r[k] == Front(xs[k])
  {
    if |xs| == 0 then [] else [Front(xs[0])] + Fronts(xs[1..])
  }

  /** Enqueueing never changes the front of a non-empty queue. */
  lemma EnqueueKeepsFront(q: seq<int>, v: int)
    requires |q| > 0
    ensures FrontOf(Enqueue(q, v)) == FrontOf(q)
  {
  }

  /** `front` agrees with `dequeue`'s report. */
  lemma FrontIsDequeueReport(q: seq<int>)
    ensures FrontOf(q) == Dequeue(q).0
  {
  }

  /** Enqueueing `xs` is appending them at the rear. */
  lemma {:induction false} EnqueueAllAppends(q: seq<int>, xs: seq<int>)
    ensures EnqueueAll(q, xs) == q + xs
    decreases |xs|
  {
    if |xs| > 0 {
      EnqueueAllAppends(q + [xs[0]], xs[1..]);
      assert q + [xs[0]] + xs[1..] == q + xs;
    }
  }

  /** First in, first out: dequeueing as many times as there are items
      reports every item from front to rear and empties the queue. */
  lemma {:induction false} FirstInFirstOut(q: seq<int>)
    ensures DequeueN(q, |q|) == (Fronts(q), [])
    decreases |q|
  {
    if |q| > 0 {
      FirstInFirstOut(q[1..]);
    }
  }

  /** Enqueue 1, 2, 3 into an empty queue, then dequeue once: 1, leaving
      `[2, 3]`. */
  lemma EnqueueThreeDequeueOne()
    ensures EnqueueAll([], [1, 2, 3]) == [1, 2, 3]
    ensures Dequeue([1, 2, 3]) == (Front(1), [2, 3])
  {
    EnqueueAllAppends([], [1, 2, 3]);
  }
}

=== FILE: quicksort.dfy ===
/** The quicksort visualizer's step generator: Lomuto partition with the last
    element of the range as pivot, recursion on both sides of the pivot, and a
    snapshot of the working array recorded at every `steps.push`. Snapshots are
    modelled as their values; the display tags they carry are not. */
module QuickSort {
  import opened Common
  import SortPlayer

  /** `b` is a rearrangement of `a` that differs from it only inside
      `[lo, hi)`. (`RangePermSlice` shows that the slice itself is then
      rearranged.) */
  predicate RangePerm(a: seq<int>, b: seq<int>, lo: int, hi: int) {
    && |b| == |a|
    && 0 <= lo <= hi <= |a|
    && (forall k | 0 <= k < |a| && !(lo <= k < hi) :: b[k] == a[k])
    && multiset(b) == multiset(a)
  }

  /** Every snapshot is a rearrangement of `a`. */
  predicate AllPermutations(steps: seq<seq<int>>, a: seq<int>) {
    forall k | 0 <= k < |steps| :: |steps[k]| == |a| && multiset(steps[k]) == multiset(a)
  }

  /** Exchange of two positions (`[w[i], w[j]] = [w[j], w[i]]`). */
  function Swap(s: seq<int>, i: int, j: int): (r: seq<int>)
    requires 0 <= i < |s| && 0 <= j < |s|
    ensures |r| == |s| && r[i] == s[j] && r[j] == s[i]
    ensures forall k | 0 <= k < |s| && k != i && k != j :: r[k] == s[k]
    ensures multiset(r) == multiset(s)
  {
    s[i := s[j]][j := s[i]]
  }

  /** A swap inside `[lo, hi)` is a rearrangement of that range. */
  lemma SwapInRange(s: seq<int>, i: int, j: int, lo: int, hi: int)
    requires 0 <= lo <= i < hi <= |s| && lo <= j < hi
    ensures RangePerm(s, Swap(s, i, j), lo, hi)
  {
  }

  lemma RangePermTrans(a: seq<int>, b: seq<int>, c: seq<int>, lo: int, hi: int)
    requires RangePerm(a, b, lo, hi) && RangePerm(b, c, lo, hi)
    ensures RangePerm(a, c, lo, hi)
  {
  }

  /** A rearrangement of a sub-range is a rearrangement of any range around it. */
  lemma RangePermWiden(a: seq<int>, b: seq<int>, lo: int, hi: int, lo': int, hi': int)
    requires RangePerm(a, b, lo, hi)
    requires 0 <= lo' <= lo && hi <= hi' <= |a|
    ensures RangePerm(a, b, lo', hi')
  {
  }

  /** The slice `[lo, hi)` of a range rearrangement holds the same values with
      the same multiplicities as before, and everything around it is kept. */
  lemma RangePermSlice(a: seq<int>, b: seq<int>, lo: int, hi: int)
    requires RangePerm(a, b, lo, hi)
    ensures b[..lo] == a[..lo] && b[hi..] == a[hi..]
    ensures multiset(b[lo..hi]) == multiset(a[lo..hi])
  {
    assert b[..lo] == a[..lo];
    assert b[hi..] == a[hi..];
    MultisetThreeWay(a, lo, hi);
    MultisetThreeWay(b, lo, hi);
    MultisetCancel(multiset(a[..lo]), multiset(b[lo..hi]), multiset(a[lo..hi]), multiset(a[hi..]));
  }

  /** A value of the rearranged range was a value of the original range. */
  lemma RangePermElem(a: seq<int>, b: seq<int>, lo: int, hi: int, k: int)
    requires RangePerm(a, b, lo, hi) && lo <= k < hi
    ensures exists m | lo <= m < hi :: b[k] == a[m]
  {
    RangePermSlice(a, b, lo, hi);
    assert b[k] == b[lo..hi][k - lo];
    assert b[k] in multiset(a[lo..hi]);
    var m :| 0 <= m < hi - lo && a[lo..hi][m] == b[k];
    assert a[lo + m] == b[k];
  }

  /** Every value of `b[lo..hi)` is below `v` when every value of `a[lo..hi)` is. */
  lemma RangePermBelow(a: seq<int>, b: seq<int>, lo: int, hi: int, v: int)
    requires RangePerm(a, b, lo, hi)
    requires forall k | lo <= k < hi :: a[k] < v
    ensures forall k | lo <= k < hi :: b[k] < v
  {
    forall k | lo <= k < hi ensures b[k] < v {
      RangePermElem(a, b, lo, hi, k);
    }
  }

  /** Every value of `b[lo..hi)` is at least `v` when every value of `a[lo..hi)` is. */
  lemma RangePermAtLeast(a: seq<int>, b: seq<int>, lo: int, hi: int, v: int)
    requires RangePerm(a, b, lo, hi)
    requires forall k | lo <= k < hi :: a[k] >= v
    ensures forall k | lo <= k < hi :: b[k] >= v
  {
    forall k | lo <= k < hi ensures b[k] >= v {
      RangePermElem(a, b, lo, hi, k);
    }
  }

  /** `partition(low, high)`: pivot `a[high]`; scanning `j` from `low` to
      `high - 1`, every element strictly below the pivot is swapped to the
      front; the pivot is finally swapped into place `i + 1`, which is
      returned. Snapshots: pivot marked, each comparison, each swap marked and
      done, pivot swap marked and done. */
  method Partition(a: seq<int>, low: int, high: int) returns (b: seq<int>, p: int, steps: seq<seq<int>>)
    requires 0 <= low <= high < |a|
    ensures low <= p <= high
    ensures RangePerm(a, b, low, high + 1)
    ensures b[p] == a[high]
    ensures forall k | low <= k < p :: b[k] < b[p]
    ensures forall k | p < k <= high :: b[k] >= b[p]
    ensures AllPermutations(steps, a)
    ensures |steps| >= 3 && steps[|steps| - 1] == b
  {
    b := a;
    steps := [b];
    var i := low - 1;
    var j := low;
    while j < high
      invariant ScanInv(a, b, low, high, i, j)
      invariant AllPermutations(steps, a) && |steps| >= 1
    {
      b, i, steps := ScanStep(a, b, low, high, i, j, steps);
      j := j + 1;
    }
    steps := Record(steps, b, a);
    PivotSwap(a, b, Swap(b, i + 1, high), low, high, i);
    b := Swap(b, i + 1, high);
    steps := Record(steps, b, a);
    p := i + 1;
  }

  /** What holds after the scan has looked at `[low, j)`: the elements in
      `[low, i]` are below the pivot, those in `(i, j)` are not, and the pivot
      still sits at `high`. */
  predicate ScanInv(a: seq<int>, b: seq<int>, low: int, high: int, i: int, j: int) {
    && 0 <= low <= j <= high < |a|
    && low - 1 <= i < j
    && RangePerm(a, b, low, high + 1)
    && b[high] == a[high]
    && (forall k | low <= k <= i :: b[k] < a[high])
    && (forall k | i < k < j :: b[k] >= a[high])
  }

  /** One turn of the scan loop: compare `b[j]` with the pivot, and when it is
      strictly smaller grow the low side by one and swap it in. */
  method ScanStep(a: seq<int>, b: seq<int>, low: int, high: int, i: int, j: int, steps: seq<seq<int>>)
    returns (b': seq<int>, i': int, steps': seq<seq<int>>)
    requires ScanInv(a, b, low, high, i, j) && j < high
    requires AllPermutations(steps, a)
    ensures ScanInv(a, b', low, high, i', j + 1)
    ensures b[j] < a[high] ==> i' == i + 1
    ensures b[j] >= a[high] ==> i' == i && b' == b
    ensures AllPermutations(steps', a) && |steps'| > |steps|
  {
    steps' := Record(steps, b, a);
    if b[j] < a[high] {
      i' := i + 1;
      steps' := Record(steps', b, a);
      ScanSwapKeepsInv(a, b, low, high, i, j);
      b' := Swap(b, i', j);
      steps' := Record(steps', b', a);
    } else {
      b' := b;
      i' := i;
    }
  }

  /** Swapping an element below the pivot to the end of the low side keeps
      the scan invariant one position further on. */
  lemma ScanSwapKeepsInv(a: seq<int>, b: seq<int>, low: int, high: int, i: int, j: int)
    requires ScanInv(a, b, low, high, i, j) && j < high && b[j] < a[high]
    ensures ScanInv(a, Swap(b, i + 1, j), low, high, i + 1, j + 1)
  {
    var c := Swap(b, i + 1, j);
    SwapInRange(b, i + 1, j, low, high + 1);
    RangePermTrans(a, b, c, low, high + 1);
    forall k | low <= k <= i + 1 ensures c[k] < a[high] {
      if k < i + 1 {
        assert c[k] == b[k];
      }
    }
    forall k | i + 1 < k < j + 1 ensures c[k] >= a[high] {
      if k < j {
        assert c[k] == b[k];
      }
    }
  }

  /** The closing swap puts the pivot between the two sides. */
  lemma PivotSwap(a: seq<int>, b: seq<int>, c: seq<int>, low: int, high: int, i: int)
    requires ScanInv(a, b, low, high, i, high)
    requires c == Swap(b, i + 1, high)
    ensures RangePerm(a, c, low, high + 1)
    ensures c[i + 1] == a[high]
    ensures forall k | low <= k < i + 1 :: c[k] < a[high]
    ensures forall k | i + 1 < k <= high :: c[k] >= a[high]
  {
    SwapInRange(b, i + 1, high, low, high + 1);
    RangePermTrans(a, b, c, low, high + 1);
  }

  /** `steps.push([...workingArray])` for a working array that is a
      rearrangement of the input. */
  function Record(steps: seq<seq<int>>, w: seq<int>, a: seq<int>): (r: seq<seq<int>>)
    requires AllPermutations(steps, a)
    requires multiset(w) == multiset(a)
    ensures AllPermutations(r, a)
    ensures |r| == |steps| + 1 && r[|steps|] == w && r[..|steps|] == steps
  {
    assert |w| == |multiset(w)| == |a|;
    steps + [w]
  }

  /** `quickSortRecursive(low, high)`: nothing when `low >= high`; otherwise
      partition and recurse left then right of the pivot. The range ends up
      sorted and rearranged, everything else untouched. */
  method SortRange(a: seq<int>, low: int, high: int) returns (b: seq<int>, steps: seq<seq<int>>)
    requires 0 <= low <= high + 1 <= |a|
    ensures RangePerm(a, b, low, high + 1)
    ensures SortedRange(b, low, high + 1)
    ensures AllPermutations(steps, a)
    ensures low >= high ==> b == a && steps == []
    ensures low < high ==> |steps| >= 3
    ensures |steps| > 0 ==> steps[|steps| - 1] == b
    decreases high - low
  {
    if low < high {
      var b1, p, s1 := Partition(a, low, high);
      var b2, s2 := SortRange(b1, low, p - 1);
      var b3, s3 := SortRange(b2, p + 1, high);
      b := b3;
      steps := s1 + s2 + s3;
      PartitionedThenSorted(a, b1, b2, b3, low, p, high);
    } else {
      b := a;
      steps := [];
    }
  }

  /** The glue of `SortRange`: sorting both sides of a partitioned range sorts
      the range, and the snapshots of all three phases stay rearrangements. */
  lemma PartitionedThenSorted(a: seq<int>, b1: seq<int>, b2: seq<int>, b3: seq<int>, low: int, p: int, high: int)
    requires 0 <= low <= p <= high < |a|
    requires RangePerm(a, b1, low, high + 1)
    requires forall k | low <= k < p :: b1[k] < b1[p]
    requires forall k | p < k <= high :: b1[k] >= b1[p]
    requires RangePerm(b1, b2, low, p) && SortedRange(b2, low, p)
    requires RangePerm(b2, b3, p + 1, high + 1) && SortedRange(b3, p + 1, high + 1)
    ensures RangePerm(a, b3, low, high + 1)
    ensures SortedRange(b3, low, high + 1)
  {
    RangePermBelow(b1, b2, low, p, b1[p]);
    RangePermWiden(b1, b2, low, p, low, high + 1);
    RangePermAtLeast(b2, b3, p + 1, high + 1, b1[p]);
    RangePermWiden(b2, b3, p + 1, high + 1, low, high + 1);
    RangePermTrans(a, b1, b2, low, high + 1);
    RangePermTrans(a, b2, b3, low, high + 1);
    assert b2[p] == b1[p] by {
      assert b2[p..] == b1[p..];
      assert b2[p] == b2[p..][0];
    }
    assert b3[p] == b2[p] by {
      assert b3[..p + 1] == b2[..p + 1];
      assert b3[p] == b3[..p + 1][p];
    }
    forall k | low <= k < p ensures b3[k] == b2[k] {
      assert b3[..p + 1] == b2[..p + 1];
      assert b3[k] == b3[..p + 1][k];
    }
  }

  /** `quickSort(arr)`: sort the whole array, then record the all-sorted
      snapshot. The recording is never empty, ends in a non-decreasing
      rearrangement of the input, and every snapshot is a rearrangement of
      the input; an input of at most one element yields exactly one snapshot. */
  method QuickSortSteps(a: seq<int>) returns (steps: seq<seq<int>>)
    ensures |steps| >= 1
    ensures Sorted(steps[|steps| - 1])
    ensures multiset(steps[|steps| - 1]) == multiset(a)
    ensures AllPermutations(steps, a)
    ensures |a| <= 1 ==> steps == [a]
  {
    var b, s := SortRange(a, 0, |a| - 1);
    assert b[0..|a|] == b && a[0..|a|] == a;
    steps := s + [b];
  }

  /** `startSorting`: refused on an empty array; otherwise the page plays the
      quicksort recording from its first snapshot. */
  method StartSorting(p: SortPlayer.Page) returns (r: SortPlayer.Page)
    ensures |p.values| == 0 ==> r == p
    ensures |p.values| > 0 ==> r.playing && r.current == 0 && |r.steps| > 0 && r.values == p.values
    ensures |p.values| > 0 ==> Sorted(r.steps[|r.steps| - 1]) && AllPermutations(r.steps, p.values)
    ensures SortPlayer.IndexInRange(p) ==> SortPlayer.IndexInRange(r)
    ensures |p.values| > 0 ==> PlaysToSorted(r, p.values)
  {
    if |p.values| == 0 {
      r := p;
    } else {
      var steps := QuickSortSteps(p.values);
      r := SortPlayer.Start(p, steps);
      SortPlayer.PlaybackEndsOnLast(p, steps);
    }
  }

  /** Autoplay from `r` stops showing a non-decreasing rearrangement of
      `values`. */
  predicate PlaysToSorted(r: SortPlayer.Page, values: seq<int>) {
    |r.steps| > 0 &&
    var q := SortPlayer.Tick(SortPlayer.TickN(r, |r.steps| - 1));
    SortPlayer.IndexInRange(q) && !q.playing &&
    Sorted(SortPlayer.Display(q)) && multiset(SortPlayer.Display(q)) == multiset(values)
  }
}

=== FILE: search_graph.dfy ===
/** The fixed six-node graph the BFS and DFS visualizers traverse: nodes
    `0..5` labelled `A..F`, each with its neighbour list in the order the
    visualizers iterate it. */
module SearchGraph {
  import opened Common

  const NodeCount: nat := 6

  const Neighbors: seq<seq<nat>> := [[1, 2], [0, 3, 4], [0, 5], [1], [1, 5], [2, 4]]

  /** Whether an id names a node (`nodes.find` succeeds). */
  predicate IsNode(id: int) {
    0 <= id < NodeCount
  }

  /** The node's label, `A` for node 0 and so on. */
  function Label(id: int): (c: char)
    requires IsNode(id)
    ensures 'A' <= c <= 'F'
  {
    ('A' as int + id) as char
  }

  /** A node's neighbour list is non-empty, names nodes only, never the
      node itself, and never the same node twice. */
  lemma NeighborsWellFormed(u: int)
    requires IsNode(u)
    ensures |Neighbors[u]| > 0 && NoDup(Neighbors[u])
    ensures forall n | n in Neighbors[u] :: IsNode(n) && n != u
  {
  }

  /** The ids of `ns` outside `visited`, in their order: the filter both
      traversals apply to a neighbour list. */
  function Unvisited(ns: seq<nat>, visited: set<int>): (r: seq<nat>)
    ensures forall x | x in r :: x in ns && x !in visited
    ensures forall x | x in ns && x !in visited :: x in r
    ensures |ns| > 0 && ns[0] !in visited ==> |r| > 0 && r[0] == ns[0]
    ensures NoDup(ns) ==> NoDup(r)
    ensures Subsequence(r, ns)
  {
    if |ns| == 0 then []
    else
      var rest := Unvisited(ns[1..], visited);
      assert forall x | x in ns :: x == ns[0] || x in ns[1..];
      if ns[0] in visited then rest
      else [ns[0]] + rest
  }

  /** The ids not yet visited that name nodes; the traversals' progress measure. */
  function Remaining(visited: set<int>): set<int> {
    set i | 0 <= i < NodeCount && i !in visited
  }

  /** A subset is no larger, and a proper subset is smaller. */
  lemma SubsetCard(a: set<int>, b: set<int>)
    requires a <= b
    ensures |a| <= |b|
    ensures a != b ==> |a| < |b|
  {
    var d := b - a;
    assert b == a + d && a !! d;
    if a != b {
      assert d != {};
    }
  }

  /** Every neighbour of a node in `visited` is in `visited` too. */
  predicate ClosedUnder(visited: set<int>) {
    forall v | IsNode(v) && v in visited :: forall n | n in Neighbors[v] :: n in visited
  }

  /** One edge out of a closed set. */
  lemma ClosedEdge(visited: set<int>, v: int, k: nat)
    requires ClosedUnder(visited) && IsNode(v) && v in visited && k < |Neighbors[v]|
    ensures Neighbors[v][k] in visited
  {
    assert Neighbors[v][k] in Neighbors[v];
  }

  /** The graph is connected: a set closed under neighbours that holds one
      node holds them all. */
  lemma Connected(visited: set<int>, start: int)
    requires ClosedUnder(visited) && IsNode(start) && start in visited
    ensures forall i | IsNode(i) :: i in visited
  {
    if start == 3 || start == 4 {
      ClosedEdge(visited, start, 0);
      ClosedEdge(visited, 1, 0);
    } else if start == 5 {
      ClosedEdge(visited, 5, 0);
      ClosedEdge(visited, 2, 0);
    } else if start != 0 {
      ClosedEdge(visited, start, 0);
    }
    ClosedEdge(visited, 0, 0);
    ClosedEdge(visited, 0, 1);
    ClosedEdge(visited, 1, 1);
    ClosedEdge(visited, 1, 2);
    ClosedEdge(visited, 2, 1);
  }
}

=== FILE: sort_player.dfy ===
/** The page state shared by the quicksort and merge sort visualizers: the
    loaded array, the recorded snapshots, the index of the snapshot on screen
    and whether autoplay is running. Both visualizers drive it the same way:
    load text, start, step manually or let the interval tick, reset. */
module SortPlayer {
  import opened InputParse

  datatype Page = Page(values: seq<int>, steps: seq<seq<int>>, current: nat, playing: bool)

  /** The on-screen index always names a recorded snapshot, or is 0 when
      nothing is recorded. */
  predicate IndexInRange(p: Page) {
    if |p.steps| == 0 then p.current == 0 else p.current < |p.steps|
  }

  /** The page as it first renders, before the initial text is loaded. */
  const Initial: Page := Page([], [], 0, false)

  /** `createArrayFromInput`: text with no integer is rejected and leaves the
      page as it was; otherwise the array becomes the parsed integers and the
      recording is discarded. */
  function LoadInput(p: Page, input: string): (r: Page)
    ensures ParseValues(input) == [] ==> r == p
    ensures ParseValues(input) != [] ==>
      r.values == ParseValues(input) && r.steps == [] && r.current == 0 && r.playing == p.playing
    ensures IndexInRange(p) ==> IndexInRange(r)
  {
    var values := ParseValues(input);
    if |values| == 0 then p else p.(values := values, current := 0, steps := [])
  }

  /** `startSorting`: refused on an empty array, otherwise installs the
      recording, rewinds to its first snapshot and starts autoplay. */
  function Start(p: Page, steps: seq<seq<int>>): (r: Page)
    requires |p.values| > 0 ==> |steps| > 0
    ensures |p.values| == 0 ==> r == p
    ensures |p.values| > 0 ==> r.steps == steps && r.current == 0 && r.playing && r.values == p.values
    ensures IndexInRange(p) ==> IndexInRange(r)
  {
    if |p.values| == 0 then p else p.(steps := steps, current := 0, playing := true)
  }

  /** `resetArray`: stop, rewind and discard the recording; values are kept. */
  function Reset(p: Page): (r: Page)
    ensures r.values == p.values && r.steps == [] && !r.playing
    ensures IndexInRange(r)
  {
    Page(p.values, [], 0, false)
  }

  function TogglePlay(p: Page): (r: Page)
    ensures r.playing != p.playing && r.(playing := p.playing) == p
  {
    p.(playing := !p.playing)
  }

  /** `nextStep`: advance by one unless already on the last snapshot. */
  function NextStep(p: Page): (r: Page)
    ensures r.values == p.values && r.steps == p.steps && r.playing == p.playing
    ensures p.current + 1 < |p.steps| ==> r.current == p.current + 1
    ensures p.current + 1 >= |p.steps| ==> r.current == p.current
    ensures IndexInRange(p) ==> IndexInRange(r)
  {
    if p.current < |p.steps| - 1 then p.(current := p.current + 1) else p
  }

  /** One firing of the autoplay interval, which only runs while playing with
      a non-empty recording: on the last snapshot it stops playing, otherwise
      it advances by one. */
  function Tick(p: Page): (r: Page)
    ensures r.values == p.values && r.steps == p.steps
    ensures !(p.playing && |p.steps| > 0) ==> r == p
    ensures p.playing && p.current + 1 < |p.steps| ==> r.current == p.current + 1 && r.playing
    ensures p.playing && 0 < |p.steps| <= p.current + 1 ==> r.current == p.current && !r.playing
    ensures IndexInRange(p) ==> IndexInRange(r)
  {
    if !(p.playing && |p.steps| > 0) then p
    else if p.current >= |p.steps| - 1 then p.(playing := false)
    else p.(current := p.current + 1)
  }

  /** What the page draws: the current snapshot, or the loaded array when
      nothing is recorded. */
  function Display(p: Page): (r: seq<int>)
    requires IndexInRange(p)
    ensures |p.steps| == 0 ==> r == p.values
    ensures |p.steps| > 0 ==> r in p.steps && r == p.steps[p.current]
  {
    if |p.steps| > 0 then p.steps[p.current] else p.values
  }

  /** The interval fired `n` times. */
  function TickN(p: Page, n: nat): Page
    decreases n
  {
    if n == 0 then p else TickN(Tick(p), n - 1)
  }

  /** However many times the interval fires after `Start`, the index never
      passes the last snapshot, and after `|steps| - 1` firings it sits on the
      last snapshot; one more firing stops autoplay. */
  lemma {:induction false} AutoplayStopsAtLast(p: Page, n: nat)
    requires IndexInRange(p) && p.playing && |p.steps| > 0
    requires p.current + n <= |p.steps| - 1
    ensures IndexInRange(TickN(p, n))
    ensures TickN(p, n).current == p.current + n && TickN(p, n).playing
    ensures p.current + n == |p.steps| - 1 ==> !Tick(TickN(p, n)).playing
    ensures p.current + n == |p.steps| - 1 ==> Tick(TickN(p, n)).current == |p.steps| - 1
    decreases n
  {
    if n > 0 {
      AutoplayStopsAtLast(Tick(p), n - 1);
    }
  }

  /** Index stays in range under any number of interval firings. */
  lemma {:induction false} TickNInRange(p: Page, n: nat)
    requires IndexInRange(p)
    ensures IndexInRange(TickN(p, n))
    ensures TickN(p, n).steps == p.steps
    decreases n
  {
    if n > 0 {
      TickNInRange(Tick(p), n - 1);
    }
  }

  /** Playback after `Start`: the `k`-th firing of the interval shows the
      `k`-th recorded snapshot, so the snapshots appear in recording order,
      one per firing. */
  lemma {:induction false} PlaybackShows(p: Page, steps: seq<seq<int>>, k: nat)
    requires |p.values| > 0 && |steps| > 0 && k < |steps|
    ensures IndexInRange(TickN(Start(p, steps), k))
    ensures Display(TickN(Start(p, steps), k)) == steps[k]
  {
    var s0 := Start(p, steps);
    assert s0.steps == steps && s0.current == 0 && s0.playing;
    AutoplayStopsAtLast(s0, k);
    TickNInRange(s0, k);
  }

  /** Once autoplay stops it stays on the last snapshot: the page ends
      showing the last recorded array. */
  lemma {:induction false} PlaybackEndsOnLast(p: Page, steps: seq<seq<int>>)
    requires |p.values| > 0 && |steps| > 0
    ensures var q := Tick(TickN(Start(p, steps), |steps| - 1));
      IndexInRange(q) && !q.playing && Display(q) == steps[|steps| - 1]
  {
    var s0 := Start(p, steps);
    assert s0.steps == steps && s0.current == 0 && s0.playing;
    var n := |steps| - 1;
    AutoplayStopsAtLast(s0, n);
    TickNInRange(s0, n);
  }

}

=== FILE: stack.dfy ===
/** The stack visualizer: the stack is the item sequence with its top at the
    end. `push` appends, `pop` removes the last item and reports it, `peek`
    reports it without removing it; on an empty stack `pop` and `peek` report
    an error and change nothing. */
module Stack {
  import opened Common

  /** What `pop` and `peek` report: the empty-stack error, or the top value. */
  datatype Report = EmptyError | Top(value: int)

  /** `push`: the value goes on top; everything under it is as it was. */
  function Push(s: seq<int>, v: int): (r: seq<int>)
    ensures |r| == |s| + 1 && r[..|s|] == s
    ensures Peek(r) == Top(v)
  {
    s + [v]
  }

  /** `pop`: the report and the stack afterwards. */
  function Pop(s: seq<int>): (r: (Report, seq<int>))
    ensures |s| == 0 <==> r.0 == EmptyError
    ensures |s| == 0 ==> r.1 == s
    ensures |s| > 0 ==> r.1 + [r.0.value] == s
  {
    if |s| == 0 then (EmptyError, s)
    else (Top(s[|s| - 1]), s[..|s| - 1])
  }

  /** `peek`: reports what `pop` would, without changing the stack. */
  function Peek(s: seq<int>): (r: Report)
    ensures |s| == 0 <==> r == EmptyError
    ensures |s| > 0 ==> r == Top(s[|s| - 1])
  {
    if |s| == 0 then EmptyError else Top(s[|s| - 1])
  }

  /** Pushing the values of `xs` one after the other. */
  function PushAll(s: seq<int>, xs: seq<int>): seq<int>
    decreases |xs|
  {
    if |xs| == 0 then s else PushAll(Push(s, xs[0]), xs[1..])
  }

  /** Popping `n` times: the values reported in order, and the stack left. */
  function PopN(s: seq<int>, n: nat): (seq<Report>, seq<int>)
    decreases n
  {
    if n == 0 then ([], s)
    else
      var step := Pop(s);
      var more := PopN(step.1, n - 1);
      ([step.0] + more.0, more.1)
  }

  /** Reports of a run of pops that all find a value. */
  function Tops(xs: seq<int>): (r: seq<Report>)
    ensures |r| == |xs|
    ensures forall k | 0 <= k < |r| :: r[k] == Top(xs[k])
  {
    if |xs| == 0 then [] else [Top(xs[0])] + Tops(xs[1..])
  }

  /** Push then pop gives the pushed value back and restores the stack. */
  lemma PushThenPop(s: seq<int>, v: int)
    ensures Pop(Push(s, v)) == (Top(v), s)
  {
  }

  /** Pop then push of the popped value restores a non-empty stack. */
  lemma PopThenPush(s: seq<int>)
    requires |s| > 0
    ensures Push(Pop(s).1, Pop(s).0.value) == s
  {
  }

  /** `peek` agrees with `pop`'s report. */
  lemma PeekIsPopReport(s: seq<int>)
    ensures Peek(s) == Pop(s).0
  {
  }

  /** Pushing after `xs` on top of `s` is appending them. */
  lemma {:induction false} PushAllAppends(s: seq<int>, xs: seq<int>)
    ensures PushAll(s, xs) == s + xs
    decreases |xs|
  {
    if |xs| > 0 {
      PushAllAppends(s + [xs[0]], xs[1..]);
      assert s + [xs[0]] + xs[1..] == s + xs;
    }
  }

  /** Last in, first out: after pushing `xs`, as many pops report `xs` in
      reverse order and leave the stack as it was before the pushes. */
  lemma {:induction false} LastInFirstOut(s: seq<int>, xs: seq<int>)
    ensures PopN(PushAll(s, xs), |xs|) == (Tops(Reverse(xs)), s)
    decreases |xs|
  {
    PushAllAppends(s, xs);
    if |xs| > 0 {
      var last := xs[|xs| - 1];
      var init := xs[..|xs| - 1];
      assert s + xs == (s + init) + [last];
      PushThenPop(s + init, last);
      LastInFirstOut(s, init);
      PushAllAppends(s, init);
      assert Reverse(xs) == [last] + Reverse(init);
      assert Tops(Reverse(xs)) == [Top(last)] + Tops(Reverse(init));
    }
  }

  /** Push 1, 2, 3 onto an empty stack, then pop twice: 3, then 2, leaving
      `[1]`. */
  lemma PushThreePopTwo()
    ensures PushAll([], [1, 2, 3]) == [1, 2, 3]
    ensures PopN([1, 2, 3], 2) == ([Top(3), Top(2)], [1])
  {
    PushAllAppends([], [1, 2, 3]);
    LastInFirstOut([1], [2, 3]);
    PushAllAppends([1], [2, 3]);
    assert Reverse([2, 3]) == [3, 2];
    assert Tops([3, 2]) == [Top(3), Top(2)];
  }
}
